=== FILE: README.md ===
# BrewNix quality tooling: a Dafny model of its decision logic

This project models the pure decision logic of the BrewNix code-quality tooling in Dafny and proves properties of it. That logic is what turns linter output, source lines, counts and durations into findings, scores, statuses and exit codes.

- **`QualityGates`** models the orchestrator `QualityGateManager`:
  - the status rules of the linting, complexity, security and review gates;
  - the lint output-line counter;
  - the clamped scores of the four fallback review checks;
  - the precedence that combines gate statuses into an overall status;
  - the summary and the exit code of `main`.
- **`CodeReview`** models `CodeReviewAutomator`:
  - the per-line Python, shell and configuration checks, including the magic-number scan;
  - the syntax-tree visitor, with `count_nested_ifs` over a small statement tree;
  - the documentation review;
  - the weighted, capped score and the recommendations.
- **`SecurityScan`** models `SecurityScanner`:
  - the first-match-wins line classifiers for Python, shell and configuration lines;
  - the per-file scan, with its one-based line numbers and the unreadable-file finding;
  - the severity summary and the recommendations.
- **`Complexity`** models `ComplexityAnalyzer`:
  - the line-based cyclomatic counters;
  - the brace-balance scan that finds where a shell function ends;
  - the shell function length and the JavaScript length estimate;
  - the strict `>` threshold classification;
  - the summary statistics and the recommendations.
- **`Coverage`** models `tests/coverage_analyzer.py`:
  - the tested/uncovered partition;
  - the order in which test files are looked up;
  - the coverage percentage;
  - the truncated uncovered list;
  - the phase assessment.
- **`CodeQuality`** models the per-language scores, the file-weighted overall score and the insights of `analyze-code-quality.py`.
- **`DevAnalytics`** models the date-cutoff loops of `generate-development-analytics.py`, both as written and as intended (see Findings); its `calculate_stats`, with the median, is `Stats.MedianStats`.
- **`PipelineReport`** models the per-workflow run metrics, the summary, the problematic-workflow filter and the third-quartile slow threshold of `generate-pipeline-report.py`.
- **`PerfRegression`** models the baseline bookkeeping of `test_script_performance` and the verdict of `run_performance_tests`.
- **`Stats`**, **`Text`** and **`Common`** hold what several of those modules share:
  - `min`, `max`, mean, sorting and the two `calculate_stats`;
  - Python's `str.strip`, `in`, `count`, `split`, `lower` and `upper` on `seq<char>`;
  - `Option`.

Files, subprocess output and parser results are parameters of the model.

The model keeps the code's behaviour where it is surprising, and proves these properties:

- The review summary and the security summary read severity buckets that nothing fills. The review score is therefore always 100, and the security report always says that nothing was found (see Findings).
- A one-line shell function on the first line of a file closes at index 0. Index 0 is falsy, so the function is given the default length 10.
- The check for `eval(` also matches `literal_eval(`.
- With no gate results, the overall status is `passed`.
- A pylint score of 0 counts as a perfect score, yet it still produces the low-pylint insight.
- flake8's trailing newline counts as one more issue.
- The number of complex files always equals the number of high-complexity functions.
- A stale pull request in the issues listing does not end the scan.
- The development analytics compare timezone-aware timestamps with a naive cutoff, so any non-empty pull-request listing, and any issue listing that holds an issue, raises `TypeError` (see Findings).
- A recorded baseline of 0 makes the next run that takes any time raise `ZeroDivisionError`.
- An `if`/`elif` chain four deep counts as deep nesting. Each `if` in such a chain that is still deeper than 3 is reported again.

## Model

| member | source | states |
|---|---|---|
| QualityGates.Classify | quality-gates/run_quality_gates.py:327-332 | A linter output line is skipped exactly when it strips to nothing. A non-blank line is an error exactly when its lower-case form mentions "error" (for shellcheck, also "critical"). Every other non-blank line is a warning. |
| QualityGates.KindsPartition | quality-gates/run_quality_gates.py:326-333 | The blank, error and warning counts of an output add up to its number of lines: each line has exactly one kind. |
| QualityGates.BlankCountAnyLanguage | quality-gates/run_quality_gates.py:359-366 | Which output lines count as blank does not depend on the linter. |
| QualityGates.CountLintLines | quality-gates/run_quality_gates.py:326-333 | The counting loop counts every non-blank line exactly once. The errors are exactly the lines that classify as errors, and errors plus warnings equal the non-blank lines. |
| QualityGates.SyntaxFailures | quality-gates/run_quality_gates.py:338-343 | The syntax-check fallback counts no error exactly when every file passes the syntax check, and never more errors than there are files. |
| QualityGates.LintLanguage | quality-gates/run_quality_gates.py:314-379 | A linter that exits with 0 contributes nothing. A linter that reports issues contributes the line counts above. A missing linter contributes at most one error per file and no warnings. |
| QualityGates.TotalErrors | quality-gates/run_quality_gates.py:99-101 | The total error count is zero exactly when every language reports no errors. |
| QualityGates.LintStatus | quality-gates/run_quality_gates.py:103-109 | The linting gate fails exactly when some language has an error. It warns exactly when no language has an error and the warnings add up to more than 10. It always has a definite status. |
| QualityGates.TotalsMonotone | quality-gates/run_quality_gates.py:99-101 | More errors or warnings in each language never lower the totals. |
| QualityGates.LintStatusMonotone | quality-gates/run_quality_gates.py:99-109 | More errors or warnings in each language never improve the linting verdict. |
| QualityGates.MaxOrZero | quality-gates/run_quality_gates.py:140-141 | `max(..., default=0)` bounds every element from above and is one of them; for an empty list it is 0. |
| QualityGates.ComplexityStatus | quality-gates/run_quality_gates.py:139-148 | The complexity gate fails exactly when some reported complexity exceeds 10. It warns exactly when none does and some reported length exceeds 100. |
| QualityGates.EmptyComplexityPasses | quality-gates/run_quality_gates.py:140-148 | With no complex and no long functions reported, the complexity gate passes. |
| QualityGates.LineCount | quality-gates/run_quality_gates.py:458 | `len(content.split('\n'))` is at least 1, even for an empty file. |
| QualityGates.ShellComplexity | quality-gates/run_quality_gates.py:451-478 | The shell fallback lists a length only when it exceeds 100. Every entry it lists as complex carries no complexity, which the gate reads as 0. It lists no more entries of each kind than there are files. |
| QualityGates.ShellComplexityOne | quality-gates/run_quality_gates.py:457-472 | One file is listed as long, with its line count, exactly when it has more than 100 lines. It is listed as complex exactly when it has more than 20 function markers. |
| QualityGates.ShellHead | quality-gates/run_quality_gates.py:455-472 | The entries of a list of files are those of its first file followed by those of the rest. |
| QualityGates.ShellLengthsAppend | quality-gates/run_quality_gates.py:455-464 | The long entries of two lists of files are those of the first followed by those of the second. |
| QualityGates.ShellComplexitiesAppend | quality-gates/run_quality_gates.py:455-472 | The complex entries of two lists of files are those of the first followed by those of the second. |
| QualityGates.ShellComplexityAppend | quality-gates/run_quality_gates.py:455-472 | Both kinds of entries of two lists of files are those of the first followed by those of the second. |
| QualityGates.LongShellFileListed | quality-gates/run_quality_gates.py:458-464 | The line count of every shell file longer than 100 lines is listed. |
| QualityGates.LongShellFileWarns | quality-gates/run_quality_gates.py:458-464 | A shell file longer than 100 lines makes the shell entries warn. |
| QualityGates.ShellComplexityNeverFails | quality-gates/run_quality_gates.py:455-472 | Shell files alone can never fail the complexity gate; at worst they make it warn. |
| QualityGates.SecurityStatus | quality-gates/run_quality_gates.py:220-228 | The security gate fails exactly when there is a critical or a high finding. It warns exactly when there is neither and there are more than 5 medium findings. |
| QualityGates.SecurityIgnoresLowAndInfo | quality-gates/run_quality_gates.py:220-228 | Low and info counts never change the security verdict. |
| QualityGates.PassedCount | quality-gates/run_quality_gates.py:288 | The passed count equals the number of checks exactly when every check passed, and is 0 exactly when none did. |
| QualityGates.Percentage | quality-gates/run_quality_gates.py:290 | The pass percentage lies in [0, 100]. It is 100 exactly when every check passed and 0 exactly when none did. |
| QualityGates.ReviewScore | quality-gates/run_quality_gates.py:286-290 | A non-zero score from the reviewer is kept. A zero score with no fallback checks stays 0. A zero score with checks becomes the pass percentage, which is 100 or 0 exactly when all or none of the checks passed. |
| QualityGates.ReviewStatus | quality-gates/run_quality_gates.py:292-298 | The review gate passes exactly at 90 or above, warns exactly in [75, 90), and fails below 75. |
| QualityGates.FallbackReviewBands | quality-gates/run_quality_gates.py:286-298 | With the four fallback checks, the review gate passes exactly when all four pass, warns exactly when three pass, and fails when two or fewer pass. |
| QualityGates.CheckScore | quality-gates/run_quality_gates.py:563 | A fallback check's score lies in [0, 100]. A deduction of at most 100 is subtracted from 100 exactly, and a larger one gives 0. |
| QualityGates.CheckStatus | quality-gates/run_quality_gates.py:564 | A fallback check passes exactly at 80 or above, warns exactly in [60, 80), and fails below 60. |
| QualityGates.CheckStatusMonotone | quality-gates/run_quality_gates.py:563-564 | A larger deduction never raises a check's score and never improves its verdict. |
| QualityGates.DocstringFiles | quality-gates/run_quality_gates.py:549-555 | The files with a docstring are never more than all the files. They are all of them exactly when every file is readable and contains a triple quote. |
| QualityGates.LowDocstringRatioIff | quality-gates/run_quality_gates.py:557-559 | The ratio `with_docstrings / total` is below 0.5 exactly when twice the files with docstrings are fewer than all the files. |
| QualityGates.DocumentationDeduction | quality-gates/run_quality_gates.py:535-561 | The documentation deduction lies in [-30, 0]. It is 0 exactly when a README exists and at least half of the Python files have a docstring. |
| QualityGates.DocumentationNeverFails | quality-gates/run_quality_gates.py:535-566 | The documentation check never fails: both of its problems together only make it warn. |
| QualityGates.NamingViolations | quality-gates/run_quality_gates.py:578-585 | There are no naming violations exactly when no `def` line defines a name with an upper-case letter after its first character. |
| QualityGates.NamingDeduction | quality-gates/run_quality_gates.py:568-585 | The naming deduction is never positive, and it is 0 exactly when no line is a camel-case `def`. |
| QualityGates.MissingDirs | quality-gates/run_quality_gates.py:600-604 | No required directory is missing exactly when each of them exists. |
| QualityGates.StructureDeduction | quality-gates/run_quality_gates.py:595-613 | The structure deduction lies in [-50, 0]. It is 0 exactly when scripts, vendor, tests and docs all exist and the Python files are not crowded: either at most ten of them, or in at least three sub-directories. |
| QualityGates.SecretFiles | quality-gates/run_quality_gates.py:624-636 | At most one secret finding is counted per file. The count is 0 exactly when no file holds a secret, and equals the number of files exactly when all do. A file holds a secret when its name does not end in `.pyc`, `.pyo` or `__pycache__`, it is readable, and its lower-cased text contains "password", "secret", "key" or "token" together with "hardcoded" or "=". |
| QualityGates.SecretFilesAppend | quality-gates/run_quality_gates.py:626-634 | The secret-file counts of two lists of files add up. |
| QualityGates.SecretFilesOne | quality-gates/run_quality_gates.py:627-634 | A single file is counted exactly when it holds a secret. |
| QualityGates.BestPracticesDeduction | quality-gates/run_quality_gates.py:620-650 | The deduction lies between 15 per secret file and that plus 10. It is 0 exactly when no file holds a secret and there are at most twenty TODO markers. More than twenty markers always deduct something. |
| QualityGates.Worst | quality-gates/run_quality_gates.py:659-668 | The worst status is one of the statuses and ranks at least as bad as each of them; with no statuses it is passed. |
| QualityGates.OverallStatus | quality-gates/run_quality_gates.py:657-668 | A failed gate forces the overall status to failed. The overall status is passed exactly when every gate passed. |
| QualityGates.OverallIsWorst | quality-gates/run_quality_gates.py:657-668 | The overall status is the worst gate status under the order failed > warning > unknown > passed, so the order of the gates does not matter. |
| QualityGates.NoGatesPass | quality-gates/run_quality_gates.py:665 | With no gate results, the overall status is passed. |
| QualityGates.Summarize | quality-gates/run_quality_gates.py:670-693 | The summary's gate total is the number of gates. Its passed, warning and failed counts add up to at most that total, and there is one critical issue per failed gate. |
| QualityGates.CriticalIssuesAreFailedGates | quality-gates/run_quality_gates.py:689-691 | A gate name is listed as a critical issue exactly when a gate of that name failed. |
| QualityGates.SummaryStatusCounts | quality-gates/run_quality_gates.py:680-687 | The passed, warning and failed counts are the numbers of gates with those statuses. With the gates of unknown status, they add up to the total. |
| QualityGates.SummaryCounts | quality-gates/run_quality_gates.py:680-687 | The failed count is 0 exactly when no gate failed, and the passed count is the total exactly when every gate passed. |
| QualityGates.SummaryAgreesWithOverall | quality-gates/run_quality_gates.py:657-693 | The overall status is failed exactly when the summary lists a critical issue, and passed exactly when every gate counts as passed. |
| QualityGates.ExitCode | quality-gates/run_quality_gates.py:744-752 | The process exits with 0 exactly when the overall status is passed or warning, and with 1 otherwise. |
| QualityGates.ExitCodeOfGates | quality-gates/run_quality_gates.py:744-752 | The run exits with 0 exactly when no gate failed and either some gate warned or every gate passed. |
| CodeReview.DigitRunLen | quality-gates/review/automate_review.py:259 | The digit run at the head of a string is all digits and maximal. |
| CodeReview.FindAllNumbersAreNumberWords | quality-gates/review/automate_review.py:259 | Scanning with `\b\d{2,}\b` yields exactly the words (maximal runs of word characters) that consist of two or more digits, in order. |
| CodeReview.MagicNumbers | quality-gates/review/automate_review.py:258-268 | Every magic number reported for a line has at least two digits and is not "100". |
| CodeReview.NumberWordsIff | quality-gates/review/automate_review.py:258 | A word is kept exactly when it is a number of two or more digits. |
| CodeReview.NumberWordsCount | quality-gates/review/automate_review.py:258 | Each number word is kept once per occurrence; other words never are. |
| CodeReview.Accepted | quality-gates/review/automate_review.py:259-260 | A number is kept exactly when it is not "0", "1" or "100"; kept numbers have at least two digits. |
| CodeReview.AcceptedCount | quality-gates/review/automate_review.py:259-260 | Each number other than "0", "1" and "100" is kept once per occurrence. |
| CodeReview.MagicNumbersIff | quality-gates/review/automate_review.py:258-260 | A number is reported exactly when it is a word of the line made of two or more digits, other than "100". |
| CodeReview.MagicNumbersCount | quality-gates/review/automate_review.py:258-268 | Each such word yields one magic-number finding per occurrence, and nothing else yields one. |
| CodeReview.MagicKinds | quality-gates/review/automate_review.py:261-268 | Each accepted number yields exactly one magic-number finding, in order. |
| CodeReview.FixedPythonKinds | quality-gates/review/automate_review.py:213-255 | A Python line is flagged as too long exactly when it has more than 88 characters. It gets a TODO finding exactly when its upper-case form contains "TODO", a print finding exactly when it contains `print(` and the file name does not end in `test.py`, and a bare-except finding exactly when it contains `except:` but not `Exception`. |
| CodeReview.PythonLineKinds | quality-gates/review/automate_review.py:209-270 | A Python line's findings, other than magic numbers, are exactly the four fixed ones above, and a magic-number finding names a number exactly when that number is reported. |
| CodeReview.MagicKindsCount | quality-gates/review/automate_review.py:261-268 | The magic-number findings name each number as many times as it is reported. |
| CodeReview.PythonLineMagicCount | quality-gates/review/automate_review.py:261-268 | A Python line has one magic-number finding per occurrence of the number among its words, when the number has two or more digits and is not "100"; otherwise it has none. |
| CodeReview.TailMatchesIff | quality-gates/review/automate_review.py:329 | The tail `[A-Za-z0-9_]*[^"]` of the unquoted-variable pattern matches at a position exactly when a character other than `"` stands there, thanks to backtracking. |
| CodeReview.FindUnquoted | quality-gates/review/automate_review.py:329 | The unquoted-variable search succeeds exactly when an unquoted variable occurs at or after the start position. |
| CodeReview.ShellLineKinds | quality-gates/review/automate_review.py:324-361 | A shell line is flagged for an unquoted variable exactly when one occurs in it. It is flagged for a missing `set -e` exactly when it is line 1 and lacks `set -e`, and for a hard-coded path exactly when it mentions `/usr/local` or `/opt/`. |
| CodeReview.LineReport | quality-gates/review/automate_review.py:114-120 | A line that strips to nothing or to a comment produces no findings. |
| CodeReview.ReportedOnItsLine | quality-gates/review/automate_review.py:112-120 | Each reported finding carries the one-based number of the line whose check produced it. |
| CodeReview.EveryLineReportIsFound | quality-gates/review/automate_review.py:112-120 | Every finding a line's check produces appears in the file's findings with that line's number. |
| CodeReview.ReportsSomeLine | quality-gates/review/automate_review.py:112-120 | A file reports a kind of finding exactly when some line's check produced it. |
| CodeReview.ReportingLineNotSkipped | quality-gates/review/automate_review.py:116-117 | A line that produces a finding is neither blank nor a comment. |
| CodeReview.SkippedLinesAreSilent | quality-gates/review/automate_review.py:302-310 | No finding of a file comes from a blank or comment line. |
| CodeReview.SetEOnlyFromFirstLine | quality-gates/review/automate_review.py:340-348 | A shell file reports a missing `set -e` exactly when its first line is neither blank nor a comment and lacks `set -e`. |
| CodeReview.ConfigLineReport | quality-gates/review/automate_review.py:398-410 | A configuration line yields at most one finding, and yields one exactly when its stripped form is a comment containing `:` or `=`. |
| CodeReview.ConfigReportsCommentedOut | quality-gates/review/automate_review.py:398-410 | A configuration file reports commented-out configuration on a line exactly when that line is such a comment. |
| CodeReview.CountNestedIfsIsDepth | quality-gates/review/automate_review.py:184-190 | `count_nested_ifs` started at a depth returns that depth plus the longest chain of nested `if` statements below, counting the node itself. |
| CodeReview.MaxOverChildrenIsDepth | quality-gates/review/automate_review.py:186-190 | The running maximum over the children is the larger of the starting value and the deepest child chain. |
| CodeReview.VisitNode | quality-gates/review/automate_review.py:143-203 | The syntax-tree visitor produces only structural findings (long function, many parameters, large class, deep nesting), all in the visited file. |
| CodeReview.VisitChain | quality-gates/review/automate_review.py:182-203 | In a chain of k nested `if` statements, the outer `if` is reported for deep nesting exactly when k exceeds 3, and the visit then continues into the chain below. |
| CodeReview.ChainReportsEveryDeepAncestor | quality-gates/review/automate_review.py:182-203 | A chain of k nested `if` statements produces k - 3 deep-nesting findings when k exceeds 3, one for every `if` with more than three levels below it, and none otherwise. |
| CodeReview.ElifChainCountsAsNesting | quality-gates/review/automate_review.py:182-201 | An `if` with three `elif` branches, which the syntax tree nests in `orelse`, is reported as nesting depth 4. |
| CodeReview.ReviewPythonFile | quality-gates/review/automate_review.py:86-132 | An unreadable Python file yields exactly one finding at line 0. A readable one reports a syntax error exactly when it does not parse, and all its findings are in that file. |
| CodeReview.NoSyntaxErrorInLines | quality-gates/review/automate_review.py:112-120 | The line checks never report a syntax error; only the parse does. |
| CodeReview.PythonLinesKinds | quality-gates/review/automate_review.py:209-270 | Every finding of a Python file's line checks is one of the Python line kinds. |
| CodeReview.ReviewShellFile | quality-gates/review/automate_review.py:292-322 | An unreadable shell file yields exactly one finding at line 0. A readable one reports a missing `set -e` exactly when its first line needs it. |
| CodeReview.ReviewConfigFile | quality-gates/review/automate_review.py:388-422 | An unreadable configuration file yields exactly one finding at line 0. A readable one reports only commented-out configuration. |
| CodeReview.ReviewDocumentation | quality-gates/review/automate_review.py:424-469 | The documentation review reports a missing README exactly when there is none. It reports missing docstrings exactly when some function or class lacks one, with their total. It reports nothing exactly when neither applies. |
| CodeReview.Capped | quality-gates/review/automate_review.py:501-507 | A category's deduction never exceeds 20, and for a positive weight it is 0 exactly when the category has no issues. |
| CodeReview.Score | quality-gates/review/automate_review.py:489-509 | The review score lies in [0, 100] and is 100 exactly when there are no issues. |
| CodeReview.CappedMonotone | quality-gates/review/automate_review.py:505-507 | More issues in a category never lower its capped deduction. |
| CodeReview.ScoreMonotone | quality-gates/review/automate_review.py:489-509 | More issues in any category never raise the score. |
| CodeReview.ScoreZeroIffAllCapped | quality-gates/review/automate_review.py:489-509 | The score reaches 0 exactly when every category has reached its cap: 20 style, 4 logic, 2 security, 7 performance and 10 maintainability issues. |
| CodeReview.Band | quality-gates/review/automate_review.py:517-524 | The first recommendation is "excellent" exactly at 90 or above, "good" in [75, 90), "needs attention" in [60, 75), and "needs significant work" below 60. |
| CodeReview.Actions | quality-gates/review/automate_review.py:526-533 | There is one action per non-empty category among logic, security and maintainability, and none when all three are empty. |
| CodeReview.Recommendations | quality-gates/review/automate_review.py:511-542 | The recommendations start with the band of the score, contain each action exactly when its category has issues, and always end with the same four standing items. |
| CodeReview.Bucket | quality-gates/review/automate_review.py:478-485 | The total of the category counts is the number of findings. |
| CodeReview.BucketCount | quality-gates/review/automate_review.py:480-482 | The count kept for a category is the number of findings of that category. |
| CodeReview.BucketCounts | quality-gates/review/automate_review.py:471-487 | Each of the five summary counts is the number of findings of its category. |
| CodeReview.CountOfPositive | quality-gates/review/automate_review.py:480-482 | A category's count is positive exactly when some finding has that category. |
| CodeReview.RunFullReview | quality-gates/review/automate_review.py:27-64 | As written, the full review always has an empty summary, a score of 100 and the "excellent" recommendations, whatever the languages report. |
| CodeReview.NoIssuesReport | quality-gates/review/automate_review.py:489-542 | With no issues, the score is 100 and the recommendations are "excellent" followed by the standing items. |
| CodeReview.RunFullReviewBucketed | quality-gates/review/automate_review.py:27-64 | With the findings bucketed by category, the summary total is the number of findings, and the score is 100 exactly when nothing was found. |
| CodeReview.FindingsDoNotReachScore | quality-gates/review/automate_review.py:19-25 | As written, a review with findings still scores 100; with the findings counted, it scores below 100. |
| CodeReview.PrintCallStillScores100 | quality-gates/review/automate_review.py:241-248 | A Python file with a `print(` line outside test files is reported, yet the review as written still scores 100. |
| SecurityScan.FirstDetected | quality-gates/security/scan_security.py:113-186 | The scan stops at the first rule in order that matches the line; no earlier rule matches. |
| SecurityScan.LineThreat | quality-gates/security/scan_security.py:113-186 | A reported threat is one of the source's rules and matches the line. |
| SecurityScan.FirstRuleWins | quality-gates/security/scan_security.py:113-186 | The reported threat is the first matching rule in the checking order. |
| SecurityScan.NothingDetected | quality-gates/security/scan_security.py:184-186 | A line yields no finding exactly when no rule matches it. |
| SecurityScan.MatchSettles | quality-gates/security/scan_security.py:237-289 | A rule that matches decides the finding unless an earlier rule matches too. |
| SecurityScan.EvalOrExecIsCritical | quality-gates/security/scan_security.py:117-136 | A Python line containing `eval(` or `exec(` always yields a critical finding, whatever else it contains. |
| SecurityScan.EvalIsFlagged | quality-gates/security/scan_security.py:117-136 | A Python line containing `eval(` yields the eval finding. |
| SecurityScan.LiteralEvalIsFlagged | quality-gates/security/scan_security.py:118 | A Python line calling `literal_eval(` also yields the eval finding. |
| SecurityScan.PathTraversalIsMedium | quality-gates/security/scan_security.py:176-186 | A Python line with `../` or `..\` that no earlier rule matched yields a medium path-traversal finding. |
| SecurityScan.RootDeleteIsCritical | quality-gates/security/scan_security.py:241-258 | A shell line containing `rm -rf /` always yields the critical root-delete finding. |
| SecurityScan.VariableInjectionIsHigh | quality-gates/security/scan_security.py:260-269 | A shell line with `$` and `eval` or `source` that no dangerous-command rule matched yields a high variable-injection finding. |
| SecurityScan.ConfigLineRule | quality-gates/security/scan_security.py:330-339 | A configuration line yields a finding exactly when its lower-case form mentions password, secret, key or token and it contains `=` or `:`. That finding is medium. |
| SecurityScan.SensitiveConfigIgnoresCase | quality-gates/security/scan_security.py:330 | Whether a configuration line is sensitive does not depend on its letter case. |
| SecurityScan.SecretsIgnoreCase | quality-gates/security/scan_security.py:146-147 | The case-insensitive secret patterns match a line exactly when they match its upper-case form. |
| SecurityScan.LineVulns | quality-gates/security/scan_security.py:94-100 | A line yields at most one finding, on that line and in that file. |
| SecurityScan.ScanReportsEachLine | quality-gates/security/scan_security.py:94-100 | The findings a file scan reports on a line are exactly those that line's check produced. |
| SecurityScan.ScanFile | quality-gates/security/scan_security.py:84-111 | An unreadable file yields exactly one info finding at line 0. A readable file yields only findings on lines numbered from 1, none of them info. |
| SecurityScan.OneFindingPerLine | quality-gates/security/scan_security.py:94-100 | A readable file's scan reports at most one finding per line. |
| SecurityScan.ScannedLinesHaveNoNewline | quality-gates/security/scan_security.py:94-96 | A scanned line, once stripped, contains no line break. |
| SecurityScan.AddSeverity | quality-gates/security/scan_security.py:395-411 | Adding a finding increases the summary total by one. |
| SecurityScan.Tally | quality-gates/security/scan_security.py:395-411 | The total of the severity counts equals the number of findings. |
| SecurityScan.TallyCounts | quality-gates/security/scan_security.py:397-404 | Each severity count is the number of findings of that severity. |
| SecurityScan.CountOfPositive | quality-gates/security/scan_security.py:397-404 | A severity count is positive exactly when some finding has that severity. |
| SecurityScan.Recommendations | quality-gates/security/scan_security.py:413-438 | The recommendations say that nothing was found exactly when the total is 0. They urge action on critical findings, fixing high-severity ones and reviewing medium-severity ones, each exactly when there are some of them. They always end with the same five standing items. |
| SecurityScan.AllClearIsConsistent | quality-gates/security/scan_security.py:413-438 | An all-clear recommendation never appears together with a call to fix critical, high or medium findings. |
| SecurityScan.ScanGroup | quality-gates/security/scan_security.py:64-82 | A group of files yields no section exactly when it is empty; otherwise its section records how many files were scanned. |
| SecurityScan.ScanAllFiles | quality-gates/security/scan_security.py:27-62 | As written, the full scan always has an empty summary and always recommends nothing beyond "no vulnerabilities found" and the standing items. |
| SecurityScan.ReportCounted | quality-gates/security/scan_security.py:395-411 | With every finding counted, the summary total is the number of findings, each severity count is the number of findings of that severity, and the all-clear appears exactly when nothing was found. |
| SecurityScan.ScanAllFilesCounted | quality-gates/security/scan_security.py:27-62 | The full scan with findings counted reports the same sections, and its summary counts them. |
| SecurityScan.EvalLineGoesUncounted | quality-gates/security/scan_security.py:19-25 | A Python file with an `eval(` line is scanned as critical, yet the report as written counts no critical finding and gives the all-clear; with the findings counted, its critical count is positive. |
| Complexity.Cyclomatic | quality-gates/complexity/analyze_complexity.py:163-177 | The cyclomatic complexity of a function is at least 1. |
| Complexity.CyclomaticAppend | quality-gates/complexity/analyze_complexity.py:163-177 | The complexity of two blocks of lines together is the sum of their complexities less 1. |
| Complexity.BranchLinesBound | quality-gates/complexity/analyze_complexity.py:170-175 | Every line with a branch keyword adds at least one to the complexity. |
| Complexity.JsComplexity | quality-gates/complexity/analyze_complexity.py:354-365 | JavaScript complexity lies in [1, 1 + 2n] for n lines. |
| Complexity.JsComplexityCounts | quality-gates/complexity/analyze_complexity.py:354-365 | JavaScript complexity is 1 plus the lines with a branch token plus the lines with `catch `. |
| Complexity.CloseWithin | quality-gates/complexity/analyze_complexity.py:251-259 | The bounded search returns the first line in range at which the brace balance is back to zero on a line with `}`, and none when no line in range closes. |
| Complexity.ShellFunctionEnd | quality-gates/complexity/analyze_complexity.py:251-259 | The end of a shell function is the first line at or after its start where the running balance of `{` over `}` is 0 and the line contains `}`. It is None when there is no such line. |
| Complexity.FindShellFunctionEnd | quality-gates/complexity/analyze_complexity.py:251-259 | The loop that tracks the running brace balance finds the same end as the definition above. |
| Complexity.ShellLength | quality-gates/complexity/analyze_complexity.py:240-241 | A shell function's length is its end index less its header index when an end is found at an index other than 0. When no end is found, or the end is at index 0 (which Python treats as false), it is 10. |
| Complexity.FirstLineOneLinerIsTen | quality-gates/complexity/analyze_complexity.py:240-241 | A function that opens and closes on the first line of a file ends at index 0, which is falsy, so its length is 10. |
| Complexity.LaterOneLinerIsZero | quality-gates/complexity/analyze_complexity.py:240-241 | The same one-line function on any later line has length 0. |
| Complexity.JsLength | quality-gates/complexity/analyze_complexity.py:344-352 | The estimated JavaScript function length lies in [1, 100] and never runs past the end of the file. |
| Complexity.JsLengthCases | quality-gates/complexity/analyze_complexity.py:344-352 | Without a closing line in the 100-line window, the estimate is at most 50. With one, it is the offset of the first closing line plus 1. |
| Complexity.ShellHeader | quality-gates/complexity/analyze_complexity.py:236 | A recognised shell function header names a non-empty run of word characters. |
| Complexity.PlainHeaderRecognised | quality-gates/complexity/analyze_complexity.py:236 | `name() {` is recognised as a header of `name`. |
| Complexity.KeywordHeaderRecognised | quality-gates/complexity/analyze_complexity.py:236 | `function name() {` is recognised as a header of `name`. |
| Complexity.PythonFunction | quality-gates/complexity/analyze_complexity.py:147-161 | A Python function's statistics carry its line and a complexity. Its length never exceeds the file, and without an end line it is at most 10. |
| Complexity.AnalyzePythonFile | quality-gates/complexity/analyze_complexity.py:118-145 | A Python file yields one entry per function node and counts the lines of its text. |
| Complexity.ShellFunctionAt | quality-gates/complexity/analyze_complexity.py:229-247 | A shell line yields a function exactly when its stripped form is a header. The function has no complexity, and its length is 10 or less than the lines from there on. |
| Complexity.ShellFunctionsIffHeader | quality-gates/complexity/analyze_complexity.py:220-249 | A shell file lists a function exactly when one of its lines is that function's header. |
| Complexity.AnalyzeShellFile | quality-gates/complexity/analyze_complexity.py:220-249 | A shell file's statistics count the lines of its text. |
| Complexity.JsFunctionAt | quality-gates/complexity/analyze_complexity.py:318-340 | A JavaScript line yields a function exactly when the header pattern matches it. The function's length lies in [1, 100], and its complexity is that of the lines it spans. |
| Complexity.JsFunctionsIffHeader | quality-gates/complexity/analyze_complexity.py:310-342 | A JavaScript file lists a function exactly when one of its lines is that function's header. |
| Complexity.AnalyzeJsFile | quality-gates/complexity/analyze_complexity.py:310-342 | A JavaScript file's statistics count the lines of its text. |
| Complexity.ComplexFlag | quality-gates/complexity/analyze_complexity.py:95-102 | A function is listed as complex exactly when its complexity is strictly above 10. |
| Complexity.LongFlag | quality-gates/complexity/analyze_complexity.py:103-109 | A function is listed as long exactly when it has strictly more than 50 lines. |
| Complexity.FlaggedIffEarned | quality-gates/complexity/analyze_complexity.py:89-111 | An entry is listed exactly when it comes from a function of the file that crosses the threshold. |
| Complexity.LongFileIn | quality-gates/complexity/analyze_complexity.py:110-111 | A file is listed as long exactly when it has strictly more than 300 lines. |
| Complexity.AnalyzeLanguage | quality-gates/complexity/analyze_complexity.py:69-116 | A language yields no result exactly when it has no files. Otherwise it counts every file, including those that could not be analysed. |
| Complexity.FlagInLanguageIff | quality-gates/complexity/analyze_complexity.py:83-111 | A language lists a complex or long function exactly when some successfully analysed file of it flags that function. |
| Complexity.Summarize | quality-gates/complexity/analyze_complexity.py:367-375 | The number of complex files always equals the number of high-complexity functions. |
| Complexity.SummarizeOne | quality-gates/complexity/analyze_complexity.py:47-62 | One language contributes its file count, and the lengths of its complex-function, long-function and long-file lists. |
| Complexity.SummarizeAppend | quality-gates/complexity/analyze_complexity.py:367-375 | The summary of two lists of languages is the sum of their summaries, count by count. |
| Complexity.SummaryClean | quality-gates/complexity/analyze_complexity.py:367-375 | All four summary counts are 0 exactly when no language lists a complex function, a long function or a long file. |
| Complexity.Recommendations | quality-gates/complexity/analyze_complexity.py:377-398 | Refactoring, splitting functions, breaking down files and architectural improvements are each advised, with their count, exactly when that count is positive. The "within acceptable limits" recommendation is given exactly when all four summary counts are 0, and then it is the only one. |
| Complexity.AllClearIffNothingFlagged | quality-gates/complexity/analyze_complexity.py:377-398 | The all-clear is given exactly when nothing in any language was flagged. |
| Common.SomesIff | quality-gates/complexity/analyze_complexity.py:83-88 | A value is kept exactly when some result holds it; failed results are skipped. |
| Common.SomesAppend | quality-gates/complexity/analyze_complexity.py:83-88 | The values of two lists of results are those of the first followed by those of the second, so the order of the results is kept. |
| Common.SomesOne | quality-gates/complexity/analyze_complexity.py:83-88 | A single result gives its value when it has one, and nothing otherwise. |
| Coverage.ScriptsIff | tests/coverage_analyzer.py:53-58 | A globbed candidate is kept as a script to test exactly when it is a regular file whose name does not start with a dot. |
| Coverage.Stem | tests/coverage_analyzer.py:127 | A file's stem is a prefix of its name. When it differs from the name, the name continues with the last dot and a non-empty suffix. |
| Coverage.Lookup | tests/coverage_analyzer.py:88-119 | A name-map lookup returns an entry of the map for that name, and none when the map has no entry for it. |
| Coverage.FirstExisting | tests/coverage_analyzer.py:132-136 | The first existing candidate is one of the candidates and exists; there is none exactly when no candidate exists. |
| Coverage.FindTestFile | tests/coverage_analyzer.py:117-136 | A found test file exists. A mapped file that exists is preferred. Otherwise, mapped or not, the first existing of the four candidate locations is taken, and there is none exactly when neither exists. |
| Coverage.UnmappedTestedIff | tests/coverage_analyzer.py:125-136 | A script without a name-map entry has a test exactly when one of its four candidate locations exists. |
| Coverage.FallBackOrder | tests/coverage_analyzer.py:117-136 | Without an existing mapped file, including when the mapped file is missing, the file found is one of the four locations, and none tried before it exists. |
| Coverage.Partition | tests/coverage_analyzer.py:70-75 | Every script is either tested or uncovered: the tested count plus the uncovered list is the number of scripts. |
| Coverage.UncoveredIff | tests/coverage_analyzer.py:70-75 | A path is listed as uncovered exactly when it is a script without a test. |
| Coverage.Percentage | tests/coverage_analyzer.py:78-81 | Coverage lies in [0, 100], is 0 when no script was found, and is 100 exactly when every script is tested. |
| Coverage.AnalyzeCoverage | tests/coverage_analyzer.py:28-83 | The tested count plus the uncovered scripts equals the scripts found. The percentage lies in [0, 100]. The test-file total is the sum of the four per-type counts, a missing test directory counting 0. |
| Coverage.FullCoverageIff | tests/coverage_analyzer.py:70-81 | With scripts present, coverage is 100 exactly when every script has a test. |
| Coverage.UncoveredScripts | tests/coverage_analyzer.py:53-75 | A path is listed as uncovered exactly when it names a discovered script for which no test file is found. |
| Coverage.UncoveredSection | tests/coverage_analyzer.py:156-162 | The uncovered section is absent exactly when nothing is uncovered. |
| Coverage.UncoveredSectionShape | tests/coverage_analyzer.py:156-162 | The uncovered section lists at most the first 10 scripts, in order, and adds an "... and N - 10 more" line exactly when more than 10 are uncovered. |
| Coverage.AssessPhase | tests/coverage_analyzer.py:190-205 | The phase is passed exactly at 80 % or above, and fails with exit code 1 exactly below 75 %. |
| Coverage.NoScriptsFails | tests/coverage_analyzer.py:78-81 | A project with no scripts has 0 % coverage and fails the phase. |
| Coverage.PhaseMonotone | tests/coverage_analyzer.py:190-205 | Higher coverage never raises the exit code. |
| CodeQuality.Flake8Issues | scripts/monitoring/analyze-code-quality.py:54 | No output counts 0 issues. Otherwise the count is the number of line breaks plus 1, so a trailing newline counts as one more issue. |
| CodeQuality.PythonScore | scripts/monitoring/analyze-code-quality.py:171-178 | The Python score lies in [0, 100]. |
| CodeQuality.PylintZeroActsAsPerfect | scripts/monitoring/analyze-code-quality.py:173-174 | A pylint score of 0 gives the same Python score as a perfect 10. |
| CodeQuality.PythonScoreMonotone | scripts/monitoring/analyze-code-quality.py:175-178 | More flake8 issues or pylint errors never raise the Python score. |
| CodeQuality.JsScore | scripts/monitoring/analyze-code-quality.py:181-187 | The JavaScript score lies in [0, 100]. |
| CodeQuality.JsScoreMonotone | scripts/monitoring/analyze-code-quality.py:183-187 | More eslint errors or warnings never raise the JavaScript score. |
| CodeQuality.ShellScore | scripts/monitoring/analyze-code-quality.py:190-195 | The shell score lies in [0, 100]. |
| CodeQuality.ShellScoreMonotone | scripts/monitoring/analyze-code-quality.py:192-195 | More shellcheck errors or warnings never raise the shell score. |
| CodeQuality.Scores | scripts/monitoring/analyze-code-quality.py:168-195 | Each language with files is scored with its own score, weighted by its file count: Python, JavaScript and TypeScript together, and shell. No other entry appears. Each entry has a positive file count and a score in [0, 100], and there are none exactly when no language has files. |
| CodeQuality.OverallWithinLanguages | scripts/monitoring/analyze-code-quality.py:166-206 | The overall score lies within any bounds that every scored language's own score lies within. |
| CodeQuality.OneLanguageOverall | scripts/monitoring/analyze-code-quality.py:166-206 | A project with only Python files has the Python score as its overall score. |
| CodeQuality.OverallScore | scripts/monitoring/analyze-code-quality.py:197-206 | The overall score is 0 when no language has any files. |
| CodeQuality.TotalWithin | scripts/monitoring/analyze-code-quality.py:198-204 | Scores within [lo, hi] keep the file-weighted total within [lo, hi] times the number of files. |
| CodeQuality.MeanWithin | scripts/monitoring/analyze-code-quality.py:198-206 | The file-weighted mean of scores in [lo, hi] lies in [lo, hi]. |
| CodeQuality.OverallWithin | scripts/monitoring/analyze-code-quality.py:197-206 | The overall score lies between the lowest and the highest per-language score, so it lies in [0, 100]. |
| CodeQuality.BandOf | scripts/monitoring/analyze-code-quality.py:226-231 | Exactly one band applies: poor below 70, needs improvement in [70, 80), good at 80 or above. |
| CodeQuality.NoFilesIsPoor | scripts/monitoring/analyze-code-quality.py:197-231 | A project without files is rated poor. |
| CodeQuality.LanguageInsights | scripts/monitoring/analyze-code-quality.py:234-244 | Each insight is given exactly when its condition holds. Low pylint needs Python files and a score below 7. Python style needs Python files and more than 10 flake8 issues. eslint needs more than 5 errors, and shellcheck more than 3. |
| CodeQuality.PylintZeroStillFlagged | scripts/monitoring/analyze-code-quality.py:234-238 | A Python project with a pylint score of 0 gets the low-pylint insight, although its score counts as a perfect one. |
| DevAnalytics.RecentPullRequests | scripts/monitoring/generate-development-analytics.py:34-39 | The intended pull-request filter (see Findings) returns the longest prefix of the listing updated at or after the cutoff. |
| DevAnalytics.RecentPullRequestsOnSorted | scripts/monitoring/generate-development-analytics.py:34-39 | On a listing sorted newest first, the intended filter keeps exactly the pull requests updated at or after the cutoff. |
| DevAnalytics.IssueStop | scripts/monitoring/generate-development-analytics.py:73-81 | With an aware cutoff, the issue scan stops at the first real issue older than the cutoff; pull requests before it do not stop it, whatever their date. |
| DevAnalytics.RecentIssues | scripts/monitoring/generate-development-analytics.py:73-81 | The intended issue filter returns the real issues before the stopping point. It never returns a pull request or an item older than the cutoff. |
| DevAnalytics.StalePullRequestSkipped | scripts/monitoring/generate-development-analytics.py:74-75 | A stale pull request in the issues listing does not end the scan. |
| DevAnalytics.AtOrAfter | scripts/monitoring/generate-development-analytics.py:35-36 | The comparison of an item's aware timestamp with the cutoff has an answer exactly when the cutoff is aware, and says "recent" exactly when the item is at or after the cutoff. |
| DevAnalytics.PullRequestScan | scripts/monitoring/generate-development-analytics.py:31-41 | The pull-request loop, when it returns, returns a prefix of the listing. |
| DevAnalytics.IssueScan | scripts/monitoring/generate-development-analytics.py:70-83 | The issue loop, when it returns, returns no pull request. |
| DevAnalytics.PullRequestScanRaises | scripts/monitoring/generate-development-analytics.py:31-36 | With the naive cutoff of `datetime.now()`, the pull-request loop raises `TypeError` exactly when the listing is not empty, and otherwise returns nothing. |
| DevAnalytics.IssueScanRaises | scripts/monitoring/generate-development-analytics.py:70-78 | With the naive cutoff, the issue loop raises `TypeError` exactly when the listing holds an issue, and otherwise returns nothing. |
| DevAnalytics.AwarePullRequestScan | scripts/monitoring/generate-development-analytics.py:34-39 | With an aware cutoff, the pull-request loop never raises and returns exactly the intended filter. |
| DevAnalytics.AwareIssueScan | scripts/monitoring/generate-development-analytics.py:73-81 | With an aware cutoff, the issue loop never raises and returns exactly the intended filter. |
| DevAnalytics.OneRecentPullRequest | scripts/monitoring/generate-development-analytics.py:31-37 | A listing of one recent pull request makes the loop raise as written, and is listed with an aware cutoff. |
| DevAnalytics.OneRecentIssue | scripts/monitoring/generate-development-analytics.py:70-79 | A listing of one recent issue makes the loop raise as written, and is listed with an aware cutoff. |
| Stats.MedianStats | scripts/monitoring/generate-development-analytics.py:85-100 | The statistics are all zeros exactly for no values. The count is the number of values. Otherwise the mean is the sum over the count, the minimum and maximum are those of the values, and the median is that of the sorted values; the minimum is at most the mean and the median, and both are at most the maximum. |
| Stats.MedianStatsSplits | scripts/monitoring/generate-development-analytics.py:90-92 | The reported median is one of the values when there is an odd number of them. It is no smaller than the lower half of the sorted values and no larger than the upper half. |
| Stats.MedianSplits | scripts/monitoring/generate-development-analytics.py:92 | On sorted values, the lower half lies at or below the median and the upper half at or above it. |
| Stats.Sort | scripts/monitoring/generate-development-analytics.py:91 | `sorted` returns an ordered permutation of its input. |
| Stats.InsertSorted | scripts/monitoring/generate-development-analytics.py:91 | Inserting into a sorted list keeps it sorted. |
| Stats.BasicStats | scripts/monitoring/generate-pipeline-report.py:25-35 | The statistics are all zeros exactly for no values. The count is the number of values. Otherwise the minimum and the maximum are values and the mean lies between them. |
| Stats.MinOf | scripts/monitoring/generate-pipeline-report.py:32 | `min` returns a value no larger than any other. |
| Stats.MaxOf | scripts/monitoring/generate-pipeline-report.py:33 | `max` returns a value no smaller than any other. |
| Stats.MeanWithin | scripts/monitoring/generate-pipeline-report.py:31-33 | The mean lies between the minimum and the maximum. |
| Stats.MeanOfConstant | scripts/monitoring/generate-pipeline-report.py:31 | The mean of equal values is that value. |
| PipelineReport.OutcomesDisjoint | scripts/monitoring/generate-pipeline-report.py:76-78 | The successful runs plus the failed runs never exceed the total runs. |
| PipelineReport.SuccessRate | scripts/monitoring/generate-pipeline-report.py:79 | The success rate lies in [0, 100] and is 0 when there are no runs. It is 100 exactly when every run succeeded, and 0 exactly when none did. |
| PipelineReport.DurationsIff | scripts/monitoring/generate-pipeline-report.py:82-88 | A duration is listed exactly when some completed run took that long; only completed runs contribute. |
| PipelineReport.RowOf | scripts/monitoring/generate-pipeline-report.py:75-99 | A workflow's row has as many runs as it has. It counts the successful and the failed runs, which together never exceed them. Its rate is the success rate of those counts and lies in [0, 100]. Its average duration is 0 when no run completed; otherwise it is the mean of the completed runs' durations and lies between the shortest and the longest. |
| PipelineReport.CountConclusionCounts | scripts/monitoring/generate-pipeline-report.py:77-78 | A conclusion's count is the number of runs with that conclusion. |
| PipelineReport.CountConclusionAllOrNone | scripts/monitoring/generate-pipeline-report.py:77-78 | A conclusion is counted once per run exactly when every run has it, and 0 times exactly when none does. |
| PipelineReport.RowOfCounts | scripts/monitoring/generate-pipeline-report.py:75-79 | A row's successes and failures are the numbers of runs with those conclusions. For a workflow with runs, the rate is 100 exactly when every run succeeded and 0 exactly when none did. |
| PipelineReport.ReportedIff | scripts/monitoring/generate-pipeline-report.py:63-73 | A workflow is reported exactly when it is active and has runs. |
| PipelineReport.Rows | scripts/monitoring/generate-pipeline-report.py:63-73 | There is one row per reported workflow, in order, each with at least one run and a rate in [0, 100]. |
| PipelineReport.RowsIff | scripts/monitoring/generate-pipeline-report.py:63-73 | A workflow name has a row exactly when some active workflow with runs has that name. |
| PipelineReport.Summarize | scripts/monitoring/generate-pipeline-report.py:107-112 | The summary counts the rows. It is zero without rows. Its overall success rate is the mean of the rows' rates, and its average duration is the mean of the rows' average durations. |
| PipelineReport.OverallRateWithin | scripts/monitoring/generate-pipeline-report.py:107-112 | The overall success rate of a report lies in [0, 100]. |
| PipelineReport.ProblematicIff | scripts/monitoring/generate-pipeline-report.py:121 | A row is listed as problematic exactly when its success rate is below 80. |
| PipelineReport.ThirdQuartileIndex | scripts/monitoring/generate-pipeline-report.py:131 | For at least one duration, `int(n * 0.75)` is a valid index and the floor of three quarters of n. |
| PipelineReport.SlowerThan | scripts/monitoring/generate-pipeline-report.py:132-134 | Every workflow listed as slow is a row whose average duration exceeds the threshold. |
| PipelineReport.SlowerThanIff | scripts/monitoring/generate-pipeline-report.py:134 | A row is listed exactly when it is a row whose average duration exceeds the threshold. |
| PipelineReport.SlowAboveQuartile | scripts/monitoring/generate-pipeline-report.py:129-134 | With non-negative durations, every slow workflow is a row whose average duration exceeds the third-quartile one. |
| PerfRegression.RunReport | tests/performance/test_performance_regression.py:43-66 | A time-out gives the error result with duration 30. Otherwise the result is the measured duration and exit status. |
| PerfRegression.TestScript | tests/performance/test_performance_regression.py:68-95 | A time-out is returned as is and leaves the baselines untouched. A first run records its duration under `<name>_duration` and is marked as establishing the baseline. A later run leaves the baselines unchanged and regresses exactly when it took more than twice its non-zero baseline. No other key is ever written. A zero baseline with a positive duration raises a division error. |
| PerfRegression.RegressionFactor | tests/performance/test_performance_regression.py:83-86 | A regression against a positive baseline records that baseline, and its factor, the current duration over the baseline, exceeds 2. |
| PerfRegression.KeyInjective | tests/performance/test_performance_regression.py:75 | Different test names use different baseline keys. |
| PerfRegression.RunAll | tests/performance/test_performance_regression.py:188-211 | The suite gives one result per script run, in order, and a result is a time-out exactly when its run timed out. |
| PerfRegression.RunAllKeepsBaselines | tests/performance/test_performance_regression.py:79-93 | A baseline that existed before the suite is still there, unchanged, after it. |
| PerfRegression.PositiveDurationsComplete | tests/performance/test_performance_regression.py:79-93 | With positive baselines and positive durations, the suite never stops on a division error. |
| PerfRegression.RegressionsAndBaselinesDisjoint | tests/performance/test_performance_regression.py:207-217 | A result never counts both as a regression and as an established baseline. |
| PerfRegression.ExitCodeIff | tests/performance/test_performance_regression.py:213-229 | The suite exits with 1 exactly when some result is a regression, and with 0 otherwise. |
| PerfRegression.FirstRunsPass | tests/performance/test_performance_regression.py:89-93 | With no baselines for its distinct tests, a suite exits with 0. |
| PerfRegression.FirstRunsEstablish | tests/performance/test_performance_regression.py:89-93 | With no baselines for its distinct tests, no result of the suite is a regression. |
| Text.StripEmptyIff | quality-gates/review/automate_review.py:116 | A line strips to nothing exactly when all its characters are white space. |
| Text.JoinSplitOn | quality-gates/review/automate_review.py:94 | Joining the pieces of `split('\n')` with line breaks gives the text back. |

## Left out

- Walking directories, reading files and `stat` are not modelled. File contents, whether a file exists or is readable, and the lists of files found are parameters. This also leaves out the world-writable and very-large-file checks of `scan_general_security`, whose findings are given.
- A script that cannot be started makes `subprocess.run` raise, for example `PermissionError` or `FileNotFoundError`. `run_script_performance_test` catches only the time-out, so this aborts `run_performance_tests`. The model has no outcome for it: a run either times out or finishes.
- Subprocess calls are not modelled: flake8, shellcheck, `bash -n`, radon, bandit, pylint, eslint and the dedicated scanner and reviewer scripts. Only their outcomes enter the model: exit status, output lines, or parsed counts. This includes parsing radon's output in `_run_python_complexity` and the JSON parsing in `_run_security_scan` and `run_code_review_checks`.
- Python's `ast`, `compile` and the YAML parser are foreign libraries. The model receives a parse result and a small tree of function, class and `if` nodes. YAML linting enters the linting gate as given counts.
- The JavaScript function-header regex is a parameter. The other regexes are matched by hand-written matchers: magic numbers, the unquoted shell variable, secrets, SQL injection and the shell function header.
- `\w`, `\d`, `lower()`, `upper()` and `isupper()` are ASCII only. Python's `isspace` set is modelled in full.
- The review's visitor and documentation walk only look at `FunctionDef` and `ClassDef`, so they never review an `async def`. Async functions must reach the model as `Other` nodes, not as function nodes.
- The complexity analyzer's walk in `_analyze_python_file` also keeps only `ast.FunctionDef` nodes, so an `async def` is never analysed there either. The `FunctionNode` list given to `AnalyzePythonFile` holds only plain `def` functions.
- Floating-point numbers are modelled as reals, and `round(..., 2)` is not modelled.
- CodeReview.Capped: its contract leaves out that below the cap the deduction equals count times weight; it keeps the cap, the zero case and monotonicity. The product is non-linear and is kept out of the proofs.
- The following side effects have no stated behaviour: printing, writing reports and baselines files, timestamps, wall-clock timing, and the markdown and text renderings.
- The GitHub REST calls of the monitoring scripts are not modelled. Listings arrive as parameters, newest first.
- The pull-request, issue and commit counts and the insights of the development analytics are not modelled; only its filters and statistics are.
- PerfRegression.RunAll: it does not model the dict merge `{**core, **utility, **build}`. Script names are taken to be distinct, so the merge drops nothing.
- The message text of critical issues is not modelled. The summary lists the names of the failed gates instead of the formatted "❌ … Failed quality checks" strings.
- web-ui/app.py, the mock servers, the test scaffolding under tests/unit, tests/integration and tests/property, tests/run_all_tests.py and quality-gates/linting/generate_configs.py are not part of this model. They are HTTP handlers, pytest and subprocess orchestration, or static configuration text.

## Findings

| source | as written | input that shows it | evidently intended | confidence | as-written member | corrected member |
|---|---|---|---|---|---|---|
| quality-gates/review/automate_review.py:19-25 | `self.issues` is initialised with five empty category lists that nothing ever appends to. `_calculate_summary`, `_calculate_score` and `_generate_recommendations` read only those lists, so the review always scores 100 with the "excellent" advice. | A Python file with the line `print(x)` (file name not ending in `test.py`): its print finding is reported, yet the score is 100. | The findings of all languages are counted in their categories, so the score and the recommendations reflect them. | not executed | CodeReview.RunFullReview | CodeReview.RunFullReviewBucketed |
| quality-gates/security/scan_security.py:19-25 | `self.vulnerabilities` is initialised with five empty severity lists that nothing ever appends to. The summary counts only those lists, so every scan totals 0 and recommends "no security vulnerabilities found". | A Python file with a line containing `eval(x)`: it is reported as a critical finding, yet the summary counts no critical finding and gives the all-clear. | Every finding reported in the sections is counted under its severity. | not executed | SecurityScan.EvalLineGoesUncounted | SecurityScan.ScanAllFilesCounted |
| scripts/monitoring/generate-development-analytics.py:31-36 | `cutoff_date` is the naive `datetime.now()` less 30 days, while `updated_at` is made timezone-aware by turning "Z" into "+00:00". Comparing them with `>=` raises `TypeError`, and the caller at line 116 does not catch it. | A listing holding one pull request of any date: the first comparison raises instead of keeping it. | The cutoff is timezone-aware, so the loop keeps the pull requests up to the first stale one. | not executed | DevAnalytics.PullRequestScanRaises | DevAnalytics.AwarePullRequestScan |
| scripts/monitoring/generate-development-analytics.py:70-78 | The issue loop makes the same comparison for every item that is not a pull request, and the caller at line 118 does not catch it. | A listing holding one issue of any date: the comparison raises; only a listing made entirely of pull requests returns, and then it returns nothing. | The cutoff is timezone-aware, so the loop keeps the issues up to the first stale one, skipping pull requests. | not executed | DevAnalytics.IssueScanRaises | DevAnalytics.AwareIssueScan |

=== FILE: code_quality.dfy ===
/** The code-quality trend analysis (scripts/monitoring/analyze-code-quality.py):
    one score per language from the linters' counts, the overall score as
    their mean weighted by file count, and the insights drawn from them.
    The linters' outputs are inputs; a metric a failed analysis leaves out
    reads as 0, as `dict.get(..., 0)` does. */
module CodeQuality {
  import opened Text
  import Stats

  datatype PythonMetrics = PythonMetrics(files: nat, pylintScore: real, flake8Issues: nat, pylintIssues: nat)
  datatype JsMetrics = JsMetrics(jsFiles: nat, tsFiles: nat, eslintErrors: nat, eslintWarnings: nat)
  datatype ShellMetrics = ShellMetrics(files: nat, shellcheckErrors: nat, shellcheckWarnings: nat)

  /** The flake8 issue count: the number of lines of its output, so a
      trailing newline counts as one more issue; no output counts 0. */
  function Flake8Issues(stdout: string): (n: nat)
    ensures stdout == [] <==> n == 0
    ensures stdout != [] ==> n == CharCount(stdout, '\n') + 1
  {
    if stdout == [] then 0 else |SplitOn(stdout, '\n')|
  }

  function MaxR(a: real, b: real): real {
    if a >= b then a else b
  }

  function MinR(a: real, b: real): real {
    if a <= b then a else b
  }

  /** The Python score: ten times the pylint score capped at 100 when that
      score is non-zero, else 100, less 2 per flake8 issue and 5 per pylint
      error, floored at 0. */
  function PythonScore(m: PythonMetrics): (s: real)
    ensures 0.0 <= s <= 100.0
  {
    var base := if m.pylintScore != 0.0 then MinR(100.0, m.pylintScore * 10.0) else 100.0;
    MaxR(0.0, base - (m.flake8Issues * 2) as real - (m.pylintIssues * 5) as real)
  }

  /** The JavaScript/TypeScript score: 100 less 10 per eslint error and 2
      per warning, floored at 0. */
  function JsScore(m: JsMetrics): (s: real)
    ensures 0.0 <= s <= 100.0
  {
    MaxR(0.0, 100.0 - (m.eslintErrors * 10) as real - (m.eslintWarnings * 2) as real)
  }

  /** The shell score: 100 less 10 per shellcheck error and 2 per warning,
      floored at 0. */
  function ShellScore(m: ShellMetrics): (s: real)
    ensures 0.0 <= s <= 100.0
  {
    MaxR(0.0, 100.0 - (m.shellcheckErrors * 10) as real - (m.shellcheckWarnings * 2) as real)
  }

  /** A pylint score of 0 reads as no score at all, so it gives the same
      Python score as a perfect 10. */
  lemma PylintZeroActsAsPerfect(m: PythonMetrics)
    requires m.pylintScore == 0.0
    ensures PythonScore(m) == PythonScore(m.(pylintScore := 10.0))
  {
  }

  /** More flake8 issues or pylint errors never raise the Python score. */
  lemma PythonScoreMonotone(m: PythonMetrics, flake8: nat, errors: nat)
    requires m.flake8Issues <= flake8 && m.pylintIssues <= errors
    ensures PythonScore(m.(flake8Issues := flake8, pylintIssues := errors)) <= PythonScore(m)
  {
  }

  /** More eslint errors or warnings never raise the JavaScript score. */
  lemma JsScoreMonotone(m: JsMetrics, errors: nat, warnings: nat)
    requires m.eslintErrors <= errors && m.eslintWarnings <= warnings
    ensures JsScore(m.(eslintErrors := errors, eslintWarnings := warnings)) <= JsScore(m)
  {
  }

  /** More shellcheck errors or warnings never raise the shell score. */
  lemma ShellScoreMonotone(m: ShellMetrics, errors: nat, warnings: nat)
    requires m.shellcheckErrors <= errors && m.shellcheckWarnings <= warnings
    ensures ShellScore(m.(shellcheckErrors := errors, shellcheckWarnings := warnings)) <= ShellScore(m)
  {
  }

  /** A score with the number of files it stands for. */
  datatype Weighted = Weighted(score: real, files: nat)

  /** The scores of the languages that have files, in the order Python,
      JavaScript/TypeScript, shell. */
  function Scores(p: PythonMetrics, j: JsMetrics, s: ShellMetrics): (r: seq<Weighted>)
    ensures forall k :: 0 <= k < |r| ==> r[k].files > 0 && 0.0 <= r[k].score <= 100.0
    ensures r == [] <==> p.files == 0 && j.jsFiles + j.tsFiles == 0 && s.files == 0
    ensures Weighted(PythonScore(p), p.files) in r <==> p.files > 0
    ensures Weighted(JsScore(j), j.jsFiles + j.tsFiles) in r <==> j.jsFiles + j.tsFiles > 0
    ensures Weighted(ShellScore(s), s.files) in r <==> s.files > 0
    ensures forall w :: w in r ==>
      w == Weighted(PythonScore(p), p.files) || w == Weighted(JsScore(j), j.jsFiles + j.tsFiles)
      || w == Weighted(ShellScore(s), s.files)
  {
    (if p.files > 0 then [Weighted(PythonScore(p), p.files)] else [])
    + (if j.jsFiles > 0 || j.tsFiles > 0 then [Weighted(JsScore(j), j.jsFiles + j.tsFiles)] else [])
    + (if s.files > 0 then [Weighted(ShellScore(s), s.files)] else [])
  }

  function WeightedTotal(ws: seq<Weighted>): real {
    if ws == [] then 0.0 else ws[0].score * ws[0].files as real + WeightedTotal(ws[1..])
  }

  function Files(ws: seq<Weighted>): nat {
    if ws == [] then 0 else ws[0].files + Files(ws[1..])
  }

  /** The weighted mean of `ws`, or 0 when they stand for no files. */
  function WeightedMean(ws: seq<Weighted>): real {
    if Files(ws) > 0 then WeightedTotal(ws) / Files(ws) as real else 0.0
  }

  /** `calculate_overall_quality_score`. */
  function OverallScore(p: PythonMetrics, j: JsMetrics, s: ShellMetrics): (r: real)
    ensures p.files == 0 && j.jsFiles + j.tsFiles == 0 && s.files == 0 ==> r == 0.0
  {
    WeightedMean(Scores(p, j, s))
  }

  lemma MulLe(a: real, b: real, w: real)
    requires a <= b && 0.0 <= w
    ensures a * w <= b * w
  {
  }

  /** Scores within [lo, hi] keep the weighted total within [lo, hi] times
      the number of files. */
  lemma {:induction false} TotalWithin(ws: seq<Weighted>, lo: real, hi: real)
    requires forall k :: 0 <= k < |ws| ==> lo <= ws[k].score <= hi
    ensures lo * Files(ws) as real <= WeightedTotal(ws) <= hi * Files(ws) as real
  {
    if ws != [] {
      TotalWithin(ws[1..], lo, hi);
      var n, m := ws[0].files as real, Files(ws[1..]) as real;
      StepWithin(ws[0].score, n, WeightedTotal(ws[1..]), m, lo, hi);
      assert WeightedTotal(ws) == ws[0].score * n + WeightedTotal(ws[1..]);
      assert Files(ws) as real == n + m;
    }
  }

  /** One more score within [lo, hi], weighted by `n`, keeps the bounds. */
  lemma StepWithin(s: real, n: real, t: real, m: real, lo: real, hi: real)
    requires lo <= s <= hi && 0.0 <= n && lo * m <= t <= hi * m
    ensures lo * (n + m) <= s * n + t <= hi * (n + m)
  {
    MulLe(lo, s, n);
    MulLe(s, hi, n);
  }

  /** The weighted mean lies between the lowest and the highest score. */
  lemma MeanWithin(ws: seq<Weighted>, lo: real, hi: real)
    requires Files(ws) > 0
    requires forall k :: 0 <= k < |ws| ==> lo <= ws[k].score <= hi
    ensures lo <= WeightedMean(ws) <= hi
  {
    TotalWithin(ws, lo, hi);
    Stats.DivWithin(WeightedTotal(ws), Files(ws) as real, lo, hi);
  }

  lemma FilesPositive(ws: seq<Weighted>)
    requires ws != [] && forall k :: 0 <= k < |ws| ==> ws[k].files > 0
    ensures Files(ws) > 0
  {
  }

  /** The overall score lies between the lowest and the highest score of the
      languages that have files; in particular it is within [0, 100]. */
  lemma OverallWithin(p: PythonMetrics, j: JsMetrics, s: ShellMetrics, lo: real, hi: real)
    requires Scores(p, j, s) != []
    requires forall k :: 0 <= k < |Scores(p, j, s)| ==> lo <= Scores(p, j, s)[k].score <= hi
    ensures lo <= OverallScore(p, j, s) <= hi
  {
    FilesPositive(Scores(p, j, s));
    MeanWithin(Scores(p, j, s), lo, hi);
  }

  /** The overall score lies between bounds that every language with files
      keeps its own score within. */
  lemma OverallWithinLanguages(p: PythonMetrics, j: JsMetrics, s: ShellMetrics, lo: real, hi: real)
    requires p.files > 0 || j.jsFiles + j.tsFiles > 0 || s.files > 0
    requires p.files > 0 ==> lo <= PythonScore(p) <= hi
    requires j.jsFiles + j.tsFiles > 0 ==> lo <= JsScore(j) <= hi
    requires s.files > 0 ==> lo <= ShellScore(s) <= hi
    ensures lo <= OverallScore(p, j, s) <= hi
  {
    var ws := Scores(p, j, s);
    forall k | 0 <= k < |ws| ensures lo <= ws[k].score <= hi {
      assert ws[k] in ws;
    }
    OverallWithin(p, j, s, lo, hi);
  }

  /** A project with files in one language only is scored by that
      language's score. */
  lemma OneLanguageOverall(p: PythonMetrics, j: JsMetrics, s: ShellMetrics)
    requires p.files > 0 && j.jsFiles + j.tsFiles == 0 && s.files == 0
    ensures OverallScore(p, j, s) == PythonScore(p)
  {
    var ws := Scores(p, j, s);
    assert ws == [Weighted(PythonScore(p), p.files)];
    assert WeightedTotal(ws) == PythonScore(p) * p.files as real + WeightedTotal(ws[1..]);
    assert Files(ws) == p.files + Files(ws[1..]);
  }

  /** The band `generate_quality_report` puts the overall score in. */
  datatype Band = Poor | NeedsImprovement | Good

  function BandOf(score: real): (b: Band)
    ensures b == Poor <==> score < 70.0
    ensures b == NeedsImprovement <==> 70.0 <= score < 80.0
    ensures b == Good <==> score >= 80.0
  {
    if score < 70.0 then Poor else if score < 80.0 then NeedsImprovement else Good
  }

  /** Only projects with files can be anything but poor. */
  lemma NoFilesIsPoor(p: PythonMetrics, j: JsMetrics, s: ShellMetrics)
    requires p.files == 0 && j.jsFiles + j.tsFiles == 0 && s.files == 0
    ensures BandOf(OverallScore(p, j, s)) == Poor
  {
  }

  /** The language-specific insights. */
  datatype Insight = PylintLow | PythonStyle | JsErrors | ShellErrors

  /** The insights after the band: for a project with Python files, a
      pylint score below 7 and more than 10 flake8 issues; more than 5
      eslint errors and more than 3 shellcheck errors whatever the file
      counts. */
  function LanguageInsights(p: PythonMetrics, j: JsMetrics, s: ShellMetrics): (r: seq<Insight>)
    ensures PylintLow in r <==> p.files > 0 && p.pylintScore < 7.0
    ensures PythonStyle in r <==> p.files > 0 && p.flake8Issues > 10
    ensures JsErrors in r <==> j.eslintErrors > 5
    ensures ShellErrors in r <==> s.shellcheckErrors > 3
    ensures |r| <= 4
  {
    (if p.files > 0 && p.pylintScore < 7.0 then [PylintLow] else [])
    + (if p.files > 0 && p.flake8Issues > 10 then [PythonStyle] else [])
    + (if j.eslintErrors > 5 then [JsErrors] else [])
    + (if s.shellcheckErrors > 3 then [ShellErrors] else [])
  }

  /** A Python project with a pylint score of 0 gets the low-pylint insight
      even though its score counts as a perfect one. */
  lemma PylintZeroStillFlagged(p: PythonMetrics, j: JsMetrics, s: ShellMetrics)
    requires p.files > 0 && p.pylintScore == 0.0
    ensures PylintLow in LanguageInsights(p, j, s)
    ensures PythonScore(p) == PythonScore(p.(pylintScore := 10.0))
  {
  }
}

=== FILE: code_review.dfy ===
/** The automated code reviewer (`CodeReviewAutomator` in
    quality-gates/review/automate_review.py): the per-line checks for Python,
    shell and configuration files, the structural checks on a Python syntax
    tree, the documentation check, and the score and recommendations derived
    from the per-category issue counts. */
module CodeReview {
  import opened Text
  import opened Common

  datatype Category = Style | Logic | Security | Performance | Maintainability

  /** What a finding reports. */
  datatype Kind =
    | LineTooLong
    | TodoComment
    | PrintStatement
    | BareExcept
    | MagicNumber(number: string)
    | SyntaxError
    | LongFunction
    | ManyParameters
    | LargeClass
    | DeepNesting(depth: nat)
    | UnquotedVariable
    | MissingSetE
    | HardcodedPath
    | CommentedConfig
    | MissingReadme
    | MissingDocstrings(count: nat)
    | NotReviewed

  /** A finding: where it is and what it reports. Its category and severity
      follow from its kind (`CategoryOf`, `SeverityOf`). */
  datatype Finding = Finding(file: string, line: nat, kind: Kind)

  /** The category and severity the reviewer attaches to each kind of finding. */
  function CategoryOf(k: Kind): Category {
    match k
    case LineTooLong => Style
    case PrintStatement => Style
    case BareExcept => Logic
    case SyntaxError => Logic
    case UnquotedVariable => Logic
    case MissingSetE => Logic
    case NotReviewed => Logic
    case _ => Maintainability
  }

  function SeverityOf(k: Kind): Severity {
    match k
    case SyntaxError => High
    case PrintStatement => Medium
    case BareExcept => Medium
    case LongFunction => Medium
    case ManyParameters => Medium
    case LargeClass => Medium
    case DeepNesting(_) => Medium
    case UnquotedVariable => Medium
    case MissingSetE => Medium
    case MissingReadme => Medium
    case NotReviewed => Info
    case _ => Low
  }

  /** The kinds of a list of findings, in order. */
  function Kinds(fs: seq<Finding>): (ks: seq<Kind>)
    ensures |ks| == |fs| && forall i :: 0 <= i < |fs| ==> ks[i] == fs[i].kind
  {
    if fs == [] then [] else [fs[0].kind] + Kinds(fs[1..])
  }

  lemma KindsAppend(a: seq<Finding>, b: seq<Finding>)
    ensures Kinds(a + b) == Kinds(a) + Kinds(b)
  {
  }

  /** Some finding in `fs` is of kind `k`. */
  predicate Reports(fs: seq<Finding>, k: Kind) {
    k in Kinds(fs)
  }

  /** Findings of the given kinds, all at one line of one file. */
  function Stamp(file: string, line: nat, ks: seq<Kind>): (r: seq<Finding>)
    ensures Kinds(r) == ks
    ensures forall i :: 0 <= i < |r| ==> r[i].file == file && r[i].line == line
  {
    seq(|ks|, i requires 0 <= i < |ks| => Finding(file, line, ks[i]))
  }

  function When(c: bool, k: Kind): seq<Kind> {
    if c then [k] else []
  }

  // ---------------------------------------------------------------------
  // Magic numbers: the matches of `\b\d{2,}\b`

  /** Length of the run of digits at the start of `s`. */
  function DigitRunLen(s: string): (n: nat)
    ensures n <= |s| && forall i :: 0 <= i < n ==> IsDigit(s[i])
    ensures n == |s| || !IsDigit(s[n])
  {
    if |s| > 0 && IsDigit(s[0]) then 1 + DigitRunLen(s[1..]) else 0
  }

  /** `re.findall(r'\b\d{2,}\b', s)`, scanning left to right; `prevWord`
      says whether the character before `s` is a `\w` character. A match
      starts at a word boundary, takes the longest run of digits (shorter runs
      would end between two digits, where there is no boundary), and needs at
      least two digits and a boundary after them. */
  function FindAllNumbers(s: string, prevWord: bool): seq<string>
    decreases |s|
  {
    if s == [] then []
    else
      var d := DigitRunLen(s);
      if !prevWord && d >= 2 && (d == |s| || !IsWordChar(s[d])) then [s[..d]] + FindAllNumbers(s[d..], true)
      else FindAllNumbers(s[1..], IsWordChar(s[0]))
  }

  /** The words that are numbers of at least two digits. */
  function NumberWords(ws: seq<string>): (r: seq<string>)
    ensures forall k :: 0 <= k < |r| ==> |r[k]| >= 2 && AllDigits(r[k])
  {
    if ws == [] then []
    else (if |ws[0]| >= 2 && AllDigits(ws[0]) then [ws[0]] else []) + NumberWords(ws[1..])
  }

  /** Inside a word, the scanner finds nothing and resumes after the word. */
  lemma {:induction false} ScanSkipsWord(s: string)
    ensures FindAllNumbers(s, true) == FindAllNumbers(s[WordPrefixLen(s)..], true)
    decreases |s|
  {
    if s != [] && IsWordChar(s[0]) {
      ScanSkipsWord(s[1..]);
      assert s[1..][WordPrefixLen(s[1..])..] == s[WordPrefixLen(s)..];
    }
  }

  /** Before a non-word character, whether a word came before does not matter. */
  lemma ScanAfterWordEnd(s: string)
    requires s == [] || !IsWordChar(s[0])
    ensures FindAllNumbers(s, true) == FindAllNumbers(s, false)
  {
  }

  /** The words of `ws` that `NumberWords` keeps, one word at a time. */
  lemma NumberWordsCons(w: string, ws: seq<string>)
    ensures NumberWords([w] + ws) == (if |w| >= 2 && AllDigits(w) then [w] else []) + NumberWords(ws)
  {
    assert ([w] + ws)[1..] == ws;
  }

  /** A word that is a number of two or more digits is reported whole. */
  lemma ScanNumberWord(s: string)
    requires s != [] && IsWordChar(s[0])
    requires var d := DigitRunLen(s); d >= 2 && (d == |s| || !IsWordChar(s[d]))
    ensures var n := WordPrefixLen(s);
      && n >= 2 && AllDigits(s[..n])
      && FindAllNumbers(s, false) == [s[..n]] + FindAllNumbers(s[n..], false)
  {
    var n := WordPrefixLen(s);
    ScanAfterWordEnd(s[n..]);
    assert DigitRunLen(s) == n;
  }

  /** Any other word is skipped whole. */
  lemma ScanOtherWord(s: string)
    requires s != [] && IsWordChar(s[0])
    requires var d := DigitRunLen(s); !(d >= 2 && (d == |s| || !IsWordChar(s[d])))
    ensures var n := WordPrefixLen(s);
      && !(n >= 2 && AllDigits(s[..n]))
      && FindAllNumbers(s, false) == FindAllNumbers(s[n..], false)
  {
    var n := WordPrefixLen(s);
    var d := DigitRunLen(s);
    if d < n {
      assert !IsDigit(s[..n][d]);
    }
    ScanAfterWordEnd(s[n..]);
    ScanSkipsWord(s[1..]);
    assert s[1..][WordPrefixLen(s[1..])..] == s[n..];
  }

  /** At the start of a word, the scanner reports the word if it is a number
      and then resumes after it. */
  lemma ScanWord(s: string)
    requires s != [] && IsWordChar(s[0])
    ensures var n := WordPrefixLen(s);
      FindAllNumbers(s, false)
        == (if n >= 2 && AllDigits(s[..n]) then [s[..n]] else []) + FindAllNumbers(s[n..], false)
  {
    var d := DigitRunLen(s);
    if d >= 2 && (d == |s| || !IsWordChar(s[d])) {
      ScanNumberWord(s);
    } else {
      ScanOtherWord(s);
    }
  }

  /** The regular expression finds exactly the words made of two or more digits. */
  lemma {:induction false} FindAllNumbersAreNumberWords(s: string)
    ensures FindAllNumbers(s, false) == NumberWords(Words(s))
    decreases |s|
  {
    if s != [] {
      if !IsWordChar(s[0]) {
        FindAllNumbersAreNumberWords(s[1..]);
      } else {
        var n := WordPrefixLen(s);
        FindAllNumbersAreNumberWords(s[n..]);
        ScanWord(s);
        NumberWordsCons(s[..n], Words(s[n..]));
      }
    }
  }

  /** A word is kept exactly when it is a number of two or more digits. */
  lemma {:induction false} NumberWordsIff(ws: seq<string>)
    ensures forall w :: w in NumberWords(ws) <==> w in ws && |w| >= 2 && AllDigits(w)
  {
    if ws != [] {
      NumberWordsIff(ws[1..]);
      assert ws == [ws[0]] + ws[1..];
    }
  }

  /** Each number word is kept as often as it occurs. */
  lemma {:induction false} NumberWordsCount(ws: seq<string>, w: string)
    ensures multiset(NumberWords(ws))[w] == if |w| >= 2 && AllDigits(w) then multiset(ws)[w] else 0
  {
    if ws != [] {
      NumberWordsCount(ws[1..], w);
      assert ws == [ws[0]] + ws[1..];
    }
  }

  /** The magic numbers of a line: its numbers of two or more digits except
      the accepted ones (of "0", "1" and "100" only "100" can occur). */
  function MagicNumbers(line: string): (r: seq<string>)
    ensures forall k :: 0 <= k < |r| ==> |r[k]| >= 2 && AllDigits(r[k]) && r[k] != "100"
  {
    Accepted(NumberWords(Words(line)))
  }

  /** A number is reported exactly when it is a word of the line made of two
      or more digits, other than "100". */
  lemma MagicNumbersIff(line: string)
    ensures forall n :: n in MagicNumbers(line) <==> n in Words(line) && |n| >= 2 && AllDigits(n) && n != "100"
  {
    NumberWordsIff(Words(line));
  }

  /** Each word of the line that is a number of two or more digits, other
      than "100", is reported once per occurrence. */
  lemma MagicNumbersCount(line: string, n: string)
    ensures multiset(MagicNumbers(line))[n]
      == if |n| >= 2 && AllDigits(n) && n != "100" then multiset(Words(line))[n] else 0
  {
    AcceptedCount(NumberWords(Words(line)), n);
    NumberWordsCount(Words(line), n);
  }

  /** The numbers other than the accepted "0", "1" and "100", in order. */
  function Accepted(ns: seq<string>): (r: seq<string>)
    requires forall k :: 0 <= k < |ns| ==> |ns[k]| >= 2 && AllDigits(ns[k])
    ensures forall k :: 0 <= k < |r| ==> |r[k]| >= 2 && AllDigits(r[k]) && r[k] != "100"
    ensures forall n :: n in r <==> n in ns && n !in ["0", "1", "100"]
    ensures |r| <= |ns|
  {
    if ns == [] then []
    else (if ns[0] in ["0", "1", "100"] then [] else [ns[0]]) + Accepted(ns[1..])
  }

  /** Each number that is not accepted is kept as often as it occurs. */
  lemma {:induction false} AcceptedCount(ns: seq<string>, n: string)
    requires forall k :: 0 <= k < |ns| ==> |ns[k]| >= 2 && AllDigits(ns[k])
    ensures multiset(Accepted(ns))[n] == if n in ["0", "1", "100"] then 0 else multiset(ns)[n]
  {
    if ns != [] {
      AcceptedCount(ns[1..], n);
      assert ns == [ns[0]] + ns[1..];
    }
  }

  function MagicKinds(ns: seq<string>): (r: seq<Kind>)
    ensures |r| == |ns| && forall k :: 0 <= k < |r| ==> r[k] == MagicNumber(ns[k])
  {
    seq(|ns|, k requires 0 <= k < |ns| => MagicNumber(ns[k]))
  }

  // ---------------------------------------------------------------------
  // Line checks

  /** The four fixed checks of `_analyze_python_line`: line length, TODO,
      `print(` outside test files, and a bare `except:`. */
  function FixedPythonKinds(line: string, file: string): (r: seq<Kind>)
    ensures LineTooLong in r <==> |line| > 88
    ensures TodoComment in r <==> Contains(Upper(line), "TODO")
    ensures PrintStatement in r <==> Contains(line, "print(") && !EndsWith(file, "test.py")
    ensures BareExcept in r <==> Contains(line, "except:") && !Contains(line, "Exception")
    ensures forall k :: k in r ==> k in [LineTooLong, TodoComment, PrintStatement, BareExcept]
  {
    When(|line| > 88, LineTooLong)
    + When(Contains(Upper(line), "TODO"), TodoComment)
    + When(Contains(line, "print(") && !EndsWith(file, "test.py"), PrintStatement)
    + When(Contains(line, "except:") && !Contains(line, "Exception"), BareExcept)
  }

  /** `_analyze_python_line` on a stripped line: what it reports. */
  function PythonLineKinds(line: string, file: string): (r: seq<Kind>)
    ensures forall k: Kind :: !k.MagicNumber? ==> (k in r <==> k in FixedPythonKinds(line, file))
    ensures forall n :: MagicNumber(n) in r <==> n in MagicNumbers(line)
    ensures forall k :: k in r ==> PythonLineKind(k)
  {
    var fixed := FixedPythonKinds(line, file);
    var magic := MagicKinds(MagicNumbers(line));
    assert forall n :: MagicNumber(n) in magic <==> n in MagicNumbers(line) by {
      forall n | n in MagicNumbers(line) ensures MagicNumber(n) in magic {
        var k :| 0 <= k < |MagicNumbers(line)| && MagicNumbers(line)[k] == n;
        assert magic[k] == MagicNumber(n);
      }
    }
    fixed + magic
  }

  /** Each number yields one finding per occurrence. */
  lemma {:induction false} MagicKindsCount(ns: seq<string>, n: string)
    ensures multiset(MagicKinds(ns))[MagicNumber(n)] == multiset(ns)[n]
  {
    if ns != [] {
      MagicKindsCount(ns[1..], n);
      assert MagicKinds(ns) == [MagicNumber(ns[0])] + MagicKinds(ns[1..]);
      assert ns == [ns[0]] + ns[1..];
    }
  }

  /** A Python line reports one magic-number finding per occurrence of the
      number among its words, so `42 + 42` gives two findings. */
  lemma PythonLineMagicCount(line: string, file: string, n: string)
    ensures multiset(PythonLineKinds(line, file))[MagicNumber(n)] == multiset(MagicNumbers(line))[n]
    ensures multiset(PythonLineKinds(line, file))[MagicNumber(n)]
      == if |n| >= 2 && AllDigits(n) && n != "100" then multiset(Words(line))[n] else 0
  {
    var fixed := FixedPythonKinds(line, file);
    assert MagicNumber(n) !in fixed;
    MagicKindsCount(MagicNumbers(line), n);
    MagicNumbersCount(line, n);
  }

  predicate PythonLineKind(k: Kind) {
    k.LineTooLong? || k.TodoComment? || k.PrintStatement? || k.BareExcept? || k.MagicNumber?
  }

  predicate IsIdentStart(c: char) {
    IsAsciiLetter(c) || c == '_'
  }

  /** The tail `[A-Za-z0-9_]*[^"]` of the unquoted-variable pattern matches at
      index `j`, with backtracking over the identifier characters. */
  predicate TailMatches(line: string, j: nat)
    decreases |line| - j
  {
    j < |line| && (line[j] != '"' || (IsWordChar(line[j]) && TailMatches(line, j + 1)))
  }

  /** The pattern `\$[A-Za-z_][A-Za-z0-9_]*[^"]` matches starting at `i`. */
  predicate UnquotedAt(line: string, i: nat) {
    i + 1 < |line| && line[i] == '$' && IsIdentStart(line[i + 1]) && TailMatches(line, i + 2)
  }

  /** Thanks to backtracking, the pattern only needs one more character after
      the first identifier character, and that character must not be `"`. */
  lemma TailMatchesIff(line: string, j: nat)
    ensures TailMatches(line, j) <==> j < |line| && line[j] != '"'
  {
  }

  /** `re.search` of the unquoted-variable pattern, as a scan for a match. */
  function FindUnquoted(line: string, from: nat): (found: bool)
    ensures found <==> exists i :: from <= i && UnquotedAt(line, i)
    decreases |line| - from
  {
    if from + 1 >= |line| then
      assert forall i :: from <= i ==> !UnquotedAt(line, i);
      false
    else if line[from] == '$' && IsIdentStart(line[from + 1]) && from + 2 < |line| && line[from + 2] != '"' then
      TailMatchesIff(line, from + 2);
      assert UnquotedAt(line, from);
      true
    else
      TailMatchesIff(line, from + 2);
      var rest := FindUnquoted(line, from + 1);
      assert !UnquotedAt(line, from);
      rest
  }

  /** `_analyze_shell_line` on a stripped line: what it reports. */
  function ShellLineKinds(line: string, lineNum: nat): (r: seq<Kind>)
    ensures UnquotedVariable in r <==> exists i :: UnquotedAt(line, i)
    ensures MissingSetE in r <==> lineNum == 1 && !Contains(line, "set -e")
    ensures HardcodedPath in r <==> Contains(line, "/usr/local") || Contains(line, "/opt/")
    ensures forall k :: k in r ==> k == UnquotedVariable || k == MissingSetE || k == HardcodedPath
  {
    When(FindUnquoted(line, 0), UnquotedVariable)
    + When(lineNum == 1 && !Contains(line, "set -e"), MissingSetE)
    + When(Contains(line, "/usr/local") || Contains(line, "/opt/"), HardcodedPath)
  }

  /** The line reviews skip blank lines and comments. */
  predicate Skipped(clean: string) {
    clean == [] || StartsWith(clean, "#")
  }

  datatype Language = Python | Shell

  function LineKinds(lang: Language, clean: string, lineNum: nat, file: string): seq<Kind> {
    match lang
    case Python => PythonLineKinds(clean, file)
    case Shell => ShellLineKinds(clean, lineNum)
  }

  /** What one line of a Python or shell file reports: nothing when the
      stripped line is blank or a comment, otherwise the checks run on the
      stripped line. */
  function LineReport(lang: Language, line: string, lineNum: nat, file: string): (r: seq<Kind>)
    ensures Skipped(Strip(line)) ==> r == []
  {
    var clean := Strip(line);
    if Skipped(clean) then [] else LineKinds(lang, clean, lineNum, file)
  }

  /** The reports of every line, numbered from `first`. */
  function PerLine(lang: Language, lines: seq<string>, first: nat, file: string): (r: seq<seq<Kind>>)
    ensures |r| == |lines|
  {
    MapNumbered((l: string, n: nat) => LineReport(lang, l, n, file), lines, first)
  }

  /** Entry `i` of `PerLine` is the report of line `first + i`. */
  lemma PerLineAt(lang: Language, lines: seq<string>, first: nat, file: string, i: nat)
    requires i < |lines|
    ensures PerLine(lang, lines, first, file)[i] == LineReport(lang, lines[i], first + i, file)
  {
  }

  /** Findings for per-line reports, the line numbered `first` first. */
  function ReportLines(perLine: seq<seq<Kind>>, first: nat, file: string): (r: seq<Finding>)
    ensures forall k :: 0 <= k < |r| ==> r[k].file == file
  {
    if perLine == [] then [] else Stamp(file, first, perLine[0]) + ReportLines(perLine[1..], first + 1, file)
  }

  /** Every finding stands on the line whose report holds its kind... */
  lemma {:induction false} ReportedOnItsLine(perLine: seq<seq<Kind>>, first: nat, file: string, k: nat)
    requires k < |ReportLines(perLine, first, file)|
    ensures var f := ReportLines(perLine, first, file)[k];
      first <= f.line < first + |perLine| && f.kind in perLine[f.line - first]
  {
    var here := Stamp(file, first, perLine[0]);
    if k < |here| {
      assert Kinds(here)[k] == perLine[0][k];
    } else {
      ReportedOnItsLine(perLine[1..], first + 1, file, k - |here|);
    }
  }

  /** ...and every kind a line reports becomes a finding on that line. */
  lemma {:induction false} EveryLineReportIsFound(perLine: seq<seq<Kind>>, first: nat, file: string, i: nat, kind: Kind)
    requires i < |perLine| && kind in perLine[i]
    ensures Finding(file, first + i, kind) in ReportLines(perLine, first, file)
  {
    var here := Stamp(file, first, perLine[0]);
    var rest := ReportLines(perLine[1..], first + 1, file);
    assert ReportLines(perLine, first, file) == here + rest;
    if i == 0 {
      StampHolds(file, first, perLine[0], kind);
    } else {
      assert perLine[1..][i - 1] == perLine[i];
      EveryLineReportIsFound(perLine[1..], first + 1, file, i - 1, kind);
      assert Finding(file, first + i, kind) in rest;
    }
  }

  /** Every kind of a line's report is stamped on that line. */
  lemma StampHolds(file: string, line: nat, ks: seq<Kind>, kind: Kind)
    requires kind in ks
    ensures Finding(file, line, kind) in Stamp(file, line, ks)
  {
    var here := Stamp(file, line, ks);
    var j :| 0 <= j < |ks| && ks[j] == kind;
    assert Kinds(here)[j] == kind;
    assert here[j] == Finding(file, line, kind);
  }

  /** A kind is reported somewhere exactly when some line reports it. */
  lemma {:induction false} ReportsSomeLine(perLine: seq<seq<Kind>>, first: nat, file: string, kind: Kind)
    ensures Reports(ReportLines(perLine, first, file), kind) <==> exists i :: 0 <= i < |perLine| && kind in perLine[i]
  {
    var r := ReportLines(perLine, first, file);
    if Reports(r, kind) {
      var k :| 0 <= k < |r| && Kinds(r)[k] == kind;
      ReportedOnItsLine(perLine, first, file, k);
    }
    if exists i :: 0 <= i < |perLine| && kind in perLine[i] {
      var i :| 0 <= i < |perLine| && kind in perLine[i];
      EveryLineReportIsFound(perLine, first, file, i, kind);
      var k :| 0 <= k < |r| && r[k] == Finding(file, first + i, kind);
      assert Kinds(r)[k] == kind;
    }
  }

  /** The line-by-line loop of `_review_python_file` and `_review_shell_file`,
      lines numbered from 1. */
  function ReviewLines(lang: Language, lines: seq<string>, file: string): (r: seq<Finding>)
    ensures forall k :: 0 <= k < |r| ==> r[k].file == file
  {
    ReportLines(PerLine(lang, lines, 1, file), 1, file)
  }

  /** A line that reports something is neither blank nor a comment. */
  lemma ReportingLineNotSkipped(lang: Language, line: string, lineNum: nat, file: string)
    requires LineReport(lang, line, lineNum, file) != []
    ensures !Skipped(Strip(line))
  {
  }

  /** Blank and comment lines never get a finding. */
  lemma SkippedLinesAreSilent(lang: Language, lines: seq<string>, file: string, k: nat)
    requires k < |ReviewLines(lang, lines, file)|
    ensures var f := ReviewLines(lang, lines, file)[k];
      1 <= f.line <= |lines| && !Skipped(Strip(lines[f.line - 1]))
  {
    var perLine := PerLine(lang, lines, 1, file);
    var r := ReportLines(perLine, 1, file);
    assert ReviewLines(lang, lines, file) == r;
    ReportedOnItsLine(perLine, 1, file, k);
    var j: nat := r[k].line - 1;
    assert r[k].kind in perLine[j];
    PerLineNotSkipped(lang, lines, file, j);
  }

  /** A line whose entry in `PerLine` is not empty is neither blank nor a
      comment. */
  lemma PerLineNotSkipped(lang: Language, lines: seq<string>, file: string, j: nat)
    requires j < |lines| && PerLine(lang, lines, 1, file)[j] != []
    ensures !Skipped(Strip(lines[j]))
  {
    PerLineAt(lang, lines, 1, file, j);
    ReportingLineNotSkipped(lang, lines[j], 1 + j, file);
  }

  /** The missing `set -e` warning can only come from line 1, so a script
      whose first line is a comment (a shebang, say) never gets it, wherever
      its `set -e` is. */
  lemma SetEOnlyFromFirstLine(lines: seq<string>, file: string)
    ensures Reports(ReviewLines(Shell, lines, file), MissingSetE) <==>
      lines != [] && !Skipped(Strip(lines[0])) && !Contains(Strip(lines[0]), "set -e")
  {
    var perLine := PerLine(Shell, lines, 1, file);
    ReportsSomeLine(perLine, 1, file, MissingSetE);
    forall i | 1 <= i < |lines| ensures MissingSetE !in perLine[i] {
      PerLineAt(Shell, lines, 1, file, i);
    }
    if lines != [] {
      PerLineAt(Shell, lines, 1, file, 0);
    }
  }

  predicate CommentedOut(clean: string) {
    StartsWith(clean, "#") && (Contains(clean, "=") || Contains(clean, ":"))
  }

  /** `_review_config_file`'s check of one line: a stripped line that is a
      comment and contains `=` or `:` looks like disabled configuration.
      Blank lines are not skipped here, and nothing else is checked. */
  function ConfigLineReport(line: string): (r: seq<Kind>)
    ensures r == [CommentedConfig] || r == []
    ensures r != [] <==> CommentedOut(Strip(line))
  {
    if CommentedOut(Strip(line)) then [CommentedConfig] else []
  }

  function ConfigPerLine(lines: seq<string>): (r: seq<seq<Kind>>)
    ensures |r| == |lines| && forall i :: 0 <= i < |lines| ==> r[i] == ConfigLineReport(lines[i])
  {
    seq(|lines|, i requires 0 <= i < |lines| => ConfigLineReport(lines[i]))
  }

  /** A configuration file's line `i + 1` is reported exactly when it is
      commented-out configuration. */
  lemma ConfigReportsCommentedOut(lines: seq<string>, file: string, i: nat)
    requires i < |lines|
    ensures Finding(file, i + 1, CommentedConfig) in ReportLines(ConfigPerLine(lines), 1, file)
      <==> CommentedOut(Strip(lines[i]))
  {
    var perLine := ConfigPerLine(lines);
    var r := ReportLines(perLine, 1, file);
    if CommentedOut(Strip(lines[i])) {
      EveryLineReportIsFound(perLine, 1, file, i, CommentedConfig);
    }
    if Finding(file, i + 1, CommentedConfig) in r {
      var k :| 0 <= k < |r| && r[k] == Finding(file, i + 1, CommentedConfig);
      ReportedOnItsLine(perLine, 1, file, k);
    }
  }

  // ---------------------------------------------------------------------
  // Structural checks on the Python syntax tree

  /** The statements of a parsed Python file, as far as the reviewer looks at
      them: functions with their positional parameter count, classes, `if`
      statements (an `elif` is an `if` inside `orelse`), and every other
      statement with the statements nested in it. `documented` says whether
      the definition has a non-empty docstring. */
  datatype Node =
    | FunctionDef(line: nat, params: nat, body: seq<Node>, documented: bool)
    | ClassDef(line: nat, body: seq<Node>, documented: bool)
    | If(line: nat, body: seq<Node>, orelse: seq<Node>)
    | Other(children: seq<Node>)

  /** `count_nested_ifs` as written: the nesting depth reached through `if`
      statements directly inside `if` statements, starting from `depth`. */
  function CountNestedIfs(n: Node, depth: nat): nat
    decreases n, 1
  {
    match n
    case If(_, body, orelse) =>
      var afterBody := MaxOverChildren(body, depth + 1, depth + 1);
      MaxOverChildren(orelse, depth + 1, afterBody)
    case _ => depth
  }

  /** The running maximum of the `for child in node.body + node.orelse` loop. */
  function MaxOverChildren(children: seq<Node>, depth: nat, acc: nat): nat
    decreases children, 0
  {
    if children == [] then acc
    else
      var d := CountNestedIfs(children[0], depth);
      MaxOverChildren(children[1..], depth, if d > acc then d else acc)
  }

  /** Reference definition: the length of the longest chain of directly
      nested `if` statements starting at `n`. */
  function IfDepth(n: Node): nat
    decreases n, 1
  {
    match n
    case If(_, body, orelse) => 1 + Max(MaxIfDepth(body), MaxIfDepth(orelse))
    case _ => 0
  }

  function MaxIfDepth(children: seq<Node>): nat
    decreases children, 0
  {
    if children == [] then 0 else Max(IfDepth(children[0]), MaxIfDepth(children[1..]))
  }

  function Max(a: nat, b: nat): nat {
    if a >= b then a else b
  }

  /** The nested-if count is the reference depth, offset by the start depth. */
  lemma {:induction false} CountNestedIfsIsDepth(n: Node, depth: nat)
    ensures CountNestedIfs(n, depth) == depth + IfDepth(n)
    decreases n, 1
  {
    match n
    case If(_, body, orelse) =>
      MaxOverChildrenIsDepth(body, depth + 1, depth + 1);
      MaxOverChildrenIsDepth(orelse, depth + 1, depth + 1 + MaxIfDepth(body));
    case _ =>
  }

  lemma {:induction false} MaxOverChildrenIsDepth(children: seq<Node>, depth: nat, acc: nat)
    requires acc >= depth
    ensures MaxOverChildren(children, depth, acc) == Max(acc, depth + MaxIfDepth(children))
    decreases children, 0
  {
    if children != [] {
      CountNestedIfsIsDepth(children[0], depth);
      var d := CountNestedIfs(children[0], depth);
      MaxOverChildrenIsDepth(children[1..], depth, if d > acc then d else acc);
    }
  }

  predicate StructuralKind(k: Kind) {
    k.LongFunction? || k.ManyParameters? || k.LargeClass? || k.DeepNesting?
  }

  /** The visitor's walk over one node: own checks first, then the nested
      statements in order. */
  function VisitNode(file: string, n: Node): (r: seq<Finding>)
    ensures forall i :: 0 <= i < |r| ==> StructuralKind(r[i].kind) && r[i].file == file
    decreases n, 1
  {
    match n
    case FunctionDef(line, params, body, _) =>
      Stamp(file, line, When(|body| > 50, LongFunction) + When(params > 5, ManyParameters)) + VisitAll(file, body)
    case ClassDef(line, body, _) =>
      Stamp(file, line, When(|body| > 200, LargeClass)) + VisitAll(file, body)
    case If(line, body, orelse) =>
      var depth := CountNestedIfs(n, 0);
      Stamp(file, line, When(depth > 3, DeepNesting(depth))) + VisitAll(file, body) + VisitAll(file, orelse)
    case Other(children) => VisitAll(file, children)
  }

  function VisitAll(file: string, nodes: seq<Node>): (r: seq<Finding>)
    ensures forall i :: 0 <= i < |r| ==> StructuralKind(r[i].kind) && r[i].file == file
    decreases nodes, 0
  {
    if nodes == [] then [] else VisitNode(file, nodes[0]) + VisitAll(file, nodes[1..])
  }

  /** Number of deep-nesting findings. */
  function DeepNestingCount(ks: seq<Kind>): nat {
    if ks == [] then 0 else (if ks[0].DeepNesting? then 1 else 0) + DeepNestingCount(ks[1..])
  }

  lemma {:induction false} DeepNestingCountAppend(a: seq<Kind>, b: seq<Kind>)
    ensures DeepNestingCount(a + b) == DeepNestingCount(a) + DeepNestingCount(b)
  {
    if a != [] {
      DeepNestingCountAppend(a[1..], b);
      assert (a + b)[1..] == a[1..] + b;
    } else {
      assert a + b == b;
    }
  }

  /** `k` directly nested `if` statements, the outermost on line `k`. */
  function IfChain(k: nat): Node {
    if k == 0 then Other([]) else If(k, [IfChain(k - 1)], [])
  }

  lemma {:induction false} ChainDepth(k: nat)
    ensures IfDepth(IfChain(k)) == k
  {
    if k > 0 {
      ChainDepth(k - 1);
      assert MaxIfDepth([IfChain(k - 1)]) == Max(k - 1, MaxIfDepth([]));
    }
  }

  /** Visiting a chain of `k` nested `if` statements: the outermost one's own
      check, then the chain one shorter. */
  lemma VisitChain(file: string, k: nat)
    requires k > 0
    ensures Kinds(VisitNode(file, IfChain(k))) == When(k > 3, DeepNesting(k)) + Kinds(VisitNode(file, IfChain(k - 1)))
  {
    var n := IfChain(k);
    var own := Stamp(file, k, When(k > 3, DeepNesting(k)));
    var inner := VisitNode(file, IfChain(k - 1));
    assert n == If(k, [IfChain(k - 1)], []);
    CountNestedIfsIsDepth(n, 0);
    ChainDepth(k);
    assert VisitAll(file, [IfChain(k - 1)]) == inner by {
      assert VisitAll(file, [IfChain(k - 1)]) == inner + VisitAll(file, []);
    }
    assert VisitNode(file, n) == own + inner;
    KindsAppend(own, inner);
  }

  /** The outermost `if` of a chain of `k` reports itself when `k` exceeds three. */
  lemma OwnDeepNesting(k: nat)
    ensures DeepNestingCount(When(k > 3, DeepNesting(k))) == if k > 3 then 1 else 0
  {
    if k > 3 {
      assert DeepNestingCount([DeepNesting(k)]) == 1 + DeepNestingCount([]);
    }
  }

  /** Every `if` of a chain deeper than three is reported, so a chain of `k`
      nested `if` statements yields `k - 3` deep-nesting findings, not one. */
  lemma {:induction false} ChainReportsEveryDeepAncestor(file: string, k: nat)
    ensures DeepNestingCount(Kinds(VisitNode(file, IfChain(k)))) == if k > 3 then k - 3 else 0
  {
    if k > 0 {
      ChainReportsEveryDeepAncestor(file, k - 1);
      VisitChain(file, k);
      DeepNestingCountAppend(When(k > 3, DeepNesting(k)), Kinds(VisitNode(file, IfChain(k - 1))));
      OwnDeepNesting(k);
    }
  }

  lemma SingleDepth(n: Node)
    ensures MaxIfDepth([n]) == IfDepth(n)
  {
    assert [n][1..] == [];
  }

  /** An `if` with three `elif` branches is four `if` nodes deep, so it is
      reported as deeply nested although nothing in it is nested. */
  lemma ElifChainCountsAsNesting(file: string, a: nat, b: nat, c: nat, d: nat)
    ensures Reports(VisitNode(file, If(a, [], [If(b, [], [If(c, [], [If(d, [], [])])])])), DeepNesting(4))
  {
    var n3 := If(d, [], []);
    var n2 := If(c, [], [n3]);
    var n1 := If(b, [], [n2]);
    var elifs := If(a, [], [n1]);
    assert IfDepth(n3) == 1;
    SingleDepth(n3);
    assert IfDepth(n2) == 2;
    SingleDepth(n2);
    assert IfDepth(n1) == 3;
    SingleDepth(n1);
    assert IfDepth(elifs) == 4;
    CountNestedIfsIsDepth(elifs, 0);
    assert Kinds(VisitNode(file, elifs))[0] == DeepNesting(4);
  }

  // ---------------------------------------------------------------------
  // Whole files

  /** What the Python parser makes of a file's text. */
  datatype Parse = Parsed(tree: seq<Node>) | BadSyntax(line: nat)

  /** `_review_python_file`: the structural findings (or the syntax error)
      first, then the line findings; an unreadable file gets one
      informational finding at line 0 and nothing else. */
  function ReviewPythonFile(file: string, content: Option<string>, parse: Parse): (r: seq<Finding>)
    ensures content.None? ==> r == [Finding(file, 0, NotReviewed)]
    ensures content.Some? ==> (Reports(r, SyntaxError) <==> parse.BadSyntax?)
    ensures forall i :: 0 <= i < |r| ==> r[i].file == file
  {
    match content
    case None => [Finding(file, 0, NotReviewed)]
    case Some(text) =>
      var structural := StructuralFindings(file, parse);
      var lines := ReviewLines(Python, SplitOn(text, '\n'), file);
      KindsAppend(structural, lines);
      NoSyntaxErrorInLines(SplitOn(text, '\n'), file);
      structural + lines
  }

  /** The syntax-tree findings of a file, or its syntax error. */
  function StructuralFindings(file: string, parse: Parse): (r: seq<Finding>)
    ensures Reports(r, SyntaxError) <==> parse.BadSyntax?
    ensures forall i :: 0 <= i < |r| ==> r[i].file == file
  {
    match parse
    case Parsed(tree) => VisitAll(file, tree)
    case BadSyntax(line) => [Finding(file, line, SyntaxError)]
  }

  lemma NoSyntaxErrorInLines(lines: seq<string>, file: string)
    ensures !Reports(ReviewLines(Python, lines, file), SyntaxError)
  {
    PythonLinesKinds(lines, file);
  }

  /** The Python line review only reports line-level kinds. */
  lemma PythonLinesKinds(lines: seq<string>, file: string)
    ensures forall k :: k in Kinds(ReviewLines(Python, lines, file)) ==> PythonLineKind(k)
  {
    var perLine := PerLine(Python, lines, 1, file);
    forall k | k in Kinds(ReviewLines(Python, lines, file)) ensures PythonLineKind(k) {
      ReportsSomeLine(perLine, 1, file, k);
      var i :| 0 <= i < |perLine| && k in perLine[i];
      PerLineAt(Python, lines, 1, file, i);
    }
  }

  /** `_review_shell_file`. */
  function ReviewShellFile(file: string, content: Option<string>): (r: seq<Finding>)
    ensures content.None? ==> r == [Finding(file, 0, NotReviewed)]
    ensures content.Some? ==> (Reports(r, MissingSetE) <==>
      var first := SplitOn(content.value, '\n')[0];
      !Skipped(Strip(first)) && !Contains(Strip(first), "set -e"))
  {
    match content
    case None => [Finding(file, 0, NotReviewed)]
    case Some(text) =>
      SetEOnlyFromFirstLine(SplitOn(text, '\n'), file);
      ReviewLines(Shell, SplitOn(text, '\n'), file)
  }

  /** `_review_config_file`. */
  function ReviewConfigFile(file: string, content: Option<string>): (r: seq<Finding>)
    ensures content.None? ==> r == [Finding(file, 0, NotReviewed)]
    ensures content.Some? ==> forall f :: f in r ==> f.kind == CommentedConfig
  {
    match content
    case None => [Finding(file, 0, NotReviewed)]
    case Some(text) =>
      ConfigFindingsKind(SplitOn(text, '\n'), file);
      ReportLines(ConfigPerLine(SplitOn(text, '\n')), 1, file)
  }

  /** The configuration line review reports nothing but commented-out configuration. */
  lemma ConfigFindingsKind(lines: seq<string>, file: string)
    ensures forall f :: f in ReportLines(ConfigPerLine(lines), 1, file) ==> f.kind == CommentedConfig
  {
    var perLine := ConfigPerLine(lines);
    forall k | 0 <= k < |ReportLines(perLine, 1, file)|
      ensures ReportLines(perLine, 1, file)[k].kind == CommentedConfig
    {
      ReportedOnItsLine(perLine, 1, file, k);
    }
  }

  // ---------------------------------------------------------------------
  // Documentation

  /** Functions and classes without a docstring anywhere in the tree
      (`ast.walk` visits every node). */
  function Undocumented(n: Node): nat
    decreases n, 1
  {
    match n
    case FunctionDef(_, _, body, documented) => (if documented then 0 else 1) + UndocumentedAll(body)
    case ClassDef(_, body, documented) => (if documented then 0 else 1) + UndocumentedAll(body)
    case If(_, body, orelse) => UndocumentedAll(body) + UndocumentedAll(orelse)
    case Other(children) => UndocumentedAll(children)
  }

  function UndocumentedAll(nodes: seq<Node>): nat
    decreases nodes, 0
  {
    if nodes == [] then 0 else Undocumented(nodes[0]) + UndocumentedAll(nodes[1..])
  }

  /** Undocumented definitions over all files that parse; a file that cannot
      be read or parsed is passed over. */
  function UndocumentedInFiles(parses: seq<Option<seq<Node>>>): nat {
    if parses == [] then 0
    else (if parses[0].Some? then UndocumentedAll(parses[0].value) else 0) + UndocumentedInFiles(parses[1..])
  }

  /** `review_documentation`: a missing README, then the number of functions
      and classes without docstrings when there are any. No findings means
      the language entry is absent. */
  function ReviewDocumentation(hasReadme: bool, parses: seq<Option<seq<Node>>>): (r: seq<Finding>)
    ensures Reports(r, MissingReadme) <==> !hasReadme
    ensures forall c :: Reports(r, MissingDocstrings(c)) <==> c == UndocumentedInFiles(parses) && c > 0
    ensures r == [] <==> hasReadme && UndocumentedInFiles(parses) == 0
  {
    var n := UndocumentedInFiles(parses);
    var missing := Stamp("project_root", 0, When(!hasReadme, MissingReadme));
    var undocumented := Stamp("multiple_files", 0, When(n > 0, MissingDocstrings(n)));
    KindsAppend(missing, undocumented);
    missing + undocumented
  }

  // ---------------------------------------------------------------------
  // Summary, score and recommendations

  /** Numbers of issues per category. */
  datatype IssueCounts = IssueCounts(style: nat, logic: nat, security: nat, performance: nat, maintainability: nat)

  function Total(c: IssueCounts): nat {
    c.style + c.logic + c.security + c.performance + c.maintainability
  }

  /** `min(count * deduction, 20)`: a category costs at most 20 points. */
  function Capped(count: nat, perIssue: nat): (d: nat)
    ensures d <= 20
    ensures perIssue > 0 ==> (d == 0 <==> count == 0)
  {
    if count * perIssue < 20 then count * perIssue else 20
  }

  /** `_calculate_score`: 100 less a capped deduction per category (style 1,
      logic 5, security 10, performance 3, maintainability 2 per issue). */
  function Score(c: IssueCounts): (score: int)
    ensures 0 <= score <= 100
    ensures score == 100 <==> Total(c) == 0
  {
    var s := 100 - Capped(c.style, 1) - Capped(c.logic, 5) - Capped(c.security, 10)
                 - Capped(c.performance, 3) - Capped(c.maintainability, 2);
    if s < 0 then 0 else s
  }

  /** `b` has at least as many issues as `a` in every category. */
  predicate AtMost(a: IssueCounts, b: IssueCounts) {
    a.style <= b.style && a.logic <= b.logic && a.security <= b.security
    && a.performance <= b.performance && a.maintainability <= b.maintainability
  }

  lemma CappedMonotone(a: nat, b: nat, perIssue: nat)
    requires a <= b
    ensures Capped(a, perIssue) <= Capped(b, perIssue)
  {
    assert a * perIssue <= b * perIssue by {
      assert (b - a) * perIssue >= 0;
    }
  }

  /** More issues never raise the score. */
  lemma ScoreMonotone(a: IssueCounts, b: IssueCounts)
    requires AtMost(a, b)
    ensures Score(b) <= Score(a)
  {
    CappedMonotone(a.style, b.style, 1);
    CappedMonotone(a.logic, b.logic, 5);
    CappedMonotone(a.security, b.security, 10);
    CappedMonotone(a.performance, b.performance, 3);
    CappedMonotone(a.maintainability, b.maintainability, 2);
  }

  /** The five caps add up to exactly 100, so the floor at 0 is only reached
      when every category is capped. */
  lemma ScoreZeroIffAllCapped(c: IssueCounts)
    ensures Score(c) == 0 <==>
      c.style >= 20 && c.logic >= 4 && c.security >= 2 && c.performance >= 7 && c.maintainability >= 10
  {
  }

  datatype Recommendation =
    | Excellent | Good | NeedsAttention | NeedsSignificantWork
    | FixLogic(count: nat) | AddressSecurity(count: nat) | ImproveMaintainability(count: nat)
    | AddDocstrings | CoverWithTests | RunTestsBeforeCommit | ReviewComplexChanges

  function StandingAdvice(): seq<Recommendation> {
    [AddDocstrings, CoverWithTests, RunTestsBeforeCommit, ReviewComplexChanges]
  }

  function Band(score: int): (r: Recommendation)
    ensures r == Excellent <==> score >= 90
    ensures r == Good <==> 75 <= score < 90
    ensures r == NeedsAttention <==> 60 <= score < 75
    ensures r == NeedsSignificantWork <==> score < 60
  {
    if score >= 90 then Excellent else if score >= 75 then Good else if score >= 60 then NeedsAttention else NeedsSignificantWork
  }

  /** The items for the non-empty logic, security and maintainability
      categories, in that order. */
  function Actions(c: IssueCounts): (r: seq<Recommendation>)
    ensures |r| <= 3
    ensures FixLogic(c.logic) in r <==> c.logic > 0
    ensures AddressSecurity(c.security) in r <==> c.security > 0
    ensures ImproveMaintainability(c.maintainability) in r <==> c.maintainability > 0
    ensures r == [] <==> c.logic == 0 && c.security == 0 && c.maintainability == 0
  {
    (if c.logic > 0 then [FixLogic(c.logic)] else [])
    + (if c.security > 0 then [AddressSecurity(c.security)] else [])
    + (if c.maintainability > 0 then [ImproveMaintainability(c.maintainability)] else [])
  }

  /** `_generate_recommendations`: the score band, one item per non-empty
      logic, security and maintainability category, then four standing items. */
  function Recommendations(c: IssueCounts): (r: seq<Recommendation>)
    ensures 5 <= |r| <= 8
    ensures r[0] == Band(Score(c))
    ensures r[|r| - 4..] == StandingAdvice()
    ensures FixLogic(c.logic) in r <==> c.logic > 0
    ensures AddressSecurity(c.security) in r <==> c.security > 0
    ensures ImproveMaintainability(c.maintainability) in r <==> c.maintainability > 0
    ensures c.logic == 0 && c.security == 0 && c.maintainability == 0 ==> r == [r[0]] + StandingAdvice()
  {
    var head := [Band(Score(c))] + Actions(c);
    var standing := StandingAdvice();
    assert FixLogic(c.logic) !in standing;
    assert AddressSecurity(c.security) !in standing;
    assert ImproveMaintainability(c.maintainability) !in standing;
    assert (head + standing)[|head|..] == standing;
    head + standing
  }

  /** What a full review reports. */
  datatype ReviewReport = ReviewReport(
    languages: seq<(string, seq<Finding>)>,
    summary: IssueCounts,
    score: int,
    recommendations: seq<Recommendation>)

  /** The issue buckets of `CodeReviewAutomator` as created; the reviews never add to
      them, so they stay empty. */
  function EmptyBuckets(): IssueCounts { IssueCounts(0, 0, 0, 0, 0) }

  /** Everything the file reviews found, over all languages. */
  function AllFindings(languages: seq<(string, seq<Finding>)>): seq<Finding> {
    if languages == [] then [] else languages[0].1 + AllFindings(languages[1..])
  }

  /** `run_full_review` as written: the per-language findings are reported,
      but the summary, score and recommendations are computed from the
      buckets, which nothing fills. */
  function RunFullReview(languages: seq<(string, seq<Finding>)>): (r: ReviewReport)
    ensures r == ReviewReport(languages, EmptyBuckets(), 100, [Excellent] + StandingAdvice())
  {
    NoIssuesReport(EmptyBuckets());
    ReviewReport(languages, EmptyBuckets(), Score(EmptyBuckets()), Recommendations(EmptyBuckets()))
  }

  /** No issues score 100 and draw the excellent band and the standing advice. */
  lemma NoIssuesReport(c: IssueCounts)
    requires Total(c) == 0
    ensures Score(c) == 100
    ensures Recommendations(c) == [Excellent] + StandingAdvice()
  {
    assert Band(100) == Excellent;
  }

  /** One more issue in category `cat`. */
  function AddIssue(c: IssueCounts, cat: Category): (r: IssueCounts)
    ensures Total(r) == Total(c) + 1
  {
    match cat
    case Style => c.(style := c.style + 1)
    case Logic => c.(logic := c.logic + 1)
    case Security => c.(security := c.security + 1)
    case Performance => c.(performance := c.performance + 1)
    case Maintainability => c.(maintainability := c.maintainability + 1)
  }

  /** The number of findings of category `cat`. */
  function CountOf(fs: seq<Finding>, cat: Category): nat {
    if fs == [] then 0 else (if CategoryOf(fs[0].kind) == cat then 1 else 0) + CountOf(fs[1..], cat)
  }

  /** The issue counts per category of a list of findings: each finding is
      added to the bucket of its category. */
  function Bucket(fs: seq<Finding>): (c: IssueCounts)
    ensures Total(c) == |fs|
  {
    if fs == [] then EmptyBuckets() else AddIssue(Bucket(fs[1..]), CategoryOf(fs[0].kind))
  }

  /** The count of category `cat` in `c`. */
  function CountIn(c: IssueCounts, cat: Category): nat {
    match cat
    case Style => c.style
    case Logic => c.logic
    case Security => c.security
    case Performance => c.performance
    case Maintainability => c.maintainability
  }

  /** Adding an issue of category `t` raises the count of `t` by one and
      leaves the others. */
  lemma AddIssueCount(c: IssueCounts, t: Category, cat: Category)
    ensures CountIn(AddIssue(c, t), cat) == CountIn(c, cat) + (if t == cat then 1 else 0)
  {
  }

  /** The count `Bucket` keeps for `cat` is the number of findings of that
      category. */
  lemma {:induction false} BucketCount(fs: seq<Finding>, cat: Category)
    ensures CountIn(Bucket(fs), cat) == CountOf(fs, cat)
  {
    if fs != [] {
      BucketCount(fs[1..], cat);
      AddIssueCount(Bucket(fs[1..]), CategoryOf(fs[0].kind), cat);
    }
  }

  /** Each count of `Bucket` is the number of findings of that category. */
  lemma BucketCounts(fs: seq<Finding>)
    ensures Bucket(fs).style == CountOf(fs, Style)
    ensures Bucket(fs).logic == CountOf(fs, Logic)
    ensures Bucket(fs).security == CountOf(fs, Security)
    ensures Bucket(fs).performance == CountOf(fs, Performance)
    ensures Bucket(fs).maintainability == CountOf(fs, Maintainability)
  {
    BucketCount(fs, Style);
    BucketCount(fs, Logic);
    BucketCount(fs, Security);
    BucketCount(fs, Performance);
    BucketCount(fs, Maintainability);
  }

  /** A category is counted exactly when some finding has it. */
  lemma {:induction false} CountOfPositive(fs: seq<Finding>, cat: Category)
    ensures CountOf(fs, cat) > 0 <==> exists k :: 0 <= k < |fs| && CategoryOf(fs[k].kind) == cat
  {
    if fs != [] {
      CountOfPositive(fs[1..], cat);
      if exists k :: 0 <= k < |fs[1..]| && CategoryOf(fs[1..][k].kind) == cat {
        var k :| 0 <= k < |fs[1..]| && CategoryOf(fs[1..][k].kind) == cat;
        assert fs[k + 1] == fs[1..][k];
      }
      if exists k :: 0 <= k < |fs| && CategoryOf(fs[k].kind) == cat {
        var k :| 0 <= k < |fs| && CategoryOf(fs[k].kind) == cat;
        if k > 0 {
          assert fs[1..][k - 1] == fs[k];
        }
      }
    }
  }

  /** The review with the findings sorted into their category buckets, as
      the summary and score evidently intend: the score is 100 exactly when
      nothing was found. */
  function RunFullReviewBucketed(languages: seq<(string, seq<Finding>)>): (r: ReviewReport)
    ensures r.languages == languages
    ensures Total(r.summary) == |AllFindings(languages)|
    ensures r.score == 100 <==> AllFindings(languages) == []
    ensures r.recommendations == Recommendations(r.summary)
  {
    var c := Bucket(AllFindings(languages));
    ReviewReport(languages, c, Score(c), Recommendations(c))
  }

  /** As written, any finding at all is still scored 100; bucketed, it is not. */
  lemma FindingsDoNotReachScore(languages: seq<(string, seq<Finding>)>)
    requires AllFindings(languages) != []
    ensures RunFullReview(languages).score == 100
    ensures RunFullReviewBucketed(languages).score < 100
  {
  }

  /** A `print(` call in a production file is reported, and yet, as written,
      the review of a file holding one still scores 100. */
  lemma PrintCallStillScores100(line: string, file: string, lineNum: nat)
    requires Contains(line, "print(") && !EndsWith(file, "test.py")
    ensures var fs := Stamp(file, lineNum, PythonLineKinds(line, file));
      && Reports(fs, PrintStatement)
      && RunFullReview([("python", fs)]).score == 100
      && RunFullReviewBucketed([("python", fs)]).score < 100
  {
    var fs := Stamp(file, lineNum, PythonLineKinds(line, file));
    assert AllFindings([("python", fs)]) == fs + [];
    FindingsDoNotReachScore([("python", fs)]);
  }
}

=== FILE: common.dfy ===
/** Vocabulary shared by the reviewers and scanners. */
module Common {

  datatype Option<T> = None | Some(value: T)

  /** The values present in `xs`, in order. */
  function Somes<T>(xs: seq<Option<T>>): (r: seq<T>)
    ensures |r| <= |xs|
  {
    if xs == [] then [] else (if xs[0].Some? then [xs[0].value] else []) + Somes(xs[1..])
  }

  /** A value is kept exactly when it is present at some position. */
  lemma {:induction false} SomesIff<T>(xs: seq<Option<T>>, v: T)
    ensures v in Somes(xs) <==> exists j :: 0 <= j < |xs| && xs[j] == Some(v)
  {
    if xs != [] {
      SomesIff(xs[1..], v);
      if v in Somes(xs[1..]) {
        var j :| 0 <= j < |xs[1..]| && xs[1..][j] == Some(v);
        assert xs[j + 1] == Some(v);
      }
      if exists j :: 0 <= j < |xs| && xs[j] == Some(v) {
        var j :| 0 <= j < |xs| && xs[j] == Some(v);
        if j > 0 {
          assert xs[1..][j - 1] == Some(v);
        }
      }
    }
  }

  /** The values of two lists are those of the first followed by those of
      the second, so `Somes` keeps the order of `xs`. */
  lemma {:induction false} SomesAppend<T>(a: seq<Option<T>>, b: seq<Option<T>>)
    ensures Somes(a + b) == Somes(a) + Somes(b)
  {
    if a != [] {
      SomesAppend(a[1..], b);
      assert (a + b)[1..] == a[1..] + b;
    } else {
      assert a + b == b;
    }
  }

  /** A single result gives its value when it has one, and nothing else. */
  lemma SomesOne<T>(x: Option<T>)
    ensures Somes([x]) == if x.Some? then [x.value] else []
  {
  }

  /** Severity of a finding, from most to least serious. */
  datatype Severity = Critical | High | Medium | Low | Info
}

=== FILE: complexity.dfy ===
/** The complexity analyzer (`ComplexityAnalyzer` in
    quality-gates/complexity/analyze_complexity.py): line-based cyclomatic
    counts for Python and JavaScript, the brace scan that finds where a shell
    or JavaScript function ends, the length estimates built on it, the
    strict thresholds that flag complex and long functions and long files,
    and the summary and recommendations. */
module Complexity {
  import opened Text
  import opened Common

  /** The analyzer's thresholds; a value is flagged only when it exceeds one. */
  const CyclomaticLimit := 10
  const FunctionLinesLimit := 50
  const FileLinesLimit := 300

  // ---------------------------------------------------------------------
  // Cyclomatic complexity

  /** A stripped Python line holding a branch keyword. */
  predicate PythonBranch(l: string) {
    Contains(l, "if ") || Contains(l, "elif ") || Contains(l, "for ") || Contains(l, "while ")
    || Contains(l, "case ") || Contains(l, "&&") || Contains(l, "||")
  }

  /** What one line adds to `_calculate_cyclomatic_complexity`: one for any
      branch keyword, one for `except `, and one per ` and ` and ` or `. */
  function PythonLineWeight(line: string): nat {
    var l := Strip(line);
    (if PythonBranch(l) then 1 else 0) + (if Contains(l, "except ") then 1 else 0)
    + Count(l, " and ") + Count(l, " or ")
  }

  function PythonWeights(lines: seq<string>): nat {
    if lines == [] then 0 else PythonLineWeight(lines[0]) + PythonWeights(lines[1..])
  }

  /** `_calculate_cyclomatic_complexity`: one plus what every line adds. */
  function Cyclomatic(lines: seq<string>): (c: nat)
    ensures c >= 1
  {
    1 + PythonWeights(lines)
  }

  lemma {:induction false} PythonWeightsAppend(a: seq<string>, b: seq<string>)
    ensures PythonWeights(a + b) == PythonWeights(a) + PythonWeights(b)
  {
    if a != [] {
      assert (a + b)[1..] == a[1..] + b;
      PythonWeightsAppend(a[1..], b);
    } else {
      assert a + b == b;
    }
  }

  /** The complexity of two stretches of code together is the sum of theirs
      less the one base point counted twice. */
  lemma CyclomaticAppend(a: seq<string>, b: seq<string>)
    ensures Cyclomatic(a + b) == Cyclomatic(a) + Cyclomatic(b) - 1
  {
    PythonWeightsAppend(a, b);
  }

  /** The number of lines whose stripped form holds a Python branch keyword. */
  function PythonBranchLines(lines: seq<string>): nat {
    if lines == [] then 0 else (if PythonBranch(Strip(lines[0])) then 1 else 0) + PythonBranchLines(lines[1..])
  }

  /** Every branching line raises the complexity by at least one. */
  lemma {:induction false} BranchLinesBound(lines: seq<string>)
    ensures Cyclomatic(lines) >= 1 + PythonBranchLines(lines)
  {
    if lines != [] {
      BranchLinesBound(lines[1..]);
    }
  }

  /** A stripped JavaScript line holding a branch token (`?` included). */
  predicate JsBranch(l: string) {
    Contains(l, "if ") || Contains(l, "for ") || Contains(l, "while ") || Contains(l, "switch ")
    || Contains(l, "&&") || Contains(l, "||") || Contains(l, "?")
  }

  function JsLineWeight(line: string): nat {
    var l := Strip(line);
    (if JsBranch(l) then 1 else 0) + (if Contains(l, "catch ") then 1 else 0)
  }

  function JsWeights(lines: seq<string>): (w: nat)
    ensures w <= 2 * |lines|
  {
    if lines == [] then 0 else JsLineWeight(lines[0]) + JsWeights(lines[1..])
  }

  /** `_calculate_js_complexity`: one, plus at most two per line. */
  function JsComplexity(lines: seq<string>): (c: nat)
    ensures 1 <= c <= 1 + 2 * |lines|
  {
    1 + JsWeights(lines)
  }

  /** The number of lines satisfying one of the two JavaScript tests. */
  function JsBranchLines(lines: seq<string>): nat {
    if lines == [] then 0 else (if JsBranch(Strip(lines[0])) then 1 else 0) + JsBranchLines(lines[1..])
  }

  function JsCatchLines(lines: seq<string>): nat {
    if lines == [] then 0 else (if Contains(Strip(lines[0]), "catch ") then 1 else 0) + JsCatchLines(lines[1..])
  }

  /** The JavaScript complexity is one plus the number of branching lines
      plus the number of lines with `catch `. */
  lemma {:induction false} JsComplexityCounts(lines: seq<string>)
    ensures JsComplexity(lines) == 1 + JsBranchLines(lines) + JsCatchLines(lines)
  {
    if lines != [] {
      JsComplexityCounts(lines[1..]);
    }
  }

  // ---------------------------------------------------------------------
  // Brace balance

  /** `{` less `}` on one stripped line. */
  function Delta(line: string): int {
    var l := Strip(line);
    Count(l, "{") - Count(l, "}")
  }

  /** The running brace count over lines `start .. end - 1`. */
  function Balance(lines: seq<string>, start: nat, end: nat): int
    requires start <= end <= |lines|
    decreases end - start
  {
    if end == start then 0 else Balance(lines, start, end - 1) + Delta(lines[end - 1])
  }

  /** Line `e` closes the block opened at `start`: the braces from `start`
      through `e` balance and line `e` holds a `}`. */
  predicate Closes(lines: seq<string>, start: nat, e: nat)
    requires start <= e < |lines|
  {
    Balance(lines, start, e + 1) == 0 && Contains(Strip(lines[e]), "}")
  }

  /** The first line from `i` up to (not including) `limit` that closes the
      block opened at `start`. */
  function CloseWithin(lines: seq<string>, start: nat, i: nat, limit: nat): (r: Option<nat>)
    requires start <= i && limit <= |lines|
    ensures r.Some? ==> i <= r.value < limit && Closes(lines, start, r.value)
    ensures forall e :: i <= e < limit && (r.None? || e < r.value) ==> !Closes(lines, start, e)
    decreases limit - i
  {
    if i >= limit then None
    else if Closes(lines, start, i) then Some(i)
    else CloseWithin(lines, start, i + 1, limit)
  }

  /** Where the shell function whose header is line `start` ends: the first
      closing line, or none. */
  function ShellFunctionEnd(lines: seq<string>, start: nat): (r: Option<nat>)
    ensures r.Some? ==> start <= r.value < |lines| && Closes(lines, start, r.value)
    ensures r.Some? ==> forall e :: start <= e < r.value ==> !Closes(lines, start, e)
    ensures r.None? ==> forall e :: start <= e < |lines| ==> !Closes(lines, start, e)
  {
    CloseWithin(lines, start, start, |lines|)
  }

  /** `_find_shell_function_end`: the running brace count kept line by line. */
  method FindShellFunctionEnd(lines: seq<string>, start: nat) returns (r: Option<nat>)
    ensures r == ShellFunctionEnd(lines, start)
  {
    var balance := 0;
    var i := start;
    while i < |lines|
      invariant start <= i && (i <= |lines| || i == start)
      invariant i <= |lines| ==> balance == Balance(lines, start, i)
      invariant forall e :: start <= e < i && e < |lines| ==> !Closes(lines, start, e)
      decreases |lines| - i
    {
      balance := balance + Delta(lines[i]);
      if balance == 0 && Contains(Strip(lines[i]), "}") {
        assert Closes(lines, start, i);
        return Some(i);
      }
      i := i + 1;
    }
    return None;
  }

  /** The shell function length of `_analyze_shell_file`: the end index less
      the header index, or 10 when no end is found or the end index is 0,
      which Python treats as false. */
  function ShellLength(lines: seq<string>, i: nat): (n: nat)
    ensures n == 10 || n < |lines| - i
    ensures ShellFunctionEnd(lines, i).Some? && ShellFunctionEnd(lines, i).value != 0 ==>
              n == ShellFunctionEnd(lines, i).value - i
    ensures ShellFunctionEnd(lines, i).Some? && ShellFunctionEnd(lines, i).value == 0 ==> n == 10
    ensures ShellFunctionEnd(lines, i).None? ==> n == 10
  {
    match ShellFunctionEnd(lines, i)
    case Some(e) => if e != 0 then e - i else 10
    case None => 10
  }

  /** A one-line function on the first line of a script is taken to be 10
      lines long... */
  lemma FirstLineOneLinerIsTen(lines: seq<string>)
    requires |lines| > 0 && Closes(lines, 0, 0)
    ensures ShellLength(lines, 0) == 10
  {
  }

  /** ...while the same function on any later line is 0 lines long. */
  lemma LaterOneLinerIsZero(lines: seq<string>, i: nat)
    requires 0 < i < |lines| && Closes(lines, i, i)
    ensures ShellLength(lines, i) == 0
  {
  }

  function Min(a: int, b: int): int {
    if a <= b then a else b
  }

  /** `_estimate_js_function_length`: one past the first closing line within
      100 lines of the header, else 50 lines or what is left of the file. */
  function JsLength(lines: seq<string>, start: nat): (n: nat)
    requires start < |lines|
    ensures 1 <= n <= 100
    ensures n <= |lines| - start
  {
    match CloseWithin(lines, start, start, Min(start + 100, |lines|))
    case Some(e) => e - start + 1
    case None => Min(50, |lines| - start)
  }

  /** A JavaScript function whose block closes within the window is measured
      to its closing line; otherwise the estimate never exceeds 50. */
  lemma JsLengthCases(lines: seq<string>, start: nat)
    requires start < |lines|
    ensures (exists e :: start <= e < Min(start + 100, |lines|) && Closes(lines, start, e))
      || JsLength(lines, start) <= 50
    ensures forall e :: start <= e < Min(start + 100, |lines|) && Closes(lines, start, e) ==>
                          JsLength(lines, start) <= e - start + 1
  {
  }

  // ---------------------------------------------------------------------
  // Function headers

  /** The shell header regex `^(?:function\s+)?(\w+)\s*\(\)\s*\{` tried with
      the name starting at `k`: a word, optional spaces, `()`, optional
      spaces and `{`. */
  function HeaderAt(s: string, k: nat): (r: Option<string>)
    requires k <= |s|
    ensures r.Some? ==> r.value != [] && forall i :: 0 <= i < |r.value| ==> IsWordChar(r.value[i])
  {
    var w := WordPrefixLen(s[k..]);
    var p := SkipSpace(s, k + w);
    if w > 0 && StartsWith(s[p..], "()") && SkipSpace(s, p + 2) < |s| && s[SkipSpace(s, p + 2)] == '{'
    then Some(s[k..k + w])
    else None
  }

  /** The name a stripped shell line declares, if it is a function header:
      with the `function` keyword when that reading matches, else without it. */
  function ShellHeader(s: string): (r: Option<string>)
    ensures r.Some? ==> r.value != [] && forall i :: 0 <= i < |r.value| ==> IsWordChar(r.value[i])
  {
    var keyword := if StartsWith(s, "function") && 8 < |s| && IsSpace(s[8]) then HeaderAt(s, SkipSpace(s, 8)) else None;
    if keyword.Some? then keyword else HeaderAt(s, 0)
  }

  /** A run of `n` word characters ended by a non-word character is read
      whole. */
  lemma {:induction false} WordRunLen(t: string, n: nat)
    requires n < |t| && !IsWordChar(t[n])
    requires forall i :: 0 <= i < n ==> IsWordChar(t[i])
    ensures WordPrefixLen(t) == n
  {
    if n > 0 {
      WordRunLen(t[1..], n - 1);
    }
  }

  /** A word of `n` characters followed by `() {` at `k` is read as a
      header naming it. */
  lemma HeaderAtWord(s: string, k: nat, n: nat)
    requires 0 < n && k + n + 3 < |s|
    requires forall i :: k <= i < k + n ==> IsWordChar(s[i])
    requires s[k + n] == '(' && s[k + n + 1] == ')' && s[k + n + 2] == ' ' && s[k + n + 3] == '{'
    ensures HeaderAt(s, k) == Some(s[k..k + n])
  {
    WordRunLen(s[k..], n);
    var p := k + n;
    assert SkipSpace(s, p) == p;
    assert s[p..][..2] == "()";
    assert SkipSpace(s, p + 2) == p + 3;
  }

  /** A line that starts with a word and then `(` does not take the
      `function` keyword reading. */
  lemma NotKeywordHeader(s: string, w: string)
    requires forall i :: 0 <= i < |w| ==> IsWordChar(w[i])
    requires |w| < |s| && s[..|w|] == w && s[|w|] == '('
    ensures !(StartsWith(s, "function") && 8 < |s| && IsSpace(s[8]))
  {
    if |w| > 8 {
      assert s[8] == w[8];
    }
  }

  /** `name() {` is recognised as declaring `name`... */
  lemma PlainHeaderRecognised(w: string, rest: string)
    requires w != [] && forall i :: 0 <= i < |w| ==> IsWordChar(w[i])
    ensures ShellHeader(w + "() {" + rest) == Some(w)
  {
    var s := w + "() {" + rest;
    var n := |w|;
    assert s[n] == '(' && s[n + 1] == ')' && s[n + 2] == ' ' && s[n + 3] == '{';
    assert s[0..n] == w;
    HeaderAtWord(s, 0, n);
    NotKeywordHeader(s, w);
  }

  /** ...and so is `function name() {`. */
  lemma KeywordHeaderRecognised(w: string, rest: string)
    requires w != [] && forall i :: 0 <= i < |w| ==> IsWordChar(w[i])
    ensures ShellHeader("function " + w + "() {" + rest) == Some(w)
  {
    var s := "function " + w + "() {" + rest;
    var n := |w|;
    assert s[..8] == "function" && s[8] == ' ' && s[9] == w[0];
    assert SkipSpace(s, 8) == 9;
    assert s[9 + n] == '(' && s[9 + n + 1] == ')' && s[9 + n + 2] == ' ' && s[9 + n + 3] == '{';
    assert s[9..9 + n] == w;
    HeaderAtWord(s, 9, n);
  }

  // ---------------------------------------------------------------------
  // Files

  /** What the analyzer records about one function. Shell functions have no
      complexity. */
  datatype FunctionStats = FunctionStats(name: string, line: nat, lines: nat, complexity: Option<nat>)

  datatype FileStats = FileStats(file: string, totalLines: nat, functions: seq<FunctionStats>)

  /** A plain `def` found by the Python parser, in `ast.walk` order. An
      `async def` is not an `ast.FunctionDef` and is never listed. */
  datatype FunctionNode = FunctionNode(name: string, lineno: nat, endLineno: Option<nat>)

  /** Python's `lines[a:b]` for non-negative bounds. */
  function Slice(lines: seq<string>, a: nat, b: nat): (r: seq<string>)
    ensures |r| <= |lines| && |r| <= if b >= a then b - a else 0
  {
    var hi := if b <= |lines| then b else |lines|;
    if a <= hi then lines[a..hi] else []
  }

  /** `_analyze_python_function`: the lines from the header to `end_lineno`
      (ten lines when the parser gives no end), their count and their
      complexity. */
  function PythonFunction(node: FunctionNode, lines: seq<string>): (f: FunctionStats)
    requires node.lineno >= 1
    ensures f.line == node.lineno && f.complexity.Some?
    ensures f.lines <= |lines|
    ensures node.endLineno.None? ==> f.lines <= 10
  {
    var start := node.lineno - 1;
    var stop := if node.endLineno.Some? then node.endLineno.value else start + 10;
    var body := Slice(lines, start, stop);
    FunctionStats(node.name, node.lineno, |body|, Some(Cyclomatic(body)))
  }

  /** `_analyze_python_file` on a file that parsed. */
  function AnalyzePythonFile(file: string, text: string, nodes: seq<FunctionNode>): (r: FileStats)
    requires forall i :: 0 <= i < |nodes| ==> nodes[i].lineno >= 1
    ensures |r.functions| == |nodes| && r.totalLines == |SplitOn(text, '\n')|
  {
    var lines := SplitOn(text, '\n');
    FileStats(file, |lines|,
      seq(|nodes|, i requires 0 <= i < |nodes| => PythonFunction(nodes[i], lines)))
  }

  /** The function declared on line index `i` of a shell script, if that
      line is a header: its name, 1-based line and estimated length. */
  function ShellFunctionAt(lines: seq<string>, i: nat): (r: Option<FunctionStats>)
    requires i < |lines|
    ensures r.Some? <==> ShellHeader(Strip(lines[i])).Some?
    ensures r.Some? ==>
              r.value.name == ShellHeader(Strip(lines[i])).value && r.value.line == i + 1
              && r.value.complexity.None? && (r.value.lines == 10 || r.value.lines < |lines| - i)
  {
    match ShellHeader(Strip(lines[i]))
    case Some(name) => Some(FunctionStats(name, i + 1, ShellLength(lines, i), None))
    case None => None
  }

  /** The shell functions a script declares, in line order. */
  function ShellFunctions(lines: seq<string>): (r: seq<FunctionStats>)
    ensures |r| <= |lines|
  {
    Somes(seq(|lines|, i requires 0 <= i < |lines| => ShellFunctionAt(lines, i)))
  }

  /** A function is listed for a script exactly when some line is a header
      declaring it. */
  lemma ShellFunctionsIffHeader(lines: seq<string>, f: FunctionStats)
    ensures f in ShellFunctions(lines) <==>
      exists j :: 0 <= j < |lines| && ShellFunctionAt(lines, j) == Some(f)
  {
    var xs := seq(|lines|, i requires 0 <= i < |lines| => ShellFunctionAt(lines, i));
    SomesIff(xs, f);
    if f in ShellFunctions(lines) {
      var j :| 0 <= j < |xs| && xs[j] == Some(f);
      assert ShellFunctionAt(lines, j) == Some(f);
    }
    if exists j :: 0 <= j < |lines| && ShellFunctionAt(lines, j) == Some(f) {
      var j :| 0 <= j < |lines| && ShellFunctionAt(lines, j) == Some(f);
      assert xs[j] == Some(f);
    }
  }

  /** `_analyze_shell_file`. */
  function AnalyzeShellFile(file: string, text: string): (r: FileStats)
    ensures r.totalLines == |SplitOn(text, '\n')|
  {
    var lines := SplitOn(text, '\n');
    FileStats(file, |lines|, ShellFunctions(lines))
  }

  /** The function declared on line index `i` of a JavaScript file, if
      `header` recognises the stripped line: its name, 1-based line,
      estimated length and the complexity of that many lines. Which lines
      are headers, and the name each declares, is given by `header`. */
  function JsFunctionAt(lines: seq<string>, i: nat, header: string -> Option<string>): (r: Option<FunctionStats>)
    requires i < |lines|
    ensures r.Some? <==> header(Strip(lines[i])).Some?
    ensures r.Some? ==>
              r.value.name == header(Strip(lines[i])).value && r.value.line == i + 1
              && 1 <= r.value.lines <= 100 && r.value.lines <= |lines| - i
              && r.value.complexity == Some(JsComplexity(lines[i..i + r.value.lines]))
  {
    match header(Strip(lines[i]))
    case Some(name) =>
      var n := JsLength(lines, i);
      Some(FunctionStats(name, i + 1, n, Some(JsComplexity(lines[i..i + n]))))
    case None => None
  }

  /** The JavaScript functions a file declares, in line order. */
  function JsFunctions(lines: seq<string>, header: string -> Option<string>): (r: seq<FunctionStats>)
    ensures |r| <= |lines|
  {
    Somes(seq(|lines|, i requires 0 <= i < |lines| => JsFunctionAt(lines, i, header)))
  }

  /** A function is listed for a file exactly when some line is a header
      declaring it. */
  lemma JsFunctionsIffHeader(lines: seq<string>, header: string -> Option<string>, f: FunctionStats)
    ensures f in JsFunctions(lines, header) <==>
      exists j :: 0 <= j < |lines| && JsFunctionAt(lines, j, header) == Some(f)
  {
    var xs := seq(|lines|, i requires 0 <= i < |lines| => JsFunctionAt(lines, i, header));
    SomesIff(xs, f);
    if f in JsFunctions(lines, header) {
      var j :| 0 <= j < |xs| && xs[j] == Some(f);
      assert JsFunctionAt(lines, j, header) == Some(f);
    }
    if exists j :: 0 <= j < |lines| && JsFunctionAt(lines, j, header) == Some(f) {
      var j :| 0 <= j < |lines| && JsFunctionAt(lines, j, header) == Some(f);
      assert xs[j] == Some(f);
    }
  }

  /** `_analyze_javascript_file`. */
  function AnalyzeJsFile(file: string, text: string, header: string -> Option<string>): (r: FileStats)
    ensures r.totalLines == |SplitOn(text, '\n')|
  {
    var lines := SplitOn(text, '\n');
    FileStats(file, |lines|, JsFunctions(lines, header))
  }

  // ---------------------------------------------------------------------
  // Flags

  /** A flagged function: file, name, the measured value and its line. */
  datatype Flagged = Flagged(file: string, name: string, value: nat, line: nat)

  /** The flag a function earns for complexity: one when its complexity
      exceeds the limit (a function without a complexity counts as 0). */
  function ComplexFlag(file: string, f: FunctionStats): (r: seq<Flagged>)
    ensures r != [] <==> f.complexity.Some? && f.complexity.value > CyclomaticLimit
    ensures r != [] ==> r == [Flagged(file, f.name, f.complexity.value, f.line)]
  {
    if f.complexity.Some? && f.complexity.value > CyclomaticLimit
    then [Flagged(file, f.name, f.complexity.value, f.line)] else []
  }

  /** The flag a function earns for length: one when it has more lines than
      the limit. */
  function LongFlag(file: string, f: FunctionStats): (r: seq<Flagged>)
    ensures r != [] <==> f.lines > FunctionLinesLimit
    ensures r != [] ==> r == [Flagged(file, f.name, f.lines, f.line)]
  {
    if f.lines > FunctionLinesLimit then [Flagged(file, f.name, f.lines, f.line)] else []
  }

  /** The flags of every function of a file, in order, for one rule. */
  function Flags(file: string, fs: seq<FunctionStats>, long: bool): seq<Flagged> {
    if fs == [] then []
    else (if long then LongFlag(file, fs[0]) else ComplexFlag(file, fs[0])) + Flags(file, fs[1..], long)
  }

  function ComplexIn(f: FileStats): seq<Flagged> {
    Flags(f.file, f.functions, false)
  }

  function LongIn(f: FileStats): seq<Flagged> {
    Flags(f.file, f.functions, true)
  }

  /** A flag is listed for a file exactly when one of its functions earned
      it: with the complexity rule, a complexity above 10 (one at exactly 10
      is not listed); with the length rule, more than 50 lines. */
  lemma {:induction false} FlaggedIffEarned(file: string, fs: seq<FunctionStats>, long: bool, g: Flagged)
    ensures g in Flags(file, fs, long) <==>
      exists j :: 0 <= j < |fs| && g in (if long then LongFlag(file, fs[j]) else ComplexFlag(file, fs[j]))
  {
    if fs != [] {
      FlaggedIffEarned(file, fs[1..], long, g);
      var head := if long then LongFlag(file, fs[0]) else ComplexFlag(file, fs[0]);
      if g in Flags(file, fs, long) && g !in head {
        var j :| 0 <= j < |fs[1..]| && g in (if long then LongFlag(file, fs[1..][j]) else ComplexFlag(file, fs[1..][j]));
        assert fs[1..][j] == fs[j + 1];
      }
      if exists j :: 0 <= j < |fs| && g in (if long then LongFlag(file, fs[j]) else ComplexFlag(file, fs[j])) {
        var j :| 0 <= j < |fs| && g in (if long then LongFlag(file, fs[j]) else ComplexFlag(file, fs[j]));
        if j > 0 {
          assert fs[1..][j - 1] == fs[j];
        }
      }
    }
  }

  /** A file is long exactly when it has more than 300 lines. */
  function LongFileIn(f: FileStats): (r: seq<(string, nat)>)
    ensures r != [] <==> f.totalLines > FileLinesLimit
  {
    if f.totalLines > FileLinesLimit then [(f.file, f.totalLines)] else []
  }

  /** The results for one language. */
  datatype LanguageResult = LanguageResult(
    fileCount: nat,
    files: seq<FileStats>,
    complexFunctions: seq<Flagged>,
    longFunctions: seq<Flagged>,
    longFiles: seq<(string, nat)>)

  /** `analyze_python_files`, `analyze_shell_files` and
      `analyze_javascript_files`: no result without files; otherwise every
      file that could be analysed (`None` marks one that could not be read or
      parsed, which is skipped but still counted) with its flags. */
  function AnalyzeLanguage(analysed: seq<Option<FileStats>>): (r: Option<LanguageResult>)
    ensures r.None? <==> analysed == []
    ensures r.Some? ==> r.value.fileCount == |analysed| && |r.value.files| <= |analysed|
  {
    if analysed == [] then None
    else
      var files := Somes(analysed);
      Some(LanguageResult(|analysed|, files,
        FileFlags(files, false), FileFlags(files, true), LongFiles(files)))
  }

  /** The flags of the given files for one rule, file by file. */
  function FileFlags(files: seq<FileStats>, long: bool): seq<Flagged> {
    if files == [] then [] else Flags(files[0].file, files[0].functions, long) + FileFlags(files[1..], long)
  }

  function LongFiles(files: seq<FileStats>): seq<(string, nat)> {
    if files == [] then [] else LongFileIn(files[0]) + LongFiles(files[1..])
  }

  /** A flag is in a file list's flags exactly when one of the files
      earned it. */
  lemma {:induction false} FileFlagsIff(files: seq<FileStats>, long: bool, g: Flagged)
    ensures g in FileFlags(files, long) <==>
      exists i :: 0 <= i < |files| && g in Flags(files[i].file, files[i].functions, long)
  {
    if files != [] {
      FileFlagsIff(files[1..], long, g);
      if g in FileFlags(files[1..], long) {
        var i :| 0 <= i < |files[1..]| && g in Flags(files[1..][i].file, files[1..][i].functions, long);
        assert files[1..][i] == files[i + 1];
      }
      if exists i :: 0 <= i < |files| && g in Flags(files[i].file, files[i].functions, long) {
        var i :| 0 <= i < |files| && g in Flags(files[i].file, files[i].functions, long);
        if i > 0 {
          assert files[1..][i - 1] == files[i];
        }
      }
    }
  }

  /** A language lists a flag exactly when a file that could be analysed
      earned it: complexity flags in the complex list, length flags in the
      long list. Files that could not be analysed contribute nothing. */
  lemma FlagInLanguageIff(analysed: seq<Option<FileStats>>, g: Flagged)
    requires analysed != []
    ensures g in AnalyzeLanguage(analysed).value.complexFunctions <==>
      exists i :: 0 <= i < |analysed| && analysed[i].Some?
        && g in Flags(analysed[i].value.file, analysed[i].value.functions, false)
    ensures g in AnalyzeLanguage(analysed).value.longFunctions <==>
      exists i :: 0 <= i < |analysed| && analysed[i].Some?
        && g in Flags(analysed[i].value.file, analysed[i].value.functions, true)
  {
    FlagInLanguageFor(analysed, g, false);
    FlagInLanguageFor(analysed, g, true);
  }

  lemma FlagInLanguageFor(analysed: seq<Option<FileStats>>, g: Flagged, long: bool)
    ensures g in FileFlags(Somes(analysed), long) <==>
      exists i :: 0 <= i < |analysed| && analysed[i].Some?
        && g in Flags(analysed[i].value.file, analysed[i].value.functions, long)
  {
    var files := Somes(analysed);
    FileFlagsIff(files, long, g);
    if g in FileFlags(files, long) {
      var k :| 0 <= k < |files| && g in Flags(files[k].file, files[k].functions, long);
      SomesIff(analysed, files[k]);
      var i :| 0 <= i < |analysed| && analysed[i] == Some(files[k]);
    }
    if exists i :: 0 <= i < |analysed| && analysed[i].Some?
        && g in Flags(analysed[i].value.file, analysed[i].value.functions, long) {
      var i :| 0 <= i < |analysed| && analysed[i].Some?
        && g in Flags(analysed[i].value.file, analysed[i].value.functions, long);
      SomesIff(analysed, analysed[i].value);
      var k :| 0 <= k < |files| && files[k] == analysed[i].value;
    }
  }

  // ---------------------------------------------------------------------
  // Summary and recommendations

  datatype Summary = Summary(
    totalFiles: nat,
    complexFiles: nat,
    highComplexityFunctions: nat,
    longFunctions: nat,
    longFiles: nat)

  /** `analyze_all_files` and `_calculate_summary_stats`: file counts and
      flag counts added over the languages present. `complex_files` is
      incremented by the number of complex functions, like
      `high_complexity_functions`. */
  function Summarize(langs: seq<LanguageResult>): (s: Summary)
    ensures s.complexFiles == s.highComplexityFunctions
  {
    if langs == [] then Summary(0, 0, 0, 0, 0)
    else
      var rest := Summarize(langs[1..]);
      var l := langs[0];
      Summary(rest.totalFiles + l.fileCount,
        rest.complexFiles + |l.complexFunctions|,
        rest.highComplexityFunctions + |l.complexFunctions|,
        rest.longFunctions + |l.longFunctions|,
        rest.longFiles + |l.longFiles|)
  }

  /** One language's summary: its file count and the sizes of its lists. */
  lemma SummarizeOne(l: LanguageResult)
    ensures Summarize([l]) == Summary(l.fileCount, |l.complexFunctions|, |l.complexFunctions|,
                                      |l.longFunctions|, |l.longFiles|)
  {
    assert [l][1..] == [];
  }

  /** Summaries add up over languages: the summary of two lists of languages
      is the sum of their summaries, count by count. */
  lemma {:induction false} SummarizeAppend(a: seq<LanguageResult>, b: seq<LanguageResult>)
    ensures var s, sa, sb := Summarize(a + b), Summarize(a), Summarize(b);
      s.totalFiles == sa.totalFiles + sb.totalFiles
      && s.complexFiles == sa.complexFiles + sb.complexFiles
      && s.highComplexityFunctions == sa.highComplexityFunctions + sb.highComplexityFunctions
      && s.longFunctions == sa.longFunctions + sb.longFunctions
      && s.longFiles == sa.longFiles + sb.longFiles
  {
    if a == [] {
      assert a + b == b;
    } else {
      assert (a + b)[1..] == a[1..] + b;
      assert (a + b)[0] == a[0];
      SummarizeAppend(a[1..], b);
    }
  }

  /** A summary with no flags is one in which no language flagged anything. */
  lemma {:induction false} SummaryClean(langs: seq<LanguageResult>)
    ensures var s := Summarize(langs);
      s.highComplexityFunctions == 0 && s.longFunctions == 0 && s.longFiles == 0
      <==> forall i :: 0 <= i < |langs| ==>
        langs[i].complexFunctions == [] && langs[i].longFunctions == [] && langs[i].longFiles == []
  {
    if langs != [] {
      SummaryClean(langs[1..]);
      assert forall i :: 1 <= i < |langs| ==> langs[i] == langs[1..][i - 1];
    }
  }

  datatype Advice =
    | Refactor(functions: nat)
    | SplitFunctions(functions: nat)
    | BreakDownFiles(files: nat)
    | ImproveArchitecture(files: nat)
    | WithinLimits

  /** `_generate_recommendations`. */
  function Recommendations(s: Summary): (r: seq<Advice>)
    ensures r != []
    ensures WithinLimits in r <==>
      s.highComplexityFunctions == 0 && s.longFunctions == 0 && s.longFiles == 0 && s.complexFiles == 0
    ensures WithinLimits in r ==> r == [WithinLimits]
    ensures Refactor(s.highComplexityFunctions) in r <==> s.highComplexityFunctions > 0
    ensures SplitFunctions(s.longFunctions) in r <==> s.longFunctions > 0
    ensures BreakDownFiles(s.longFiles) in r <==> s.longFiles > 0
    ensures ImproveArchitecture(s.complexFiles) in r <==> s.complexFiles > 0
  {
    var r := (if s.highComplexityFunctions > 0 then [Refactor(s.highComplexityFunctions)] else [])
      + (if s.longFunctions > 0 then [SplitFunctions(s.longFunctions)] else [])
      + (if s.longFiles > 0 then [BreakDownFiles(s.longFiles)] else [])
      + (if s.complexFiles > 0 then [ImproveArchitecture(s.complexFiles)] else []);
    if r == [] then [WithinLimits] else r
  }

  /** The all-clear is given exactly when no language flagged anything; the
      complex-file count never decides it on its own. */
  lemma AllClearIffNothingFlagged(langs: seq<LanguageResult>)
    ensures WithinLimits in Recommendations(Summarize(langs)) <==>
      forall i :: 0 <= i < |langs| ==>
        langs[i].complexFunctions == [] && langs[i].longFunctions == [] && langs[i].longFiles == []
  {
    SummaryClean(langs);
  }
}

=== FILE: coverage.dfy ===
/** The test-coverage framework (tests/coverage_analyzer.py): which scripts
    count as tested, the coverage percentage, the uncovered-script listing
    of the report and the phase assessment that decides the exit code.
    The file system is a parameter: the scripts found by the globs, the
    number of test files in each test directory, and which project-relative
    paths exist. */
module Coverage {
  import opened Text
  import opened Common

  // ---------------------------------------------------------------------
  // Scripts and their test files

  /** A path matched by one of the script globs: its text, its final
      component and whether it is a regular file. */
  datatype Candidate = Candidate(path: string, name: string, isFile: bool)

  /** A candidate is a script to test when it is a file whose name does not
      start with a dot. */
  predicate IsScript(c: Candidate) {
    c.isFile && !StartsWith(c.name, ".")
  }

  /** The scripts to test, in glob order. */
  function Scripts(found: seq<Candidate>): (r: seq<Candidate>)
    ensures |r| <= |found|
    ensures forall k :: 0 <= k < |r| ==> IsScript(r[k])
  {
    if found == [] then []
    else (if IsScript(found[0]) then [found[0]] else []) + Scripts(found[1..])
  }

  /** Every candidate that is a script is kept, and only those. */
  lemma {:induction false} ScriptsIff(found: seq<Candidate>, c: Candidate)
    ensures c in Scripts(found) <==> c in found && IsScript(c)
  {
    if found != [] {
      ScriptsIff(found[1..], c);
      assert found == [found[0]] + found[1..];
    }
  }

  /** The index of the last `.` in `s` at or before `i - 1`, if any. */
  function LastDot(s: string, i: nat): (r: Option<nat>)
    requires i <= |s|
    ensures r.Some? ==> r.value < i && s[r.value] == '.'
    ensures forall k :: (if r.Some? then r.value + 1 else 0) <= k < i ==> s[k] != '.'
  {
    if i == 0 then None else if s[i - 1] == '.' then Some(i - 1) else LastDot(s, i - 1)
  }

  /** `Path.stem`: the name without its last suffix, where a suffix starts
      at a dot that is neither the first nor the last character. */
  function Stem(name: string): (r: string)
    ensures |r| <= |name| && name[..|r|] == r
    ensures r != name ==> |r| > 0 && name[|r|] == '.' && |r| < |name| - 1
  {
    match LastDot(name, |name|)
    case Some(i) => if 0 < i < |name| - 1 then name[..i] else name
    case None => name
  }

  /** The script-name to test-file table of `_find_test_file`. */
  function TestTable(): seq<(string, string)> {
    [
      ("config.sh", "tests/unit/test_core_scripts.py"),
      ("init.sh", "tests/unit/test_core_scripts.py"),
      ("logging.sh", "tests/unit/test_core_scripts.py"),
      ("duplicate-core.sh", "tests/unit/test_utility_scripts.py"),
      ("sync-core-modules.sh", "tests/unit/test_utility_scripts.py"),
      ("utilities.sh", "tests/unit/test_utility_scripts.py"),
      ("analyze-code-quality.py", "tests/unit/test_monitoring_scripts.py"),
      ("generate-development-analytics.py", "tests/unit/test_monitoring_scripts.py"),
      ("monitoring.sh", "tests/unit/test_monitoring_scripts.py"),
      ("deployment.sh", "tests/unit/test_deployment_scripts.py"),
      ("ci-check.sh", "tests/integration/test_cross_submodule.py"),
      ("local-test.sh", "tests/performance/test_performance_regression.py"),
      ("deploy-site.sh", "tests/property/test_property_based.py"),
      ("manage-devices.sh", "tests/property/test_property_based.py"),
      ("backup-state.sh", "tests/property/test_property_based.py"),
      ("deploy-vendor.sh", "tests/property/test_property_based.py"),
      ("build-release.sh", "tests/performance/test_performance_regression.py")
    ]
  }

  /** The entry for `name` in `table`, if any. */
  function Lookup(table: seq<(string, string)>, name: string): (r: Option<string>)
    ensures r.Some? ==> (name, r.value) in table
    ensures r.None? ==> forall k :: 0 <= k < |table| ==> table[k].0 != name
  {
    if table == [] then None
    else if table[0].0 == name then Some(table[0].1)
    else Lookup(table[1..], name)
  }

  /** The table entry for a script name, if any. */
  function Mapped(name: string): Option<string> {
    Lookup(TestTable(), name)
  }

  /** The four pattern-based locations, in the order they are tried. */
  function Locations(name: string): (r: seq<string>)
    ensures |r| == 4
  {
    ["tests/unit/test_" + name, "tests/unit/test_" + Stem(name) + ".py",
     "test_" + name, "test_" + Stem(name) + ".py"]
  }

  /** The first of `paths` that exists. */
  function FirstExisting(paths: seq<string>, present: string -> bool): (r: Option<string>)
    ensures r.Some? ==> r.value in paths && present(r.value)
    ensures r.None? <==> forall k :: 0 <= k < |paths| ==> !present(paths[k])
    ensures r.Some? ==> exists k :: 0 <= k < |paths| && paths[k] == r.value
                                    && forall j :: 0 <= j < k ==> !present(paths[j])
  {
    if paths == [] then None
    else if present(paths[0]) then Some(paths[0])
    else
      var r := FirstExisting(paths[1..], present);
      if r.Some? then
        var k :| 0 <= k < |paths[1..]| && paths[1..][k] == r.value
          && forall j :: 0 <= j < k ==> !present(paths[1..][j]);
        assert paths[k + 1] == r.value;
        r
      else r
  }

  /** `_find_test_file`: the mapped test file when the name is in the table
      and that file exists, else the first existing pattern-based location,
      else nothing. */
  function FindTestFile(name: string, present: string -> bool): (r: Option<string>)
    ensures r.Some? ==> present(r.value)
    ensures Mapped(name).Some? && present(Mapped(name).value) ==> r == Mapped(name)
    ensures !(Mapped(name).Some? && present(Mapped(name).value)) ==>
              r == FirstExisting(Locations(name), present)
    ensures r.None? <==>
      !(Mapped(name).Some? && present(Mapped(name).value))
      && forall k :: 0 <= k < 4 ==> !present(Locations(name)[k])
  {
    var m := Mapped(name);
    if m.Some? && present(m.value) then m
    else FirstExisting(Locations(name), present)
  }

  /** A script outside the table is tested exactly when `test_<name>` or
      `test_<stem>.py` exists under tests/unit or at the project root. */
  lemma UnmappedTestedIff(name: string, present: string -> bool)
    requires Mapped(name).None?
    ensures FindTestFile(name, present).Some? <==>
      present("tests/unit/test_" + name) || present("tests/unit/test_" + Stem(name) + ".py")
      || present("test_" + name) || present("test_" + Stem(name) + ".py")
  {
    var locs := Locations(name);
    assert locs[0] == "tests/unit/test_" + name && locs[1] == "tests/unit/test_" + Stem(name) + ".py";
    assert locs[2] == "test_" + name && locs[3] == "test_" + Stem(name) + ".py";
  }

  /** Without an existing mapped file, including a mapped script whose
      table entry is missing, the test file found is the earliest of the
      four locations that exists: none before it in the order tried does. */
  lemma FallBackOrder(name: string, present: string -> bool)
    requires !(Mapped(name).Some? && present(Mapped(name).value))
    ensures FindTestFile(name, present).Some? ==>
      exists k :: 0 <= k < 4 && Locations(name)[k] == FindTestFile(name, present).value
        && forall j :: 0 <= j < k ==> !present(Locations(name)[j])
  {
  }

  // ---------------------------------------------------------------------
  // Coverage data

  /** The result of `analyze_test_coverage`; test types are in the order
      unit, integration, performance, property. */
  datatype CoverageData = CoverageData(
    scriptsFound: nat,
    scriptsTested: nat,
    testFiles: nat,
    percentage: real,
    uncovered: seq<string>,
    testTypes: seq<nat>)

  /** The tested count and the uncovered paths of `scripts`, in order,
      where `tested` says whether a test file is found for a script. */
  function Partition(scripts: seq<Candidate>, tested: Candidate -> bool): (r: (nat, seq<string>))
    ensures r.0 + |r.1| == |scripts|
  {
    if scripts == [] then (0, [])
    else
      var rest := Partition(scripts[1..], tested);
      if tested(scripts[0]) then (rest.0 + 1, rest.1)
      else (rest.0, [scripts[0].path] + rest.1)
  }

  /** A path is listed as uncovered exactly when it belongs to an untested
      script. */
  lemma {:induction false} UncoveredIff(scripts: seq<Candidate>, tested: Candidate -> bool, p: string)
    ensures p in Partition(scripts, tested).1 <==>
      exists k :: 0 <= k < |scripts| && scripts[k].path == p && !tested(scripts[k])
  {
    if scripts != [] {
      UncoveredIff(scripts[1..], tested, p);
      if exists k :: 0 <= k < |scripts| && scripts[k].path == p && !tested(scripts[k]) {
        var k :| 0 <= k < |scripts| && scripts[k].path == p && !tested(scripts[k]);
        if k > 0 {
          assert scripts[1..][k - 1] == scripts[k];
        }
      }
      if p in Partition(scripts[1..], tested).1 {
        var k :| 0 <= k < |scripts[1..]| && scripts[1..][k].path == p && !tested(scripts[1..][k]);
        assert scripts[k + 1] == scripts[1..][k];
      }
    }
  }

  /** Whether a test file is found for a script. */
  function HasTest(present: string -> bool): Candidate -> bool {
    (c: Candidate) => FindTestFile(c.name, present).Some?
  }

  /** The sum of the per-type test-file counts. */
  function Sum(xs: seq<nat>): nat {
    if xs == [] then 0 else xs[0] + Sum(xs[1..])
  }

  /** `tested / found * 100`, or 0 when nothing was found. */
  function Percentage(tested: nat, found: nat): (p: real)
    requires tested <= found
    ensures 0.0 <= p <= 100.0
    ensures found == 0 ==> p == 0.0
    ensures found > 0 ==> (p == 100.0 <==> tested == found)
  {
    if found > 0 then tested as real / found as real * 100.0 else 0.0
  }

  /** `analyze_test_coverage`, with the test-file lookup given as `tested`.
      `testDirs` gives, for unit, integration, performance and property, the
      number of `*.py` files in that test directory, or nothing when it does
      not exist. */
  function AnalyzeCoverage(found: seq<Candidate>, testDirs: seq<Option<nat>>, tested: Candidate -> bool): (r: CoverageData)
    requires |testDirs| == 4
    ensures r.scriptsTested + |r.uncovered| == r.scriptsFound
    ensures r.scriptsFound == |Scripts(found)|
    ensures 0.0 <= r.percentage <= 100.0
    ensures r.scriptsFound == 0 ==> r.percentage == 0.0
    ensures |r.testTypes| == 4 && r.testFiles == Sum(r.testTypes)
    ensures forall k :: 0 <= k < 4 ==> r.testTypes[k] == (if testDirs[k].Some? then testDirs[k].value else 0)
  {
    var scripts := Scripts(found);
    var part := Partition(scripts, tested);
    var types := seq(4, k requires 0 <= k < 4 => if testDirs[k].Some? then testDirs[k].value else 0);
    CoverageData(|scripts|, part.0, Sum(types), Percentage(part.0, |scripts|), part.1, types)
  }

  /** `analyze_test_coverage` as written: a script is tested when
      `_find_test_file` finds a test file for it. */
  function AnalyzeTestCoverage(found: seq<Candidate>, testDirs: seq<Option<nat>>, present: string -> bool): (r: CoverageData)
    requires |testDirs| == 4
    ensures r.scriptsTested + |r.uncovered| == r.scriptsFound
  {
    AnalyzeCoverage(found, testDirs, HasTest(present))
  }

  /** Full coverage is reported exactly when every script is tested. */
  lemma FullCoverageIff(found: seq<Candidate>, testDirs: seq<Option<nat>>, tested: Candidate -> bool)
    requires |testDirs| == 4 && Scripts(found) != []
    ensures AnalyzeCoverage(found, testDirs, tested).percentage == 100.0 <==>
      forall k :: 0 <= k < |Scripts(found)| ==> tested(Scripts(found)[k])
  {
    var scripts := Scripts(found);
    var part := Partition(scripts, tested);
    if part.0 != |scripts| {
      UncoveredIff(scripts, tested, part.1[0]);
    } else {
      forall k | 0 <= k < |scripts| ensures tested(scripts[k]) {
        if !tested(scripts[k]) {
          UncoveredIff(scripts, tested, scripts[k].path);
        }
      }
    }
  }

  /** A script path is listed as uncovered exactly when `_find_test_file`
      finds no test file for a script at that path. */
  lemma UncoveredScripts(found: seq<Candidate>, testDirs: seq<Option<nat>>, present: string -> bool, p: string)
    requires |testDirs| == 4
    ensures p in AnalyzeTestCoverage(found, testDirs, present).uncovered <==>
      exists k :: 0 <= k < |Scripts(found)| && Scripts(found)[k].path == p
        && FindTestFile(Scripts(found)[k].name, present).None?
  {
    var scripts := Scripts(found);
    UncoveredIff(scripts, HasTest(present), p);
    assert forall k :: 0 <= k < |scripts| ==>
      (HasTest(present)(scripts[k]) <==> FindTestFile(scripts[k].name, present).Some?);
  }

  // ---------------------------------------------------------------------
  // Report and phase assessment

  /** A line of the uncovered-scripts part of the report. */
  datatype ReportLine = Heading | Bullet(script: string) | More(count: nat) | Blank

  /** The uncovered-scripts section of `generate_coverage_report`: nothing
      when all scripts are covered, otherwise a heading, the first ten paths,
      a "... and N more" line when there are more than ten, and a blank. */
  function UncoveredSection(uncovered: seq<string>): (r: seq<ReportLine>)
    ensures uncovered == [] <==> r == []
  {
    if uncovered == [] then []
    else
      var shown := if |uncovered| <= 10 then uncovered else uncovered[..10];
      [Heading] + seq(|shown|, i requires 0 <= i < |shown| => Bullet(shown[i]))
      + (if |uncovered| > 10 then [More(|uncovered| - 10)] else []) + [Blank]
  }

  /** The section lists the first min(10, N) paths in order, and announces
      the N - 10 others exactly when N > 10. */
  lemma UncoveredSectionShape(uncovered: seq<string>)
    requires uncovered != []
    ensures var r := UncoveredSection(uncovered);
      var n := if |uncovered| <= 10 then |uncovered| else 10;
      r[0] == Heading && r[|r| - 1] == Blank
      && (forall i :: 0 <= i < n ==> r[1 + i] == Bullet(uncovered[i]))
      && (|uncovered| > 10 <==> |r| == n + 3)
      && (|uncovered| > 10 ==> r[n + 1] == More(|uncovered| - 10))
  {
  }

  /** The outcome of `assess_phase_completion`. */
  datatype Phase = Passed | Partial | Failed

  /** `assess_phase_completion`: the phase and the process exit code. */
  function AssessPhase(pct: real): (r: (Phase, nat))
    ensures r.1 == 1 <==> pct < 75.0
    ensures r.1 <= 1
    ensures r.0 == Passed <==> pct >= 80.0
    ensures r.0 == Failed <==> r.1 == 1
  {
    if pct >= 80.0 then (Passed, 0)
    else if pct >= 75.0 then (Partial, 0)
    else (Failed, 1)
  }

  /** A run with nothing to test reports 0% and fails the phase. */
  lemma NoScriptsFails(found: seq<Candidate>, testDirs: seq<Option<nat>>, present: string -> bool)
    requires |testDirs| == 4 && Scripts(found) == []
    ensures AssessPhase(AnalyzeTestCoverage(found, testDirs, present).percentage) == (Failed, 1)
  {
  }

  /** A higher coverage never gives a worse exit code. */
  lemma PhaseMonotone(a: real, b: real)
    requires a <= b
    ensures AssessPhase(b).1 <= AssessPhase(a).1
  {
  }
}

=== FILE: dev_analytics.dfy ===
/** The development analytics (scripts/monitoring/generate-development-analytics.py):
    the date filters applied to the pull requests and issues the GitHub API
    returns, newest first, and its `calculate_stats`, which is
    `Stats.MedianStats`. Timestamps are whole seconds; the cutoff, the
    current time less the reporting period, is a parameter.

    As written, the filters compare each item's timezone-aware timestamp
    with a naive cutoff (`datetime.now()`), which Python refuses to order:
    `PullRequestScan` and `IssueScan` follow the loops as written, with a
    flag saying whether the cutoff carries a time zone. `RecentPullRequests`
    and `RecentIssues` are the filters the loops evidently intend. */
module DevAnalytics {
  import opened Stats
  import opened Common

  /** An item of a GitHub listing: when it was last updated and, for the
      issues listing, whether it is really a pull request. */
  datatype Item = Item(updatedAt: int, isPullRequest: bool)

  /** `get_pull_requests`: the pull requests up to the first one updated
      before the cutoff. */
  function RecentPullRequests(prs: seq<Item>, cutoff: int): (r: seq<Item>)
    ensures |r| <= |prs| && r == prs[..|r|]
    ensures forall k :: 0 <= k < |r| ==> r[k].updatedAt >= cutoff
    ensures |r| < |prs| ==> prs[|r|].updatedAt < cutoff
  {
    if prs == [] || prs[0].updatedAt < cutoff then []
    else [prs[0]] + RecentPullRequests(prs[1..], cutoff)
  }

  /** On a listing sorted newest first, the filter keeps exactly the pull
      requests updated at or after the cutoff. */
  lemma RecentPullRequestsOnSorted(prs: seq<Item>, cutoff: int)
    requires forall i, j :: 0 <= i < j < |prs| ==> prs[j].updatedAt <= prs[i].updatedAt
    ensures forall k :: 0 <= k < |prs| ==>
              (prs[k] in RecentPullRequests(prs, cutoff) <==> prs[k].updatedAt >= cutoff)
  {
    var r := RecentPullRequests(prs, cutoff);
    forall k | 0 <= k < |prs| && prs[k].updatedAt >= cutoff
      ensures prs[k] in r
    {
      assert r[k] == prs[k];
    }
  }

  /** The issues (not pull requests) among `items`. */
  function Issues(items: seq<Item>): (r: seq<Item>)
    ensures |r| <= |items|
    ensures forall k :: 0 <= k < |r| ==> !r[k].isPullRequest
  {
    if items == [] then []
    else (if items[0].isPullRequest then [] else [items[0]]) + Issues(items[1..])
  }

  /** Where `get_issues` stops: the first issue updated before the cutoff,
      pull requests being skipped whatever their date. */
  function IssueStop(items: seq<Item>, cutoff: int): (j: nat)
    ensures j <= |items|
    ensures forall k :: 0 <= k < j ==> items[k].isPullRequest || items[k].updatedAt >= cutoff
    ensures j < |items| ==> !items[j].isPullRequest && items[j].updatedAt < cutoff
  {
    if items == [] then 0
    else if !items[0].isPullRequest && items[0].updatedAt < cutoff then 0
    else 1 + IssueStop(items[1..], cutoff)
  }

  /** `get_issues`: the issues before the first issue updated before the
      cutoff. */
  function RecentIssues(items: seq<Item>, cutoff: int): (r: seq<Item>)
    ensures r == Issues(items[..IssueStop(items, cutoff)])
    ensures forall k :: 0 <= k < |r| ==> !r[k].isPullRequest && r[k].updatedAt >= cutoff
  {
    if items == [] then []
    else if items[0].isPullRequest then
      assert items[1..][..IssueStop(items, cutoff) - 1] == items[..IssueStop(items, cutoff)][1..];
      RecentIssues(items[1..], cutoff)
    else if items[0].updatedAt >= cutoff then
      assert items[1..][..IssueStop(items, cutoff) - 1] == items[..IssueStop(items, cutoff)][1..];
      [items[0]] + RecentIssues(items[1..], cutoff)
    else []
  }

  /** A stale pull request in the issues listing does not end the scan: the
      issues after it are still considered. */
  lemma StalePullRequestSkipped(pr: Item, rest: seq<Item>, cutoff: int)
    requires pr.isPullRequest && pr.updatedAt < cutoff
    ensures RecentIssues([pr] + rest, cutoff) == RecentIssues(rest, cutoff)
  {
    assert ([pr] + rest)[1..] == rest;
  }

  // ---------------------------------------------------------------------
  // The loops as written

  /** What a filter loop gives: the items it kept, or the `TypeError` that
      ordering an aware timestamp against a naive one raises. */
  datatype Scan = Listed(items: seq<Item>) | TypeError

  /** `updated_at >= cutoff_date`: the item's timestamp is always aware
      (its "Z" becomes "+00:00"); without a time zone on the cutoff, Python
      raises instead of answering. */
  function AtOrAfter(updatedAt: int, cutoff: int, awareCutoff: bool): (r: Option<bool>)
    ensures r.Some? <==> awareCutoff
    ensures r == Some(true) <==> awareCutoff && updatedAt >= cutoff
  {
    if awareCutoff then Some(updatedAt >= cutoff) else None
  }

  /** The loop of `get_pull_requests`: keep each pull request while the
      comparison says it is recent, stop at the first one that is not. */
  function PullRequestScan(prs: seq<Item>, cutoff: int, awareCutoff: bool): (r: Scan)
    ensures r.Listed? ==> |r.items| <= |prs| && r.items == prs[..|r.items|]
  {
    if prs == [] then Listed([])
    else
      match AtOrAfter(prs[0].updatedAt, cutoff, awareCutoff)
      case None => TypeError
      case Some(recent) =>
        if !recent then Listed([])
        else
          match PullRequestScan(prs[1..], cutoff, awareCutoff)
          case TypeError => TypeError
          case Listed(rest) => Listed([prs[0]] + rest)
  }

  /** The loop of `get_issues`: skip pull requests, keep each issue while the
      comparison says it is recent, stop at the first one that is not. */
  function IssueScan(items: seq<Item>, cutoff: int, awareCutoff: bool): (r: Scan)
    ensures r.Listed? ==> forall k :: 0 <= k < |r.items| ==> !r.items[k].isPullRequest
  {
    if items == [] then Listed([])
    else if items[0].isPullRequest then IssueScan(items[1..], cutoff, awareCutoff)
    else
      match AtOrAfter(items[0].updatedAt, cutoff, awareCutoff)
      case None => TypeError
      case Some(recent) =>
        if !recent then Listed([])
        else
          match IssueScan(items[1..], cutoff, awareCutoff)
          case TypeError => TypeError
          case Listed(rest) => Listed([items[0]] + rest)
  }

  /** With the naive cutoff of the source, `get_pull_requests` raises on
      every non-empty listing. */
  lemma PullRequestScanRaises(prs: seq<Item>, cutoff: int)
    ensures PullRequestScan(prs, cutoff, false) == TypeError <==> prs != []
    ensures prs == [] ==> PullRequestScan(prs, cutoff, false) == Listed([])
  {
  }

  /** With the naive cutoff of the source, `get_issues` raises as soon as
      the listing holds an issue, and otherwise returns nothing. */
  lemma {:induction false} IssueScanRaises(items: seq<Item>, cutoff: int)
    ensures IssueScan(items, cutoff, false) == TypeError <==>
              exists k :: 0 <= k < |items| && !items[k].isPullRequest
    ensures IssueScan(items, cutoff, false) != TypeError ==> IssueScan(items, cutoff, false) == Listed([])
  {
    if items != [] {
      IssueScanRaises(items[1..], cutoff);
      if exists k :: 0 <= k < |items[1..]| && !items[1..][k].isPullRequest {
        var k :| 0 <= k < |items[1..]| && !items[1..][k].isPullRequest;
        assert items[k + 1] == items[1..][k];
      }
      if items[0].isPullRequest && exists k :: 0 <= k < |items| && !items[k].isPullRequest {
        var k :| 0 <= k < |items| && !items[k].isPullRequest;
        assert items[1..][k - 1] == items[k];
      }
    }
  }

  /** With a timezone-aware cutoff, the pull-request loop never raises and
      returns exactly `RecentPullRequests`. */
  lemma {:induction false} AwarePullRequestScan(prs: seq<Item>, cutoff: int)
    ensures PullRequestScan(prs, cutoff, true) == Listed(RecentPullRequests(prs, cutoff))
  {
    if prs != [] && prs[0].updatedAt >= cutoff {
      AwarePullRequestScan(prs[1..], cutoff);
    }
  }

  /** With a timezone-aware cutoff, the issue loop never raises and returns
      exactly `RecentIssues`. */
  lemma {:induction false} AwareIssueScan(items: seq<Item>, cutoff: int)
    ensures IssueScan(items, cutoff, true) == Listed(RecentIssues(items, cutoff))
  {
    if items != [] && (items[0].isPullRequest || items[0].updatedAt >= cutoff) {
      AwareIssueScan(items[1..], cutoff);
    }
  }

  /** A listing of one recent pull request: as written the scan raises; with
      an aware cutoff it lists the pull request. */
  lemma OneRecentPullRequest(pr: Item, cutoff: int)
    requires pr.updatedAt >= cutoff
    ensures PullRequestScan([pr], cutoff, false) == TypeError
    ensures PullRequestScan([pr], cutoff, true) == Listed([pr])
  {
    AwarePullRequestScan([pr], cutoff);
    assert RecentPullRequests([pr], cutoff) == [pr] + RecentPullRequests([], cutoff);
  }

  /** A listing of one recent issue: as written the scan raises; with an
      aware cutoff it lists the issue. */
  lemma OneRecentIssue(issue: Item, cutoff: int)
    requires !issue.isPullRequest && issue.updatedAt >= cutoff
    ensures IssueScan([issue], cutoff, false) == TypeError
    ensures IssueScan([issue], cutoff, true) == Listed([issue])
  {
    AwareIssueScan([issue], cutoff);
    assert [issue][1..] == [];
  }
}

=== FILE: perf_regression.dfy ===
/** The performance regression tests (tests/performance/test_performance_regression.py):
    the baseline bookkeeping of `test_script_performance` and the verdict of
    `run_performance_tests`. Running a script and timing it are inputs: an
    `Outcome` is either a time-out or the measured duration with the exit
    status. The baselines file is the map the runner loads and saves. */
module PerfRegression {
  import opened Common

  /** The seconds a script may run before it is stopped. */
  const TimeoutSeconds: real := 30.0

  /** A run more than this many times slower than its baseline regresses. */
  const RegressionThreshold: real := 2.0

  /** What running one script with `--help` gave. */
  datatype Outcome = Expired | Ran(duration: real, returncode: int)

  /** What comparing a measured duration with the baselines found. */
  datatype Check =
    | Established
    | Within
    | Regressed(baselineDuration: real, factor: real)

  /** The result dictionary of one script: the error result of a time-out,
      or the measured duration, the exit status and the check. */
  datatype Report =
    | TimedOut(duration: real)
    | Measured(duration: real, returncode: int, check: Check)
  {
    /** The `success` entry: the script exited with status 0. */
    predicate Success() {
      Measured? && returncode == 0
    }

    /** The report has `regression` set to true. */
    predicate IsRegression() {
      Measured? && check.Regressed?
    }
  }

  /** `run_script_performance_test`: the error result of a time-out or the
      measured one, without a check yet. */
  function RunReport(outcome: Outcome): (r: Report)
    ensures outcome.Expired? <==> r.TimedOut?
    ensures r.TimedOut? ==> r.duration == TimeoutSeconds
    ensures r.Measured? ==> r.duration == outcome.duration && r.returncode == outcome.returncode
  {
    match outcome
    case Expired => TimedOut(TimeoutSeconds)
    case Ran(d, rc) => Measured(d, rc, Within)
  }

  /** The baseline entry of a test. */
  function BaselineKey(testName: string): string {
    testName + "_duration"
  }

  /** One step of the runner: the report and the baselines after it, or the
      `ZeroDivisionError` a recorded baseline of 0 raises once a later run
      of the same test takes any time. */
  datatype Step = Step(report: Report, baselines: map<string, real>) | DivisionByZero

  /** `test_script_performance`. */
  function TestScript(baselines: map<string, real>, testName: string, outcome: Outcome): (r: Step)
    // A time-out is reported as is and leaves the baselines untouched.
    ensures outcome.Expired? ==> r == Step(TimedOut(TimeoutSeconds), baselines)
    // The first run of a test records its duration as the baseline.
    ensures outcome.Ran? && BaselineKey(testName) !in baselines ==>
              r == Step(Measured(outcome.duration, outcome.returncode, Established),
                        baselines[BaselineKey(testName) := outcome.duration])
    // Later runs leave the baselines as they are.
    ensures BaselineKey(testName) in baselines && r.Step? ==> r.baselines == baselines
    // The only key ever written is the test's own.
    ensures r.Step? ==> forall k :: k in baselines && k != BaselineKey(testName) ==>
              k in r.baselines && r.baselines[k] == baselines[k]
    ensures r.Step? ==> forall k :: k in r.baselines ==> k in baselines || k == BaselineKey(testName)
    // A later run regresses exactly when it took more than twice its baseline.
    ensures r.Step? && r.report.IsRegression() <==>
              outcome.Ran? && BaselineKey(testName) in baselines
              && outcome.duration > baselines[BaselineKey(testName)] * RegressionThreshold
              && baselines[BaselineKey(testName)] != 0.0
    ensures r.DivisionByZero? <==>
              outcome.Ran? && BaselineKey(testName) in baselines
              && baselines[BaselineKey(testName)] == 0.0 && outcome.duration > 0.0
  {
    var report := RunReport(outcome);
    if report.TimedOut? then Step(report, baselines)
    else
      var key := BaselineKey(testName);
      var current := report.duration;
      if key in baselines then
        var baseline := baselines[key];
        if current > baseline * RegressionThreshold then
          if baseline == 0.0 then DivisionByZero
          else Step(report.(check := Regressed(baseline, current / baseline)), baselines)
        else Step(report.(check := Within), baselines)
      else Step(report.(check := Established), baselines[key := current])
  }

  /** A regression against a positive baseline names that baseline, and its
      factor is the current duration over it, which exceeds 2. */
  lemma RegressionFactor(baselines: map<string, real>, testName: string, outcome: Outcome)
    requires BaselineKey(testName) in baselines && baselines[BaselineKey(testName)] > 0.0
    requires TestScript(baselines, testName, outcome).Step?
    requires TestScript(baselines, testName, outcome).report.IsRegression()
    ensures var c := TestScript(baselines, testName, outcome).report.check;
      c.baselineDuration == baselines[BaselineKey(testName)]
      && c.factor * c.baselineDuration == outcome.duration
      && c.factor > RegressionThreshold
  {
    var b := baselines[BaselineKey(testName)];
    var c := TestScript(baselines, testName, outcome).report.check;
    assert c.factor == outcome.duration / b;
    assert c.factor * b == outcome.duration;
  }

  /** Running a test a second time with the duration it established does
      not regress. */
  lemma RerunDoesNotRegress(baselines: map<string, real>, testName: string, d: real, rc: int, rc2: int)
    requires BaselineKey(testName) !in baselines && d >= 0.0
    ensures var first := TestScript(baselines, testName, Ran(d, rc));
      first.Step? && first.report.check == Established
      && TestScript(first.baselines, testName, Ran(d, rc2)) == Step(Measured(d, rc2, Within), first.baselines)
  {
  }

  // ---------------------------------------------------------------------
  // The suite

  /** One script the suite times: its test name (the script name with the
      group prefix `core_`, `utility_` or `build_`) and what running it gave.
      Scripts that do not exist are not run, so they do not appear. */
  datatype Run = Run(testName: string, outcome: Outcome)

  datatype Suite = Suite(reports: seq<Report>, baselines: map<string, real>)

  /** The three groups of tests in order, each step seeing the baselines the
      previous ones left; a `ZeroDivisionError` ends the suite. */
  function RunAll(baselines: map<string, real>, runs: seq<Run>): (r: Option<Suite>)
    decreases |runs|
    ensures r.Some? ==> |r.value.reports| == |runs|
    ensures r.Some? ==> forall k :: 0 <= k < |runs| ==> (runs[k].outcome.Expired? <==> r.value.reports[k].TimedOut?)
  {
    if runs == [] then Some(Suite([], baselines))
    else
      match TestScript(baselines, runs[0].testName, runs[0].outcome)
      case DivisionByZero => None
      case Step(report, next) =>
        match RunAll(next, runs[1..])
        case None => None
        case Some(rest) => Some(Suite([report] + rest.reports, rest.baselines))
  }

  /** A baseline, once in the file, is never changed by the suite. */
  lemma {:induction false} RunAllKeepsBaselines(baselines: map<string, real>, runs: seq<Run>, key: string)
    decreases |runs|
    requires key in baselines && RunAll(baselines, runs).Some?
    ensures key in RunAll(baselines, runs).value.baselines
    ensures RunAll(baselines, runs).value.baselines[key] == baselines[key]
  {
    if runs != [] {
      var s := TestScript(baselines, runs[0].testName, runs[0].outcome);
      RunAllKeepsBaselines(s.baselines, runs[1..], key);
    }
  }

  predicate Positive(baselines: map<string, real>) {
    forall k :: k in baselines ==> baselines[k] > 0.0
  }

  /** With positive baselines and runs that all take some time, the suite
      does not raise: every baseline it records is positive in turn. */
  lemma {:induction false} PositiveDurationsComplete(baselines: map<string, real>, runs: seq<Run>)
    decreases |runs|
    requires Positive(baselines)
    requires forall k :: 0 <= k < |runs| ==> runs[k].outcome.Ran? ==> runs[k].outcome.duration > 0.0
    ensures RunAll(baselines, runs).Some?
  {
    if runs != [] {
      var s := TestScript(baselines, runs[0].testName, runs[0].outcome);
      assert s.Step?;
      assert Positive(s.baselines);
      PositiveDurationsComplete(s.baselines, runs[1..]);
    }
  }

  /** The number of reports with a regression. */
  function Regressions(reports: seq<Report>): (n: nat)
    ensures n <= |reports|
  {
    if reports == [] then 0
    else (if reports[0].IsRegression() then 1 else 0) + Regressions(reports[1..])
  }

  /** The number of reports that established a baseline. */
  function BaselinesEstablished(reports: seq<Report>): (n: nat)
    ensures n <= |reports|
  {
    if reports == [] then 0
    else
      var established := reports[0].Measured? && reports[0].check.Established?;
      (if established then 1 else 0) + BaselinesEstablished(reports[1..])
  }

  /** A report counts at most once, as a regression or as a new baseline. */
  lemma {:induction false} RegressionsAndBaselinesDisjoint(reports: seq<Report>)
    ensures Regressions(reports) + BaselinesEstablished(reports) <= |reports|
  {
    if reports != [] {
      RegressionsAndBaselinesDisjoint(reports[1..]);
    }
  }

  /** The exit status of `run_performance_tests`. */
  function ExitCode(reports: seq<Report>): (code: int)
    ensures code == 0 || code == 1
  {
    if Regressions(reports) > 0 then 1 else 0
  }

  /** The suite fails exactly when some script regressed. */
  lemma {:induction false} ExitCodeIff(reports: seq<Report>)
    ensures ExitCode(reports) == 1 <==> exists k :: 0 <= k < |reports| && reports[k].IsRegression()
  {
    if reports != [] {
      ExitCodeIff(reports[1..]);
      if exists k :: 0 <= k < |reports[1..]| && reports[1..][k].IsRegression() {
        var k :| 0 <= k < |reports[1..]| && reports[1..][k].IsRegression();
        assert reports[k + 1].IsRegression();
      }
      if exists k :: 0 <= k < |reports| && reports[k].IsRegression() {
        var k :| 0 <= k < |reports| && reports[k].IsRegression();
        if k > 0 {
          assert reports[1..][k - 1].IsRegression();
        }
      }
    }
  }

  /** A suite that only establishes baselines or stays within them passes. */
  lemma FirstRunsPass(baselines: map<string, real>, runs: seq<Run>)
    requires forall k :: 0 <= k < |runs| ==> BaselineKey(runs[k].testName) !in baselines
    requires forall i, j :: 0 <= i < j < |runs| ==> runs[i].testName != runs[j].testName
    requires RunAll(baselines, runs).Some?
    ensures ExitCode(RunAll(baselines, runs).value.reports) == 0
  {
    FirstRunsEstablish(baselines, runs);
    ExitCodeIff(RunAll(baselines, runs).value.reports);
  }

  /** On first runs of distinct tests, every measured report establishes a
      baseline. */
  lemma {:induction false} FirstRunsEstablish(baselines: map<string, real>, runs: seq<Run>)
    decreases |runs|
    requires forall k :: 0 <= k < |runs| ==> BaselineKey(runs[k].testName) !in baselines
    requires forall i, j :: 0 <= i < j < |runs| ==> runs[i].testName != runs[j].testName
    requires RunAll(baselines, runs).Some?
    ensures forall k :: 0 <= k < |runs| ==> !RunAll(baselines, runs).value.reports[k].IsRegression()
  {
    if runs != [] {
      var s := TestScript(baselines, runs[0].testName, runs[0].outcome);
      forall k | 0 <= k < |runs[1..]|
        ensures BaselineKey(runs[1..][k].testName) !in s.baselines
      {
        KeyInjective(runs[0].testName, runs[k + 1].testName);
      }
      FirstRunsEstablish(s.baselines, runs[1..]);
      var all := RunAll(baselines, runs).value.reports;
      var rest := RunAll(s.baselines, runs[1..]).value.reports;
      assert all == [s.report] + rest;
      forall k | 0 <= k < |runs|
        ensures !all[k].IsRegression()
      {
        if k > 0 {
          assert all[k] == rest[k - 1];
        }
      }
    }
  }

  /** Distinct test names have distinct baseline keys. */
  lemma KeyInjective(a: string, b: string)
    requires a != b
    ensures BaselineKey(a) != BaselineKey(b)
  {
    if |a| == |b| {
      var i :| 0 <= i < |a| && a[i] != b[i];
      assert BaselineKey(a)[i] != BaselineKey(b)[i];
    } else {
      assert |BaselineKey(a)| != |BaselineKey(b)|;
    }
  }
}

=== FILE: pipeline_report.dfy ===
/** The pipeline performance report (scripts/monitoring/generate-pipeline-report.py):
    per-workflow run metrics, the summary statistics over the workflows,
    the workflows with a low success rate and the slow ones. The runs of
    each workflow, as the GitHub API returns them, are inputs. */
module PipelineReport {
  import opened Stats

  datatype Conclusion = Success | Failure | OtherConclusion

  /** A workflow run: its conclusion, whether it has completed, and the
      seconds between its creation and its last update. */
  datatype Run = Run(conclusion: Conclusion, completed: bool, seconds: real)

  datatype Workflow = Workflow(name: string, active: bool, runs: seq<Run>)

  /** One row of the report. */
  datatype Row = Row(
    workflow: string,
    totalRuns: nat,
    successfulRuns: nat,
    failedRuns: nat,
    successRate: real,
    avgDuration: real)

  function CountConclusion(runs: seq<Run>, c: Conclusion): (n: nat)
    ensures n <= |runs|
  {
    if runs == [] then 0 else (if runs[0].conclusion == c then 1 else 0) + CountConclusion(runs[1..], c)
  }

  /** The conclusions of the runs, in order. */
  function Conclusions(runs: seq<Run>): (cs: seq<Conclusion>)
    ensures |cs| == |runs| && forall k :: 0 <= k < |runs| ==> cs[k] == runs[k].conclusion
  {
    seq(|runs|, k requires 0 <= k < |runs| => runs[k].conclusion)
  }

  /** The count of a conclusion is the number of runs that reached it. */
  lemma {:induction false} CountConclusionCounts(runs: seq<Run>, c: Conclusion)
    ensures CountConclusion(runs, c) == multiset(Conclusions(runs))[c]
  {
    if runs != [] {
      CountConclusionCounts(runs[1..], c);
      assert Conclusions(runs) == [runs[0].conclusion] + Conclusions(runs[1..]);
    }
  }

  /** Every run, or no run, reached a conclusion exactly when it is counted
      that many times. */
  lemma {:induction false} CountConclusionAllOrNone(runs: seq<Run>, c: Conclusion)
    ensures CountConclusion(runs, c) == |runs| <==> forall k :: 0 <= k < |runs| ==> runs[k].conclusion == c
    ensures CountConclusion(runs, c) == 0 <==> forall k :: 0 <= k < |runs| ==> runs[k].conclusion != c
  {
    if runs != [] {
      CountConclusionAllOrNone(runs[1..], c);
      assert forall k :: 1 <= k < |runs| ==> runs[k] == runs[1..][k - 1];
    }
  }

  /** A run is counted as a success or as a failure, never both. */
  lemma {:induction false} OutcomesDisjoint(runs: seq<Run>)
    ensures CountConclusion(runs, Success) + CountConclusion(runs, Failure) <= |runs|
  {
    if runs != [] {
      OutcomesDisjoint(runs[1..]);
    }
  }

  /** The durations of the completed runs, in order. */
  function Durations(runs: seq<Run>): (r: seq<real>)
    ensures |r| <= |runs|
  {
    if runs == [] then []
    else (if runs[0].completed then [runs[0].seconds] else []) + Durations(runs[1..])
  }

  /** Only completed runs give durations: a duration is listed exactly when
      some completed run took that long. */
  lemma {:induction false} DurationsIff(runs: seq<Run>, d: real)
    ensures d in Durations(runs) <==> exists k :: 0 <= k < |runs| && runs[k].completed && runs[k].seconds == d
  {
    if runs != [] {
      DurationsIff(runs[1..], d);
      if d in Durations(runs[1..]) {
        var k :| 0 <= k < |runs[1..]| && runs[1..][k].completed && runs[1..][k].seconds == d;
        assert runs[k + 1] == runs[1..][k];
      }
      if exists k :: 0 <= k < |runs| && runs[k].completed && runs[k].seconds == d {
        var k :| 0 <= k < |runs| && runs[k].completed && runs[k].seconds == d;
        if k > 0 {
          assert runs[1..][k - 1] == runs[k];
        }
      }
    }
  }

  /** The success rate in percent, 0 for no runs. */
  function SuccessRate(successful: nat, total: nat): (r: real)
    requires successful <= total
    ensures 0.0 <= r <= 100.0
    ensures total == 0 ==> r == 0.0
    ensures total > 0 ==> (r == 100.0 <==> successful == total) && (r == 0.0 <==> successful == 0)
  {
    if total > 0 then successful as real / total as real * 100.0 else 0.0
  }

  /** The metrics of one workflow's runs. */
  function RowOf(name: string, runs: seq<Run>): (r: Row)
    ensures r.workflow == name
    ensures r.totalRuns == |runs| && r.successfulRuns + r.failedRuns <= r.totalRuns
    ensures 0.0 <= r.successRate <= 100.0
    ensures runs == [] ==> r.successRate == 0.0
    ensures Durations(runs) == [] ==> r.avgDuration == 0.0
    ensures Durations(runs) != [] ==>
              MinOf(Durations(runs)) <= r.avgDuration <= MaxOf(Durations(runs))
    ensures r.successfulRuns == CountConclusion(runs, Success)
    ensures r.failedRuns == CountConclusion(runs, Failure)
    ensures r.successRate == SuccessRate(r.successfulRuns, |runs|)
    ensures Durations(runs) != [] ==> r.avgDuration == Mean(Durations(runs))
  {
    var successful := CountConclusion(runs, Success);
    var failed := CountConclusion(runs, Failure);
    OutcomesDisjoint(runs);
    var durations := Durations(runs);
    var rate := SuccessRate(successful, |runs|);
    if durations != [] then
      MeanWithin(durations);
      Row(name, |runs|, successful, failed, rate, Mean(durations))
    else Row(name, |runs|, successful, failed, rate, 0.0)
  }

  /** A row counts the runs by their conclusion, and its success rate is
      100 exactly when every run succeeded and 0 exactly when none did. */
  lemma RowOfCounts(name: string, runs: seq<Run>)
    ensures RowOf(name, runs).successfulRuns == multiset(Conclusions(runs))[Success]
    ensures RowOf(name, runs).failedRuns == multiset(Conclusions(runs))[Failure]
    ensures runs != [] ==>
      (RowOf(name, runs).successRate == 100.0 <==> forall k :: 0 <= k < |runs| ==> runs[k].conclusion == Success)
    ensures runs != [] ==>
      (RowOf(name, runs).successRate == 0.0 <==> forall k :: 0 <= k < |runs| ==> runs[k].conclusion != Success)
  {
    CountConclusionCounts(runs, Success);
    CountConclusionCounts(runs, Failure);
    CountConclusionAllOrNone(runs, Success);
  }

  /** The workflows the report has a row for: the active ones that have
      runs, in order. */
  function Reported(workflows: seq<Workflow>): (r: seq<Workflow>)
    ensures |r| <= |workflows|
    ensures forall k :: 0 <= k < |r| ==> r[k].active && r[k].runs != []
  {
    if workflows == [] then []
    else
      var w := workflows[0];
      (if w.active && w.runs != [] then [w] else []) + Reported(workflows[1..])
  }

  /** A workflow is reported exactly when it is active and has runs. */
  lemma {:induction false} ReportedIff(workflows: seq<Workflow>, w: Workflow)
    ensures w in Reported(workflows) <==> w in workflows && w.active && w.runs != []
  {
    if workflows != [] {
      ReportedIff(workflows[1..], w);
      assert workflows == [workflows[0]] + workflows[1..];
    }
  }

  /** The rows of the report: the metrics of each reported workflow, in
      order. */
  function Rows(workflows: seq<Workflow>): (r: seq<Row>)
    ensures |r| == |Reported(workflows)|
    ensures forall k :: 0 <= k < |r| ==> r[k].workflow == Reported(workflows)[k].name
    ensures forall k :: 0 <= k < |r| ==> r[k].totalRuns > 0 && 0.0 <= r[k].successRate <= 100.0
  {
    var ws := Reported(workflows);
    seq(|ws|, k requires 0 <= k < |ws| => RowOf(ws[k].name, ws[k].runs))
  }

  /** A workflow has a row exactly when it is active and has runs. */
  lemma RowsIff(workflows: seq<Workflow>, name: string)
    ensures (exists k :: 0 <= k < |Rows(workflows)| && Rows(workflows)[k].workflow == name) <==>
      exists i :: 0 <= i < |workflows| && workflows[i].name == name && workflows[i].active && workflows[i].runs != []
  {
    var ws := Reported(workflows);
    forall w | true
      ensures w in ws <==> w in workflows && w.active && w.runs != []
    {
      ReportedIff(workflows, w);
    }
    SelectedNameIff(ws, workflows, name);
    RowNameIff(Rows(workflows), ws, name);
  }

  lemma SelectedNameIff(ws: seq<Workflow>, workflows: seq<Workflow>, name: string)
    requires forall w :: w in ws <==> w in workflows && w.active && w.runs != []
    ensures (exists k :: 0 <= k < |ws| && ws[k].name == name) <==>
      exists i :: 0 <= i < |workflows| && workflows[i].name == name && workflows[i].active && workflows[i].runs != []
  {
    if exists k :: 0 <= k < |ws| && ws[k].name == name {
      var k :| 0 <= k < |ws| && ws[k].name == name;
      assert ws[k] in ws;
      var i :| 0 <= i < |workflows| && workflows[i] == ws[k];
    }
    if exists i :: 0 <= i < |workflows| && workflows[i].name == name && workflows[i].active && workflows[i].runs != [] {
      var i :| 0 <= i < |workflows| && workflows[i].name == name && workflows[i].active && workflows[i].runs != [];
      assert workflows[i] in workflows;
      var k :| 0 <= k < |ws| && ws[k] == workflows[i];
    }
  }

  lemma RowNameIff(rows: seq<Row>, ws: seq<Workflow>, name: string)
    requires |rows| == |ws| && forall k :: 0 <= k < |rows| ==> rows[k].workflow == ws[k].name
    ensures (exists k :: 0 <= k < |rows| && rows[k].workflow == name) <==>
      exists k :: 0 <= k < |ws| && ws[k].name == name
  {
  }

  // ---------------------------------------------------------------------
  // Summary

  function SuccessRates(rows: seq<Row>): (r: seq<real>)
    ensures |r| == |rows|
    ensures forall k :: 0 <= k < |r| ==> r[k] == rows[k].successRate
  {
    seq(|rows|, k requires 0 <= k < |rows| => rows[k].successRate)
  }

  function AvgDurations(rows: seq<Row>): (r: seq<real>)
    ensures |r| == |rows|
    ensures forall k :: 0 <= k < |r| ==> r[k] == rows[k].avgDuration
  {
    seq(|rows|, k requires 0 <= k < |rows| => rows[k].avgDuration)
  }

  datatype Summary = Summary(totalWorkflows: nat, overallSuccessRate: real, averageDuration: real)

  /** The summary of the JSON report: the number of rows and the means of
      their success rates and average durations, or zeros without rows. */
  function Summarize(rows: seq<Row>): (s: Summary)
    ensures s.totalWorkflows == |rows|
    ensures rows == [] ==> s.overallSuccessRate == 0.0 && s.averageDuration == 0.0
    ensures s.overallSuccessRate == BasicStats(SuccessRates(rows)).mean
    ensures s.averageDuration == BasicStats(AvgDurations(rows)).mean
  {
    if rows == [] then Summary(0, 0.0, 0.0)
    else Summary(|rows|, BasicStats(SuccessRates(rows)).mean, BasicStats(AvgDurations(rows)).mean)
  }

  /** The overall success rate of a report is within [0, 100]. */
  lemma OverallRateWithin(workflows: seq<Workflow>)
    ensures 0.0 <= Summarize(Rows(workflows)).overallSuccessRate <= 100.0
  {
    RatesWithin(Rows(workflows));
  }

  lemma RatesWithin(rows: seq<Row>)
    requires forall k :: 0 <= k < |rows| ==> 0.0 <= rows[k].successRate <= 100.0
    ensures 0.0 <= Summarize(rows).overallSuccessRate <= 100.0
  {
    if rows != [] {
      MeanBetween(SuccessRates(rows), 0.0, 100.0);
    }
  }

  /** The workflows with a success rate below 80%, in order. */
  function Problematic(rows: seq<Row>): (r: seq<Row>)
    ensures |r| <= |rows|
  {
    if rows == [] then []
    else (if rows[0].successRate < 80.0 then [rows[0]] else []) + Problematic(rows[1..])
  }

  /** A row is listed as problematic exactly when it is a row whose success
      rate is below 80%. */
  lemma {:induction false} ProblematicIff(rows: seq<Row>, w: Row)
    ensures w in Problematic(rows) <==> w in rows && w.successRate < 80.0
  {
    if rows != [] {
      ProblematicIff(rows[1..], w);
      assert rows == [rows[0]] + rows[1..];
    }
  }

  /** `int(n * 0.75)`: the index of the third-quartile duration. */
  function ThirdQuartileIndex(n: nat): (i: nat)
    requires n >= 1
    ensures i < n
    ensures 4 * i <= 3 * n < 4 * (i + 1)
  {
    (n as real * 0.75).Floor
  }

  /** The workflows slower than 1.5 times the third-quartile average
      duration, in order. */
  function Slow(rows: seq<Row>): (r: seq<Row>)
    requires rows != []
  {
    var sorted := Sort(AvgDurations(rows));
    assert |sorted| == |rows| by {
      assert |multiset(sorted)| == |multiset(AvgDurations(rows))|;
    }
    var threshold := sorted[ThirdQuartileIndex(|sorted|)] * 1.5;
    SlowerThan(rows, threshold)
  }

  function SlowerThan(rows: seq<Row>, threshold: real): (r: seq<Row>)
    ensures |r| <= |rows|
    ensures forall k :: 0 <= k < |r| ==> r[k] in rows && r[k].avgDuration > threshold
  {
    if rows == [] then []
    else
      var rest := SlowerThan(rows[1..], threshold);
      assert forall k :: 0 <= k < |rest| ==> rest[k] in rows;
      (if rows[0].avgDuration > threshold then [rows[0]] else []) + rest
  }

  /** A row is listed as slower than the threshold exactly when it is a row
      whose average duration exceeds it. */
  lemma {:induction false} SlowerThanIff(rows: seq<Row>, threshold: real, w: Row)
    ensures w in SlowerThan(rows, threshold) <==> w in rows && w.avgDuration > threshold
  {
    if rows != [] {
      SlowerThanIff(rows[1..], threshold, w);
      assert rows == [rows[0]] + rows[1..];
    }
  }

  /** With non-negative durations, every workflow listed as slow is a row
      whose average duration exceeds the third-quartile one. */
  lemma SlowAboveQuartile(rows: seq<Row>, w: Row)
    requires rows != [] && forall k :: 0 <= k < |rows| ==> rows[k].avgDuration >= 0.0
    requires w in Slow(rows)
    ensures w in rows
    ensures w.avgDuration > Sort(AvgDurations(rows))[ThirdQuartileIndex(|rows|)]
  {
    var ds := AvgDurations(rows);
    var sorted := Sort(ds);
    assert |sorted| == |rows| by {
      assert |multiset(sorted)| == |multiset(ds)|;
    }
    var q := sorted[ThirdQuartileIndex(|rows|)];
    assert q in multiset(ds);
    var j :| 0 <= j < |ds| && ds[j] == q;
    assert q >= 0.0;
  }
}

=== FILE: quality_gates.dfy ===
/** The decision logic of the quality-gate orchestrator
    (`QualityGateManager` in quality-gates/run_quality_gates.py): how each of
    the four gates turns counts into a status, how the fallback review checks
    score, and how the gate statuses combine into an overall verdict, a
    summary and a process exit code. */
module QualityGates {
  import opened Text

  /** A gate verdict. `Unknown` is what a gate result without a status reads as. */
  datatype Status = Passed | Warning | Failed | Unknown

  // Thresholds fixed in QualityGateManager.__init__.
  const MaxLintErrors: nat := 0
  const MaxLintWarnings: nat := 10
  const MaxComplexity: nat := 10
  const MaxFunctionLines: nat := 100
  const MaxCritical: nat := 0
  const MaxHigh: nat := 0
  const MaxMedium: nat := 5

  /** Severity order used to compare verdicts: a higher rank is worse. */
  function Rank(s: Status): nat {
    match s
    case Passed => 0
    case Unknown => 1
    case Warning => 2
    case Failed => 3
  }

  // ---------------------------------------------------------------------
  // Linting gate

  /** Error and warning counts one linter reported for one language. */
  datatype LintCounts = LintCounts(errors: nat, warnings: nat)

  /** `not line.strip()`, stated directly (see `Text.StripEmptyIff`). */
  predicate IsBlank(line: string) {
    AllSpace(line)
  }

  /** A flake8 output line is an error when its lower-case form mentions
      "error"; a shellcheck line also when it mentions "critical". */
  predicate IsLintError(line: string, shell: bool) {
    Contains(Lower(line), "error") || (shell && Contains(Lower(line), "critical"))
  }

  /** How the counting loop classifies one output line. */
  datatype LineKind = Blank | ErrorLine | WarningLine

  function Classify(line: string, shell: bool): (k: LineKind)
    ensures k == Blank <==> IsBlank(line)
    ensures k == ErrorLine <==> !IsBlank(line) && IsLintError(line, shell)
  {
    if IsBlank(line) then Blank else if IsLintError(line, shell) then ErrorLine else WarningLine
  }

  /** Number of lines of the given kind. */
  function KindCount(lines: seq<string>, shell: bool, kind: LineKind): (n: nat)
    ensures n <= |lines|
  {
    if lines == [] then 0
    else KindCount(lines[..|lines| - 1], shell, kind) + (if Classify(lines[|lines| - 1], shell) == kind then 1 else 0)
  }

  /** Number of non-blank lines. */
  function NonBlankLines(lines: seq<string>): (n: nat)
    ensures n <= |lines|
  {
    |lines| - KindCount(lines, false, Blank)
  }

  /** Number of non-blank lines that classify as errors. */
  function ErrorLines(lines: seq<string>, shell: bool): (n: nat)
    ensures n <= NonBlankLines(lines)
  {
    KindsPartition(lines, shell);
    BlankCountAnyLanguage(lines, shell);
    KindCount(lines, shell, ErrorLine)
  }

  /** Blank lines do not depend on the language. */
  lemma {:induction false} BlankCountAnyLanguage(lines: seq<string>, shell: bool)
    ensures KindCount(lines, shell, Blank) == KindCount(lines, false, Blank)
  {
    if lines != [] {
      BlankCountAnyLanguage(lines[..|lines| - 1], shell);
    }
  }

  /** Every line has exactly one kind. */
  lemma {:induction false} KindsPartition(lines: seq<string>, shell: bool)
    ensures KindCount(lines, shell, Blank) + KindCount(lines, shell, ErrorLine) + KindCount(lines, shell, WarningLine) == |lines|
  {
    if lines != [] {
      KindsPartition(lines[..|lines| - 1], shell);
    }
  }

  /** The counting loop over a linter's output lines: every non-blank line
      is counted exactly once, as an error when it classifies as one and as a
      warning otherwise. */
  method CountLintLines(lines: seq<string>, shell: bool) returns (counts: LintCounts)
    ensures counts.errors == ErrorLines(lines, shell)
    ensures counts.errors + counts.warnings == NonBlankLines(lines)
  {
    var errors: nat := 0;
    var warnings: nat := 0;
    var i := 0;
    while i < |lines|
      invariant 0 <= i <= |lines|
      invariant errors == KindCount(lines[..i], shell, ErrorLine)
      invariant warnings == KindCount(lines[..i], shell, WarningLine)
    {
      assert lines[..i + 1][..i] == lines[..i];
      var kind := Classify(lines[i], shell);
      if kind == ErrorLine {
        errors := errors + 1;
      } else if kind == WarningLine {
        warnings := warnings + 1;
      }
      i := i + 1;
    }
    assert lines[..i] == lines;
    KindsPartition(lines, shell);
    BlankCountAnyLanguage(lines, shell);
    counts := LintCounts(errors, warnings);
  }

  /** How a linter invocation ended. */
  datatype LintRun =
    | ExitedClean                          // return code 0: nothing is counted
    | ReportedIssues(output: seq<string>)  // stdout lines followed by stderr lines
    | NotInstalled(syntaxOk: seq<bool>)    // tool missing: one syntax check per file

  function SyntaxFailures(oks: seq<bool>): (n: nat)
    ensures n <= |oks|
    ensures n == 0 <==> forall i :: 0 <= i < |oks| ==> oks[i]
  {
    if oks == [] then 0 else SyntaxFailures(oks[1..]) + (if oks[0] then 0 else 1)
  }

  /** Counts of `_run_python_linting` (shell = false) and
      `_run_shell_linting` (shell = true). */
  function LintLanguage(run: LintRun, shell: bool): (c: LintCounts)
    ensures run.ExitedClean? ==> c == LintCounts(0, 0)
    ensures run.ReportedIssues? ==>
      c.errors + c.warnings == NonBlankLines(run.output) && c.errors == ErrorLines(run.output, shell)
    ensures run.NotInstalled? ==> c.warnings == 0 && c.errors <= |run.syntaxOk|
  {
    match run
    case ExitedClean => LintCounts(0, 0)
    case ReportedIssues(output) =>
      var e := ErrorLines(output, shell);
      LintCounts(e, NonBlankLines(output) - e)
    case NotInstalled(oks) => LintCounts(SyntaxFailures(oks), 0)
  }

  function TotalErrors(langs: seq<LintCounts>): (n: nat)
    ensures n == 0 <==> forall i :: 0 <= i < |langs| ==> langs[i].errors == 0
  {
    if langs == [] then 0 else langs[0].errors + TotalErrors(langs[1..])
  }

  function TotalWarnings(langs: seq<LintCounts>): nat {
    if langs == [] then 0 else langs[0].warnings + TotalWarnings(langs[1..])
  }

  /** Status of the linting gate from the per-language counts. */
  function LintStatus(langs: seq<LintCounts>): (s: Status)
    ensures s == Failed <==> exists i :: 0 <= i < |langs| && langs[i].errors > 0
    ensures s == Warning <==> (forall i :: 0 <= i < |langs| ==> langs[i].errors == 0) && TotalWarnings(langs) > MaxLintWarnings
    ensures s != Unknown
  {
    if TotalErrors(langs) > MaxLintErrors then Failed
    else if TotalWarnings(langs) > MaxLintWarnings then Warning
    else Passed
  }

  /** `b` reports at least as many errors and warnings as `a`, language by language. */
  predicate NoFewerIssues(a: seq<LintCounts>, b: seq<LintCounts>) {
    |a| == |b| && forall i :: 0 <= i < |a| ==> a[i].errors <= b[i].errors && a[i].warnings <= b[i].warnings
  }

  lemma {:induction false} TotalsMonotone(a: seq<LintCounts>, b: seq<LintCounts>)
    requires NoFewerIssues(a, b)
    ensures TotalErrors(a) <= TotalErrors(b) && TotalWarnings(a) <= TotalWarnings(b)
  {
    if a != [] {
      assert NoFewerIssues(a[1..], b[1..]);
      TotalsMonotone(a[1..], b[1..]);
    }
  }

  /** More lint errors or warnings never improve the linting verdict. */
  lemma LintStatusMonotone(a: seq<LintCounts>, b: seq<LintCounts>)
    requires NoFewerIssues(a, b)
    ensures Rank(LintStatus(a)) <= Rank(LintStatus(b))
  {
    TotalsMonotone(a, b);
  }

  // ---------------------------------------------------------------------
  // Complexity gate

  /** `max(xs, default=0)`. */
  function MaxOrZero(xs: seq<nat>): (m: nat)
    ensures forall i :: 0 <= i < |xs| ==> xs[i] <= m
    ensures xs == [] ==> m == 0
    ensures xs != [] ==> exists i :: 0 <= i < |xs| && xs[i] == m
  {
    if xs == [] then 0
    else
      var rest := MaxOrZero(xs[1..]);
      if xs[0] >= rest then xs[0] else rest
  }

  /** Status of the complexity gate from the complexities of the reported
      complex functions (an entry without a complexity counts as 0) and the
      line counts of the reported long functions. */
  function ComplexityStatus(complexities: seq<nat>, lengths: seq<nat>): (s: Status)
    ensures s == Failed <==> exists i :: 0 <= i < |complexities| && complexities[i] > MaxComplexity
    ensures s == Warning <==>
      && (forall i :: 0 <= i < |complexities| ==> complexities[i] <= MaxComplexity)
      && (exists j :: 0 <= j < |lengths| && lengths[j] > MaxFunctionLines)
    ensures s != Unknown
  {
    if MaxOrZero(complexities) > MaxComplexity then Failed
    else if MaxOrZero(lengths) > MaxFunctionLines then Warning
    else Passed
  }

  /** With nothing reported, the complexity gate passes. */
  lemma EmptyComplexityPasses()
    ensures ComplexityStatus([], []) == Passed
  {
  }

  /** What `_run_shell_complexity` makes of one shell file. */
  datatype ShellComplexityEntries = ShellComplexityEntries(complexities: seq<nat>, lengths: seq<nat>)

  /** Number of lines `content.split('\n')` yields. */
  function LineCount(content: string): (n: nat)
    ensures n >= 1
  {
    Count(content, "\n") + 1
  }

  /** `_run_shell_complexity`: a file longer than 100 lines is reported long
      with its line count, and a file with more than 20 function markers is
      reported complex with no complexity value, which the gate reads as 0. */
  function ShellComplexity(contents: seq<string>): (r: ShellComplexityEntries)
    ensures forall i :: 0 <= i < |r.complexities| ==> r.complexities[i] == 0
    ensures forall j :: 0 <= j < |r.lengths| ==> r.lengths[j] > MaxFunctionLines
    ensures |r.lengths| <= |contents| && |r.complexities| <= |contents|
  {
    if contents == [] then ShellComplexityEntries([], [])
    else
      var rest := ShellComplexity(contents[1..]);
      var here := ShellFileEntries(contents[0]);
      ShellComplexityEntries(here.complexities + rest.complexities, here.lengths + rest.lengths)
  }

  /** The entries of one shell file. */
  function ShellFileEntries(content: string): ShellComplexityEntries {
    var lines := LineCount(content);
    var functions := Count(content, "function ") + Count(content, "() {");
    ShellComplexityEntries(if functions > 20 then [0] else [], if lines > MaxFunctionLines then [lines] else [])
  }

  /** One shell file is listed as long exactly when it has more than 100
      lines, with its line count, and as complex exactly when it has more
      than 20 function markers. */
  lemma ShellComplexityOne(content: string)
    ensures var r := ShellComplexity([content]);
      && (r.lengths == if LineCount(content) > MaxFunctionLines then [LineCount(content)] else [])
      && (r.complexities == if Count(content, "function ") + Count(content, "() {") > 20 then [0] else [])
  {
    assert [content][1..] == [];
  }

  /** The entries of two lists of shell files are those of the first
      followed by those of the second. */
  lemma ShellComplexityAppend(a: seq<string>, b: seq<string>)
    ensures ShellComplexity(a + b).lengths == ShellComplexity(a).lengths + ShellComplexity(b).lengths
    ensures ShellComplexity(a + b).complexities == ShellComplexity(a).complexities + ShellComplexity(b).complexities
  {
    ShellLengthsAppend(a, b);
    ShellComplexitiesAppend(a, b);
  }

  /** The entries of a non-empty list of files: those of its first file,
      then those of the rest. */
  lemma ShellHead(xs: seq<string>)
    requires xs != []
    ensures ShellComplexity(xs).lengths == ShellFileEntries(xs[0]).lengths + ShellComplexity(xs[1..]).lengths
    ensures ShellComplexity(xs).complexities
              == ShellFileEntries(xs[0]).complexities + ShellComplexity(xs[1..]).complexities
  {
  }

  lemma {:induction false} ShellLengthsAppend(a: seq<string>, b: seq<string>)
    ensures ShellComplexity(a + b).lengths == ShellComplexity(a).lengths + ShellComplexity(b).lengths
  {
    if a == [] {
      assert a + b == b;
    } else {
      var ab, t := a + b, a[1..];
      var e := ShellFileEntries(a[0]).lengths;
      assert ab[0] == a[0] && ab[1..] == t + b;
      calc {
        ShellComplexity(ab).lengths;
        { ShellHead(ab); }
        e + ShellComplexity(t + b).lengths;
        { ShellLengthsAppend(t, b); }
        e + (ShellComplexity(t).lengths + ShellComplexity(b).lengths);
        (e + ShellComplexity(t).lengths) + ShellComplexity(b).lengths;
        { ShellHead(a); }
        ShellComplexity(a).lengths + ShellComplexity(b).lengths;
      }
    }
  }

  lemma {:induction false} ShellComplexitiesAppend(a: seq<string>, b: seq<string>)
    ensures ShellComplexity(a + b).complexities == ShellComplexity(a).complexities + ShellComplexity(b).complexities
  {
    if a == [] {
      assert a + b == b;
    } else {
      var ab, t := a + b, a[1..];
      var e := ShellFileEntries(a[0]).complexities;
      assert ab[0] == a[0] && ab[1..] == t + b;
      calc {
        ShellComplexity(ab).complexities;
        { ShellHead(ab); }
        e + ShellComplexity(t + b).complexities;
        { ShellComplexitiesAppend(t, b); }
        e + (ShellComplexity(t).complexities + ShellComplexity(b).complexities);
        (e + ShellComplexity(t).complexities) + ShellComplexity(b).complexities;
        { ShellHead(a); }
        ShellComplexity(a).complexities + ShellComplexity(b).complexities;
      }
    }
  }

  /** A shell file longer than 100 lines makes the shell entries warn. */
  lemma {:induction false} LongShellFileWarns(contents: seq<string>, i: nat)
    requires i < |contents| && LineCount(contents[i]) > MaxFunctionLines
    ensures var r := ShellComplexity(contents); ComplexityStatus(r.complexities, r.lengths) == Warning
  {
    var r := ShellComplexity(contents);
    LongShellFileListed(contents, i);
    assert MaxOrZero(r.lengths) > MaxFunctionLines;
  }

  /** The line count of a long file is among the shell entries. */
  lemma {:induction false} LongShellFileListed(contents: seq<string>, i: nat)
    requires i < |contents| && LineCount(contents[i]) > MaxFunctionLines
    ensures LineCount(contents[i]) in ShellComplexity(contents).lengths
  {
    if i > 0 {
      LongShellFileListed(contents[1..], i - 1);
    }
  }

  /** Shell files alone can never fail the complexity gate: their complex
      entries carry no complexity, so at worst they raise a warning. */
  lemma ShellComplexityNeverFails(contents: seq<string>)
    ensures var r := ShellComplexity(contents); ComplexityStatus(r.complexities, r.lengths) != Failed
  {
  }

  // ---------------------------------------------------------------------
  // Security gate

  /** Numbers of findings per severity the security gate reads. */
  datatype SecurityCounts = SecurityCounts(critical: nat, high: nat, medium: nat, low: nat, info: nat)

  function SecurityStatus(c: SecurityCounts): (s: Status)
    ensures s == Failed <==> c.critical > 0 || c.high > 0
    ensures s == Warning <==> c.critical == 0 && c.high == 0 && c.medium > MaxMedium
    ensures s != Unknown
  {
    if c.critical > MaxCritical then Failed
    else if c.high > MaxHigh then Failed
    else if c.medium > MaxMedium then Warning
    else Passed
  }

  /** Low and info findings never influence the security verdict. */
  lemma SecurityIgnoresLowAndInfo(c: SecurityCounts, low: nat, info: nat)
    ensures SecurityStatus(c) == SecurityStatus(c.(low := low, info := info))
  {
  }

  // ---------------------------------------------------------------------
  // Review gate

  function PassedCount(checks: seq<Status>): (n: nat)
    ensures n <= |checks|
    ensures n == |checks| <==> forall i :: 0 <= i < |checks| ==> checks[i] == Passed
    ensures n == 0 <==> forall i :: 0 <= i < |checks| ==> checks[i] != Passed
  {
    if checks == [] then 0 else (if checks[0] == Passed then 1 else 0) + PassedCount(checks[1..])
  }

  /** `part / whole * 100` for `part <= whole`. */
  function Percentage(part: nat, whole: nat): (p: real)
    requires 0 < whole && part <= whole
    ensures 0.0 <= p <= 100.0
    ensures p == 100.0 <==> part == whole
    ensures p == 0.0 <==> part == 0
  {
    RatioBounds(part, whole);
    (part as real) / (whole as real) * 100.0
  }

  lemma RatioBounds(part: nat, whole: nat)
    requires 0 < whole && part <= whole
    ensures var r := (part as real) / (whole as real);
      && 0.0 <= r <= 1.0 && (r == 1.0 <==> part == whole) && (r == 0.0 <==> part == 0)
  {
    var r := (part as real) / (whole as real);
    assert r * (whole as real) == part as real;
  }

  /** The review score: the reviewer's own score, or, when that is 0 and
      fallback checks ran, the percentage of fallback checks that passed. */
  function ReviewScore(reported: real, checks: seq<Status>): (score: real)
    ensures reported != 0.0 ==> score == reported
    ensures reported == 0.0 && checks == [] ==> score == 0.0
    ensures reported == 0.0 && checks != [] ==>
      && 0.0 <= score <= 100.0
      && (score == 100.0 <==> forall i :: 0 <= i < |checks| ==> checks[i] == Passed)
      && (score == 0.0 <==> forall i :: 0 <= i < |checks| ==> checks[i] != Passed)
  {
    if reported == 0.0 && |checks| > 0 then Percentage(PassedCount(checks), |checks|)
    else reported
  }

  /** Status bands of the review gate. */
  function ReviewStatus(score: real): (s: Status)
    ensures s == Passed <==> score >= 90.0
    ensures s == Warning <==> 75.0 <= score < 90.0
    ensures s == Failed <==> score < 75.0
  {
    if score >= 90.0 then Passed
    else if score >= 75.0 then Warning
    else Failed
  }

  /** With the four fallback checks, the review gate passes only when all four
      pass, warns when three of four pass (75 %), and fails otherwise. */
  lemma FallbackReviewBands(checks: seq<Status>)
    requires |checks| == 4
    ensures ReviewStatus(ReviewScore(0.0, checks)) == Passed <==> PassedCount(checks) == 4
    ensures ReviewStatus(ReviewScore(0.0, checks)) == Warning <==> PassedCount(checks) == 3
    ensures ReviewStatus(ReviewScore(0.0, checks)) == Failed <==> PassedCount(checks) <= 2
  {
    var p := PassedCount(checks);
    assert ReviewScore(0.0, checks) == (p as real) * 25.0;
  }

  // ---------------------------------------------------------------------
  // Fallback review checks (_check_documentation, _check_naming_conventions,
  // _check_code_structure, _check_best_practices)

  /** `max(0, min(100, 100 + deduction))`. */
  function CheckScore(deduction: int): (score: int)
    ensures 0 <= score <= 100
    ensures deduction <= 0 && deduction >= -100 ==> score == 100 + deduction
    ensures deduction <= -100 ==> score == 0
  {
    if 100 + deduction < 0 then 0
    else if 100 + deduction > 100 then 100
    else 100 + deduction
  }

  /** Status bands shared by the four fallback checks. */
  function CheckStatus(score: int): (s: Status)
    ensures s == Passed <==> score >= 80
    ensures s == Warning <==> 60 <= score < 80
    ensures s == Failed <==> score < 60
  {
    if score >= 80 then Passed else if score >= 60 then Warning else Failed
  }

  /** A larger deduction never improves a fallback check's verdict. */
  lemma CheckStatusMonotone(d1: int, d2: int)
    requires d2 <= d1
    ensures CheckScore(d2) <= CheckScore(d1)
    ensures Rank(CheckStatus(CheckScore(d1))) <= Rank(CheckStatus(CheckScore(d2)))
  {
  }

  /** A file's text, when it can be read as text. */
  datatype FileText = Unreadable | Readable(content: string)

  predicate HasDocstring(f: FileText) {
    f.Readable? && (Contains(f.content, TripleDouble) || Contains(f.content, TripleSingle))
  }

  const TripleDouble: string := ['"', '"', '"']
  const TripleSingle: string := ['\'', '\'', '\'']

  function DocstringFiles(files: seq<FileText>): (n: nat)
    ensures n <= |files|
    ensures n == |files| <==> forall i :: 0 <= i < |files| ==> HasDocstring(files[i])
  {
    if files == [] then 0 else (if HasDocstring(files[0]) then 1 else 0) + DocstringFiles(files[1..])
  }

  /** Fewer than half of the files have a docstring (`ratio < 0.5`). */
  predicate LowDocstringRatio(withDocstrings: nat, files: nat) {
    files > 0 && (withDocstrings as real) / (files as real) < 0.5
  }

  lemma LowDocstringRatioIff(withDocstrings: nat, files: nat)
    ensures LowDocstringRatio(withDocstrings, files) <==> 2 * withDocstrings < files
  {
    if files > 0 {
      BelowHalf(withDocstrings as real, files as real);
    }
  }

  lemma BelowHalf(w: real, f: real)
    requires f > 0.0 && w >= 0.0
    ensures w / f < 0.5 <==> 2.0 * w < f
  {
    var r := w / f;
    assert w == r * f;
    if r < 0.5 {
      assert (0.5 - r) * f > 0.0;
    } else {
      assert (r - 0.5) * f >= 0.0;
    }
  }

  /** `_check_documentation`: 20 off without a README, 10 off when fewer than
      half of the Python files contain a triple quote (an unreadable file
      counts as one without). */
  function DocumentationDeduction(hasReadme: bool, pythonFiles: seq<FileText>): (d: int)
    ensures -30 <= d <= 0
    ensures d == 0 <==> hasReadme && 2 * DocstringFiles(pythonFiles) >= |pythonFiles|
  {
    LowDocstringRatioIff(DocstringFiles(pythonFiles), |pythonFiles|);
    (if hasReadme then 0 else -20)
    + (if LowDocstringRatio(DocstringFiles(pythonFiles), |pythonFiles|) then -10 else 0)
  }

  /** The documentation check fails only when both of its problems occur,
      and then only to a warning. */
  lemma DocumentationNeverFails(hasReadme: bool, pythonFiles: seq<FileText>)
    ensures CheckStatus(CheckScore(DocumentationDeduction(hasReadme, pythonFiles))) != Failed
  {
  }

  /** The function name `line.split("def ")[1].split("(")[0].strip()` of a
      line that contains "def ". */
  function DefinedName(line: string): string
    requires Contains(line, "def ")
  {
    var i := Find(line, "def ");
    Strip(SplitHead(SplitHead(line[i + 4..], "def "), "("))
  }

  /** A name that has an upper-case letter after its first character. */
  predicate IsCamelCase(name: string) {
    exists k :: 1 <= k < |name| && IsAsciiUpper(name[k])
  }

  predicate NamingViolation(line: string) {
    Contains(line, "def ") && IsCamelCase(DefinedName(line))
  }

  function NamingViolations(lines: seq<string>): (n: nat)
    ensures n <= |lines|
    ensures n == 0 <==> forall i :: 0 <= i < |lines| ==> !NamingViolation(lines[i])
  {
    if lines == [] then 0 else (if NamingViolation(lines[0]) then 1 else 0) + NamingViolations(lines[1..])
  }

  /** `_check_naming_conventions`: 5 off for every camel-case `def` line. */
  function NamingDeduction(lines: seq<string>): (d: int)
    ensures d <= 0
    ensures d == 0 <==> forall i :: 0 <= i < |lines| ==> !NamingViolation(lines[i])
  {
    -5 * NamingViolations(lines)
  }

  const RequiredDirs: seq<string> := ["scripts", "vendor", "tests", "docs"]

  function MissingDirs(existing: set<string>, required: seq<string>): (n: nat)
    ensures n <= |required|
    ensures n == 0 <==> forall i :: 0 <= i < |required| ==> required[i] in existing
  {
    if required == [] then 0 else (if required[0] in existing then 0 else 1) + MissingDirs(existing, required[1..])
  }

  /** The distinct directories other than the project root (written "")
      holding Python files. */
  function PackageDirs(pythonParents: seq<string>): set<string> {
    set i | 0 <= i < |pythonParents| && pythonParents[i] != "" :: pythonParents[i]
  }

  /** `_check_code_structure`: 10 off per required directory that does not
      exist, and 10 off when more than ten Python files (given by their parent
      directory) sit in fewer than three distinct sub-directories. */
  function StructureDeduction(existing: set<string>, pythonParents: seq<string>): (d: int)
    ensures -50 <= d <= 0
    ensures d == 0 <==>
      && (forall i :: 0 <= i < |RequiredDirs| ==> RequiredDirs[i] in existing)
      && !(|pythonParents| > 10 && |PackageDirs(pythonParents)| < 3)
  {
    -10 * MissingDirs(existing, RequiredDirs)
    + (if |pythonParents| > 10 && |PackageDirs(pythonParents)| < 3 then -10 else 0)
  }

  /** A project file as `_check_best_practices` sees it. */
  datatype ProjectFile = ProjectFile(name: string, text: FileText)

  predicate SkippedForSecrets(name: string) {
    EndsWith(name, ".pyc") || EndsWith(name, ".pyo") || EndsWith(name, "__pycache__")
  }

  /** One of the secret words occurs in the lower-cased text together with
      "hardcoded" or "=". */
  predicate MentionsSecret(lower: string) {
    (Contains(lower, "password") || Contains(lower, "secret") || Contains(lower, "key") || Contains(lower, "token"))
    && (Contains(lower, "hardcoded") || Contains(lower, "="))
  }

  /** A file that `_check_best_practices` counts as holding a secret: not
      compiled Python or a cache, readable, and mentioning a secret word. */
  predicate HoldsSecret(f: ProjectFile) {
    !SkippedForSecrets(f.name) && f.text.Readable? && MentionsSecret(Lower(f.text.content))
  }

  /** The number of files that seem to hold a secret. */
  function SecretFiles(files: seq<ProjectFile>): (n: nat)
    ensures n <= |files|
    ensures n == 0 <==> forall i :: 0 <= i < |files| ==> !HoldsSecret(files[i])
    ensures n == |files| <==> forall i :: 0 <= i < |files| ==> HoldsSecret(files[i])
  {
    if files == [] then 0
    else (if HoldsSecret(files[0]) then 1 else 0) + SecretFiles(files[1..])
  }

  /** The secret files of two lists of files add up. */
  lemma {:induction false} SecretFilesAppend(a: seq<ProjectFile>, b: seq<ProjectFile>)
    ensures SecretFiles(a + b) == SecretFiles(a) + SecretFiles(b)
  {
    if a != [] {
      SecretFilesAppend(a[1..], b);
      assert (a + b)[1..] == a[1..] + b;
    } else {
      assert a + b == b;
    }
  }

  /** A single file counts exactly when it seems to hold a secret. */
  lemma SecretFilesOne(f: ProjectFile)
    ensures SecretFiles([f]) == 1 <==> HoldsSecret(f)
  {
  }

  function TodoCount(files: seq<ProjectFile>): nat {
    if files == [] then 0
    else (if files[0].text.Readable? then Count(Upper(files[0].text.content), "TODO") else 0) + TodoCount(files[1..])
  }

  /** `_check_best_practices`: 15 off per file that seems to hold a secret
      (at most once per file, whichever word matched), and 10 off for more
      than twenty TODO markers overall. */
  function BestPracticesDeduction(files: seq<ProjectFile>): (d: int)
    ensures -15 * SecretFiles(files) - 10 <= d <= -15 * SecretFiles(files)
    ensures d >= -15 * |files| - 10
    ensures d % 5 == 0
    ensures d == 0 <==> (forall i :: 0 <= i < |files| ==> !HoldsSecret(files[i])) && TodoCount(files) <= 20
    ensures TodoCount(files) > 20 ==> d < 0
  {
    var n := SecretFiles(files);
    var todo := if TodoCount(files) > 20 then -10 else 0;
    assert -15 * n + todo == 5 * (-3 * n + todo / 5);
    -15 * n + todo
  }

  // ---------------------------------------------------------------------
  // Overall status, summary and exit code

  /** The worst verdict under `Rank`; the empty list has no bad verdict. */
  function Worst(statuses: seq<Status>): (w: Status)
    ensures forall i :: 0 <= i < |statuses| ==> Rank(statuses[i]) <= Rank(w)
    ensures statuses != [] ==> w in statuses
    ensures statuses == [] ==> w == Passed
  {
    if statuses == [] then Passed
    else
      var rest := Worst(statuses[1..]);
      if Rank(statuses[0]) >= Rank(rest) then statuses[0] else rest
  }

  /** `_calculate_overall_status`: failed if any gate failed, else warning if
      any gate warned, else passed if every gate passed, else unknown. */
  function OverallStatus(statuses: seq<Status>): (s: Status)
    ensures Failed in statuses ==> s == Failed
    ensures s == Passed <==> forall i :: 0 <= i < |statuses| ==> statuses[i] == Passed
  {
    if Failed in statuses then Failed
    else if Warning in statuses then Warning
    else if forall i :: 0 <= i < |statuses| ==> statuses[i] == Passed then Passed
    else Unknown
  }

  /** The precedence rule is the same as taking the worst verdict, so the
      overall status does not depend on the order of the gates. */
  lemma {:induction false} OverallIsWorst(statuses: seq<Status>)
    ensures OverallStatus(statuses) == Worst(statuses)
  {
    if statuses != [] {
      OverallIsWorst(statuses[1..]);
      var rest := statuses[1..];
      assert forall x :: x in statuses <==> x == statuses[0] || x in rest;
      if Unknown in statuses && Failed !in statuses && Warning !in statuses {
        var k :| 0 <= k < |statuses| && statuses[k] == Unknown;
        assert statuses[k] != Passed;
      }
    }
  }

  /** An empty set of gates passes. */
  lemma NoGatesPass()
    ensures OverallStatus([]) == Passed
  {
  }

  /** The gate summary of `_generate_summary`. */
  datatype GateSummary = GateSummary(total: nat, passed: nat, warnings: nat, failed: nat, criticalIssues: seq<string>)

  function Summarize(gates: seq<(string, Status)>): (r: GateSummary)
    ensures r.total == |gates|
    ensures r.passed + r.warnings + r.failed <= r.total
    ensures |r.criticalIssues| == r.failed
  {
    if gates == [] then GateSummary(0, 0, 0, 0, [])
    else
      var rest := Summarize(gates[1..]);
      var (name, status) := gates[0];
      GateSummary(
        rest.total + 1,
        rest.passed + (if status == Passed then 1 else 0),
        rest.warnings + (if status == Warning then 1 else 0),
        rest.failed + (if status == Failed then 1 else 0),
        (if status == Failed then [name] else []) + rest.criticalIssues)
  }

  /** The critical issues are the names of the failed gates, in order: every
      listed name belongs to a failed gate and every failed gate is listed. */
  lemma {:induction false} CriticalIssuesAreFailedGates(gates: seq<(string, Status)>)
    ensures forall name :: name in Summarize(gates).criticalIssues <==> (name, Failed) in gates
  {
    if gates != [] {
      CriticalIssuesAreFailedGates(gates[1..]);
      assert forall g :: g in gates <==> g == gates[0] || g in gates[1..];
    }
  }

  /** Each count of the summary is the number of gates with that status. */
  lemma {:induction false} SummaryStatusCounts(gates: seq<(string, Status)>)
    ensures Summarize(gates).passed == multiset(Statuses(gates))[Passed]
    ensures Summarize(gates).warnings == multiset(Statuses(gates))[Warning]
    ensures Summarize(gates).failed == multiset(Statuses(gates))[Failed]
    ensures Summarize(gates).total
              == Summarize(gates).passed + Summarize(gates).warnings + Summarize(gates).failed
                 + multiset(Statuses(gates))[Unknown]
  {
    if gates != [] {
      SummaryStatusCounts(gates[1..]);
      assert Statuses(gates) == [gates[0].1] + Statuses(gates[1..]);
    }
  }

  /** No gate failed exactly when the failure count is 0, and every gate
      passed exactly when the pass count is the total. */
  lemma {:induction false} SummaryCounts(gates: seq<(string, Status)>)
    ensures Summarize(gates).failed == 0 <==> forall i :: 0 <= i < |gates| ==> gates[i].1 != Failed
    ensures Summarize(gates).passed == |gates| <==> forall i :: 0 <= i < |gates| ==> gates[i].1 == Passed
  {
    if gates != [] {
      SummaryCounts(gates[1..]);
      assert forall i :: 1 <= i < |gates| ==> gates[i] == gates[1..][i - 1];
    }
  }

  function Statuses(gates: seq<(string, Status)>): (ss: seq<Status>)
    ensures |ss| == |gates| && forall i :: 0 <= i < |gates| ==> ss[i] == gates[i].1
  {
    seq(|gates|, i requires 0 <= i < |gates| => gates[i].1)
  }

  /** The summary and the overall status agree: the summary lists a failed
      gate exactly when the overall status is failed, and counts every gate as
      passed exactly when the overall status is passed. */
  lemma SummaryAgreesWithOverall(gates: seq<(string, Status)>)
    ensures Summarize(gates).failed > 0 <==> OverallStatus(Statuses(gates)) == Failed
    ensures Summarize(gates).passed == |gates| <==> OverallStatus(Statuses(gates)) == Passed
  {
    var ss := Statuses(gates);
    SummaryCounts(gates);
    if Failed in ss {
      var i :| 0 <= i < |ss| && ss[i] == Failed;
      assert gates[i].1 == Failed;
    }
  }

  /** Exit code of `main`: warnings do not block. */
  function ExitCode(overall: Status): (code: int)
    ensures code == 0 <==> overall == Passed || overall == Warning
    ensures code == 0 || code == 1
  {
    match overall
    case Passed => 0
    case Warning => 0
    case Failed => 1
    case Unknown => 1
  }

  /** The run exits 0 exactly when no gate failed and either some gate warned
      or every gate passed. */
  lemma ExitCodeOfGates(statuses: seq<Status>)
    ensures ExitCode(OverallStatus(statuses)) == 0 <==>
      Failed !in statuses && (Warning in statuses || forall i :: 0 <= i < |statuses| ==> statuses[i] == Passed)
  {
  }

  /** The four gates in the order `run_all_quality_gates` runs them. */
  function GateResults(lint: Status, complexity: Status, security: Status, review: Status): seq<(string, Status)> {
    [("linting", lint), ("complexity", complexity), ("security", security), ("review", review)]
  }
}

=== FILE: security_scan.dfy ===
/** The security scanner (`SecurityScanner` in
    quality-gates/security/scan_security.py): the one-line checks for Python,
    shell and configuration files, where the first matching rule wins, the
    per-file scan that numbers lines from 1, and the severity summary and
    recommendations. */
module SecurityScan {
  import opened Text
  import opened Common

  /** What a finding reports. */
  datatype Threat =
    // Python
    | EvalCall | ExecCall | OsSystem | SubprocessCall | PickleLoad | YamlLoad | InputCall
    | HardcodedSecret | SqlInjection | PathTraversal
    // shell
    | RootDelete | WorldPermissions | CurlToShell | WgetToShell | Sudo
    | VariableInjection | HardcodedPassword
    // configuration
    | SensitiveConfig
    // a file that could not be read (`config` for the configuration scan,
    // whose message differs)
    | Unreadable(config: bool)

  function SeverityOf(t: Threat): Severity {
    match t
    case EvalCall => Critical
    case ExecCall => Critical
    case RootDelete => Critical
    case SubprocessCall => Medium
    case InputCall => Medium
    case PathTraversal => Medium
    case Sudo => Medium
    case SensitiveConfig => Medium
    case Unreadable(_) => Info
    case _ => High
  }

  /** A reported vulnerability. `code` is the stripped line; a file that could
      not be read has none. */
  datatype Vuln = Vuln(file: string, line: nat, threat: Threat, code: Option<string>)

  // ---------------------------------------------------------------------
  // The regular expressions of the secret, SQL and password checks, written
  // out as conditions on character positions. `\s` is `IsSpace`; `.` is any
  // character, which is exact here because a scanned line never holds a
  // newline (`ScannedLinesHaveNoNewline`).

  predicate QuoteChar(c: char) {
    c == '"' || c == '\''
  }

  /** Some quote follows position `i`. */
  predicate QuoteAfter(s: string, i: nat) {
    exists k :: i < k < |s| && QuoteChar(s[k])
  }

  /** `\s*["'][^"']*["']` at `i`: the next non-space character is a quote and
      another quote follows it (the first one closes the match). */
  predicate QuotedValueAt(s: string, i: nat)
    requires i <= |s|
  {
    var j := SkipSpace(s, i);
    j < |s| && QuoteChar(s[j]) && QuoteAfter(s, j)
  }

  /** `kw\s*=\s*["'][^"']*["']` matched at `i`. */
  predicate AssignmentAt(s: string, kw: string, i: int) {
    OccursAt(s, kw, i) &&
    var j := SkipSpace(s, i + |kw|);
    j < |s| && s[j] == '=' && QuotedValueAt(s, j + 1)
  }

  /** `re.search(kw + r'\s*=\s*["\'][^"\']*["\']', s, re.IGNORECASE)` for a
      lower-case keyword. */
  predicate AssignsQuoted(s: string, kw: string) {
    exists i :: 0 <= i < |s| && AssignmentAt(Lower(s), kw, i)
  }

  /** `execute\s*\(\s*["'].*?%.*["']` at `i`: a string literal opened right
      after `execute(` with a `%` and a later quote. */
  predicate PercentFormatAt(s: string, i: int) {
    OccursAt(s, "execute", i) &&
    var j := SkipSpace(s, i + 7);
    j < |s| && s[j] == '(' &&
    var k := SkipSpace(s, j + 1);
    k < |s| && QuoteChar(s[k]) && PercentThenQuote(s, k)
  }

  predicate PercentThenQuote(s: string, k: nat) {
    exists p :: k < p < |s| && s[p] == '%' && QuoteAfter(s, p)
  }

  /** `cursor\.execute\s*\(\s*f["']` at `i`: an f-string passed to `cursor.execute`. */
  predicate FStringExecuteAt(s: string, i: int) {
    OccursAt(s, "cursor.execute", i) &&
    var j := SkipSpace(s, i + 14);
    j < |s| && s[j] == '(' &&
    var k := SkipSpace(s, j + 1);
    k + 1 < |s| && s[k] == 'f' && QuoteChar(s[k + 1])
  }

  /** `["'].*?\s*\+.*?\s*["'].*?execute`: a quote, then a `+`, then a quote,
      then `execute`. */
  predicate ConcatThenExecute(s: string) {
    exists a :: 0 <= a < |s| && QuoteChar(s[a]) && PlusAfter(s, a)
  }

  predicate PlusAfter(s: string, a: nat) {
    exists b :: a < b < |s| && s[b] == '+' && QuoteThenExecute(s, b)
  }

  predicate QuoteThenExecute(s: string, b: nat) {
    exists c :: b < c < |s| && QuoteChar(s[c]) && ExecuteAfter(s, c)
  }

  predicate ExecuteAfter(s: string, c: nat) {
    exists d :: c < d < |s| && OccursAt(s, "execute", d)
  }

  // ---------------------------------------------------------------------
  // The line checks

  /** Whether the rule for threat `t` matches the (stripped) line. */
  predicate Detects(line: string, t: Threat) {
    match t
    case EvalCall => Contains(line, "eval(")
    case ExecCall => Contains(line, "exec(")
    case OsSystem => Contains(line, "os.system(")
    case SubprocessCall => Contains(line, "subprocess.call(")
    case PickleLoad => Contains(line, "pickle.load(")
    case YamlLoad => Contains(line, "yaml.load(")
    case InputCall => Contains(line, "input(")
    case HardcodedSecret =>
      AssignsQuoted(line, "password") || AssignsQuoted(line, "secret")
      || AssignsQuoted(line, "key") || AssignsQuoted(line, "token")
    case SqlInjection =>
      (exists i :: 0 <= i < |line| && PercentFormatAt(line, i))
      || (exists i :: 0 <= i < |line| && FStringExecuteAt(line, i))
      || ConcatThenExecute(line)
    case PathTraversal => Contains(line, "../") || Contains(line, "..\\")
    case RootDelete => Contains(line, "rm -rf /")
    case WorldPermissions => Contains(line, "chmod 777")
    case CurlToShell => Contains(line, "curl | bash")
    case WgetToShell => Contains(line, "wget | bash")
    case Sudo => Contains(line, "sudo ")
    case VariableInjection => Contains(line, "$") && (Contains(line, "eval") || Contains(line, "source"))
    case HardcodedPassword =>
      AssignsQuoted(line, "password") || AssignsQuoted(line, "passwd")
    case SensitiveConfig => SensitiveKeyword(Lower(line)) && (Contains(line, "=") || Contains(line, ":"))
    case Unreadable(_) => false
  }

  predicate SensitiveKeyword(low: string) {
    Contains(low, "password") || Contains(low, "secret") || Contains(low, "key") || Contains(low, "token")
  }

  /** The kind of file being scanned. */
  datatype Source = PythonSource | ShellSource | ConfigSource

  /** The rules of each kind of file, in the order they are tried: the
      dangerous calls in the order of their dictionary, then secrets, SQL and
      path traversal for Python; the dangerous commands, then variable
      injection and passwords for shell; the one sensitive-data rule for
      configuration. */
  function Order(src: Source): seq<Threat> {
    match src
    case PythonSource =>
      [EvalCall, ExecCall, OsSystem, SubprocessCall, PickleLoad, YamlLoad, InputCall,
       HardcodedSecret, SqlInjection, PathTraversal]
    case ShellSource =>
      [RootDelete, WorldPermissions, CurlToShell, WgetToShell, Sudo, VariableInjection, HardcodedPassword]
    case ConfigSource => [SensitiveConfig]
  }

  /** The position of the first rule of `order`, from `from` on, that matches
      `line`; `|order|` when none does. */
  function FirstDetected(line: string, order: seq<Threat>, from: nat): (i: nat)
    requires from <= |order|
    ensures from <= i <= |order|
    ensures forall j :: from <= j < i ==> !Detects(line, order[j])
    ensures i < |order| ==> Detects(line, order[i])
    decreases |order| - from
  {
    if from == |order| || Detects(line, order[from]) then from else FirstDetected(line, order, from + 1)
  }

  /** `_check_python_vulnerability`, `_check_shell_vulnerability` and the
      configuration line check: at most one threat per line, the first rule
      that matches. */
  function LineThreat(src: Source, line: string): (r: Option<Threat>)
    ensures r.Some? ==> Detects(line, r.value) && r.value in Order(src)
  {
    var i := FirstDetected(line, Order(src), 0);
    if i < |Order(src)| then Some(Order(src)[i]) else None
  }

  /** The threat reported for a line is the first rule, in order, that
      matches it... */
  lemma FirstRuleWins(src: Source, line: string)
    requires LineThreat(src, line).Some?
    ensures exists i :: 0 <= i < |Order(src)| && Order(src)[i] == LineThreat(src, line).value
                        && forall j :: 0 <= j < i ==> !Detects(line, Order(src)[j])
  {
    var i := FirstDetected(line, Order(src), 0);
    assert Order(src)[i] == LineThreat(src, line).value;
  }

  /** ...and a line is passed exactly when no rule matches it. */
  lemma NothingDetected(src: Source, line: string)
    ensures LineThreat(src, line).None? <==> forall t :: t in Order(src) ==> !Detects(line, t)
  {
    var order := Order(src);
    var i := FirstDetected(line, order, 0);
    if i == |order| {
      forall t | t in order ensures !Detects(line, t) {
        var j :| 0 <= j < |order| && order[j] == t;
      }
    }
  }

  /** A rule that matches settles the line unless an earlier one does. */
  lemma MatchSettles(src: Source, line: string, k: nat)
    requires k < |Order(src)| && Detects(line, Order(src)[k])
    ensures FirstDetected(line, Order(src), 0) <= k
    ensures (forall j :: 0 <= j < k ==> !Detects(line, Order(src)[j])) ==>
      LineThreat(src, line) == Some(Order(src)[k])
  {
  }

  /** A Python line holding `eval(` or `exec(` is critical, whatever else it
      holds. */
  lemma EvalOrExecIsCritical(line: string)
    requires Contains(line, "eval(") || Contains(line, "exec(")
    ensures LineThreat(PythonSource, line) in {Some(EvalCall), Some(ExecCall)}
    ensures SeverityOf(LineThreat(PythonSource, line).value) == Critical
  {
    if Contains(line, "eval(") {
      MatchSettles(PythonSource, line, 0);
    } else {
      MatchSettles(PythonSource, line, 1);
    }
  }

  lemma EvalIsFlagged(line: string)
    requires Contains(line, "eval(")
    ensures LineThreat(PythonSource, line) == Some(EvalCall)
  {
    MatchSettles(PythonSource, line, 0);
  }

  /** The substring test also catches `ast.literal_eval(`, the very call the
      eval advice recommends. */
  lemma LiteralEvalIsFlagged(line: string)
    requires Contains(line, "literal_eval(")
    ensures LineThreat(PythonSource, line) == Some(EvalCall)
  {
    assert "literal_eval(" == "literal_" + "eval(";
    ContainsSuffixOfNeedle(line, "literal_", "eval(");
    EvalIsFlagged(line);
  }

  /** A Python line with `../` or `..\` that no earlier rule catches is a
      medium path-traversal finding. */
  lemma PathTraversalIsMedium(line: string)
    requires Contains(line, "../") || Contains(line, "..\\")
    requires forall j :: 0 <= j < 9 ==> !Detects(line, Order(PythonSource)[j])
    ensures LineThreat(PythonSource, line) == Some(PathTraversal)
    ensures SeverityOf(PathTraversal) == Medium
  {
    MatchSettles(PythonSource, line, 9);
  }

  /** In shell, `rm -rf /` is tried first, so it is always critical. */
  lemma RootDeleteIsCritical(line: string)
    requires Contains(line, "rm -rf /")
    ensures LineThreat(ShellSource, line) == Some(RootDelete)
    ensures SeverityOf(RootDelete) == Critical
  {
    MatchSettles(ShellSource, line, 0);
  }

  /** A `$` with `eval` or `source` is a high finding when no dangerous
      command matched. */
  lemma VariableInjectionIsHigh(line: string)
    requires Contains(line, "$") && (Contains(line, "eval") || Contains(line, "source"))
    requires forall j :: 0 <= j < 5 ==> !Detects(line, Order(ShellSource)[j])
    ensures LineThreat(ShellSource, line) == Some(VariableInjection)
    ensures SeverityOf(VariableInjection) == High
  {
    MatchSettles(ShellSource, line, 5);
  }

  /** A configuration line is flagged, as medium, exactly when its lower-case
      form names a password, secret, key or token and it holds `=` or `:`. */
  lemma ConfigLineRule(line: string)
    ensures LineThreat(ConfigSource, line).Some? <==>
      SensitiveKeyword(Lower(line)) && (Contains(line, "=") || Contains(line, ":"))
    ensures LineThreat(ConfigSource, line).Some? ==> SeverityOf(LineThreat(ConfigSource, line).value) == Medium
  {
  }

  // ---------------------------------------------------------------------
  // Case

  lemma LowerIdempotent(s: string)
    ensures Lower(Lower(s)) == Lower(s)
  {
    assert forall i :: 0 <= i < |s| ==> Lower(Lower(s))[i] == Lower(s)[i];
  }

  lemma LowerOfUpper(s: string)
    ensures Lower(Upper(s)) == Lower(s)
  {
    assert forall i :: 0 <= i < |s| ==> Lower(Upper(s))[i] == Lower(s)[i];
  }

  /** Strings of one length that hold `c` at the same positions agree on
      whether they contain `c`. */
  lemma SamePositions(s: string, t: string, c: char)
    requires |s| == |t| && forall i :: 0 <= i < |s| ==> (s[i] == c <==> t[i] == c)
    ensures Contains(s, [c]) <==> Contains(t, [c])
  {
    ContainsIff(s, [c]);
    ContainsIff(t, [c]);
    if exists i :: OccursAt(s, [c], i) {
      var i :| OccursAt(s, [c], i);
      OccursAtChar(s, c, i);
      OccursAtChar(t, c, i);
    }
    if exists i :: OccursAt(t, [c], i) {
      var i :| OccursAt(t, [c], i);
      OccursAtChar(t, c, i);
      OccursAtChar(s, c, i);
    }
  }

  /** A one-character pattern occurs where that character stands. */
  lemma OccursAtChar(s: string, c: char, i: int)
    ensures OccursAt(s, [c], i) <==> 0 <= i < |s| && s[i] == c
  {
    if 0 <= i < |s| {
      assert s[i..i + 1] == [s[i]];
    }
  }

  /** Changing letter case moves no `=` or `:`. */
  lemma CaseKeepsPunctuation(s: string)
    ensures Contains(Lower(s), "=") <==> Contains(s, "=")
    ensures Contains(Lower(s), ":") <==> Contains(s, ":")
    ensures Contains(Upper(s), "=") <==> Contains(s, "=")
    ensures Contains(Upper(s), ":") <==> Contains(s, ":")
  {
    SamePositions(Lower(s), s, '=');
    SamePositions(Lower(s), s, ':');
    SamePositions(Upper(s), s, '=');
    SamePositions(Upper(s), s, ':');
  }

  /** The configuration rule ignores letter case: a line is flagged exactly
      when its lower-case or its upper-case form is. */
  lemma SensitiveConfigIgnoresCase(line: string)
    ensures Detects(Lower(line), SensitiveConfig) <==> Detects(line, SensitiveConfig)
    ensures Detects(Upper(line), SensitiveConfig) <==> Detects(line, SensitiveConfig)
  {
    LowerIdempotent(line);
    LowerOfUpper(line);
    CaseKeepsPunctuation(line);
  }

  /** The secret and password patterns are matched ignoring case. */
  lemma SecretsIgnoreCase(line: string)
    ensures Detects(Upper(line), HardcodedSecret) <==> Detects(line, HardcodedSecret)
    ensures Detects(Upper(line), HardcodedPassword) <==> Detects(line, HardcodedPassword)
  {
    LowerOfUpper(line);
  }

  // ---------------------------------------------------------------------
  // Files

  /** What one line, numbered `n`, contributes to its file's findings. */
  function LineVulns(src: Source, line: string, n: nat, file: string): (r: seq<Vuln>)
    ensures |r| <= 1
    ensures forall k :: 0 <= k < |r| ==> r[k].file == file && r[k].line == n && !r[k].threat.Unreadable?
  {
    var clean := Strip(line);
    match LineThreat(src, clean)
    case None => []
    case Some(t) => [Vuln(file, n, t, Some(clean))]
  }

  /** The findings of each line, numbered from `first`. */
  function PerLineVulns(src: Source, lines: seq<string>, first: nat, file: string): (r: seq<seq<Vuln>>)
    ensures |r| == |lines|
  {
    MapNumbered((l: string, n: nat) => LineVulns(src, l, n, file), lines, first)
  }

  /** Entry `i` of `PerLineVulns` is what line `first + i` contributes. */
  lemma PerLineVulnsAt(src: Source, lines: seq<string>, first: nat, file: string, i: nat)
    requires i < |lines|
    ensures PerLineVulns(src, lines, first, file)[i] == LineVulns(src, lines[i], first + i, file)
  {
  }

  /** Groups of findings, group `i` on line `first + i` of `file` and at most
      one finding each, none of them an unreadable file. */
  predicate Numbered(groups: seq<seq<Vuln>>, first: nat, file: string) {
    forall i :: 0 <= i < |groups| ==> OneOnLine(groups[i], first + i, file)
  }

  /** At most one finding, on line `n` of `file`, and not an unreadable file. */
  predicate OneOnLine(g: seq<Vuln>, n: nat, file: string) {
    |g| <= 1 && forall k :: 0 <= k < |g| ==> g[k].file == file && g[k].line == n && !g[k].threat.Unreadable?
  }

  lemma PerLineVulnsNumbered(src: Source, lines: seq<string>, first: nat, file: string)
    ensures Numbered(PerLineVulns(src, lines, first, file), first, file)
  {
    var groups := PerLineVulns(src, lines, first, file);
    forall i | 0 <= i < |groups| ensures OneOnLine(groups[i], first + i, file) {
      PerLineVulnsAt(src, lines, first, file, i);
    }
  }

  /** The groups one after the other. */
  function Flatten(groups: seq<seq<Vuln>>): seq<Vuln> {
    if groups == [] then [] else groups[0] + Flatten(groups[1..])
  }

  lemma NumberedTail(groups: seq<seq<Vuln>>, first: nat, file: string)
    requires groups != [] && Numbered(groups, first, file)
    ensures Numbered(groups[1..], first + 1, file)
  {
    forall i | 0 <= i < |groups[1..]| ensures OneOnLine(groups[1..][i], first + 1 + i, file) {
      assert groups[1..][i] == groups[i + 1];
    }
  }

  /** A finding of a line scan of `count` lines from `first`. */
  predicate WithinLines(v: Vuln, first: nat, count: nat, file: string) {
    v.file == file && first <= v.line < first + count && !v.threat.Unreadable?
  }

  /** Flattened numbered groups: no more findings than groups, each in the
      file, on one of the groups' lines, and none an unreadable file. */
  lemma {:induction false} FlattenNumbered(groups: seq<seq<Vuln>>, first: nat, file: string)
    requires Numbered(groups, first, file)
    ensures |Flatten(groups)| <= |groups|
    ensures forall k :: 0 <= k < |Flatten(groups)| ==> WithinLines(Flatten(groups)[k], first, |groups|, file)
  {
    if groups != [] {
      NumberedTail(groups, first, file);
      FlattenNumbered(groups[1..], first + 1, file);
      var rest := Flatten(groups[1..]);
      assert Flatten(groups) == groups[0] + rest;
      assert OneOnLine(groups[0], first, file);
      forall k | 0 <= k < |Flatten(groups)| ensures WithinLines(Flatten(groups)[k], first, |groups|, file) {
        if k >= |groups[0]| {
          assert Flatten(groups)[k] == rest[k - |groups[0]|];
        }
      }
    }
  }

  /** The findings of flattened numbered groups on line `first + i` are
      group `i`. */
  lemma {:induction false} FlattenOnLine(groups: seq<seq<Vuln>>, first: nat, file: string, i: nat)
    requires Numbered(groups, first, file) && i < |groups|
    ensures OnLine(Flatten(groups), first + i) == groups[i]
  {
    NumberedTail(groups, first, file);
    assert OneOnLine(groups[0], first, file);
    var rest := Flatten(groups[1..]);
    OnLineAppend(groups[0], rest, first + i);
    assert Flatten(groups) == groups[0] + rest;
    if i == 0 {
      FlattenNumbered(groups[1..], first + 1, file);
      OnLineAbsent(rest, first);
      OnLineAll(groups[0], first);
    } else {
      OnLineAbsent(groups[0], first + i);
      FlattenOnLine(groups[1..], first + 1, file, i - 1);
      assert groups[1..][i - 1] == groups[i];
    }
  }

  /** The line loop of `_scan_python_file`, `_scan_shell_file` and
      `_scan_config_file`, lines numbered from `first`: every line, blank or
      comment included, is stripped and checked. */
  function ScanLines(src: Source, lines: seq<string>, first: nat, file: string): (r: seq<Vuln>)
    ensures |r| <= |lines|
    ensures forall k :: 0 <= k < |r| ==> WithinLines(r[k], first, |lines|, file)
  {
    PerLineVulnsNumbered(src, lines, first, file);
    FlattenNumbered(PerLineVulns(src, lines, first, file), first, file);
    Flatten(PerLineVulns(src, lines, first, file))
  }

  /** The findings of `vs` on line `n`, in order. */
  function OnLine(vs: seq<Vuln>, n: nat): (r: seq<Vuln>)
    ensures |r| <= |vs|
  {
    if vs == [] then []
    else (if vs[0].line == n then [vs[0]] else []) + OnLine(vs[1..], n)
  }

  /** What `OnLine` returns is taken from its input. */
  lemma {:induction false} OnLineFrom(vs: seq<Vuln>, n: nat, k: nat)
    requires k < |OnLine(vs, n)|
    ensures OnLine(vs, n)[k] in vs && OnLine(vs, n)[k].line == n
  {
    var head := if vs[0].line == n then [vs[0]] else [];
    if k >= |head| {
      OnLineFrom(vs[1..], n, k - |head|);
      assert OnLine(vs, n)[k] == OnLine(vs[1..], n)[k - |head|];
    }
  }

  lemma {:induction false} OnLineAppend(a: seq<Vuln>, b: seq<Vuln>, n: nat)
    ensures OnLine(a + b, n) == OnLine(a, n) + OnLine(b, n)
  {
    if a != [] {
      assert (a + b)[1..] == a[1..] + b;
      OnLineAppend(a[1..], b, n);
    } else {
      assert a + b == b;
    }
  }

  lemma {:induction false} OnLineAbsent(vs: seq<Vuln>, n: nat)
    requires forall k :: 0 <= k < |vs| ==> vs[k].line != n
    ensures OnLine(vs, n) == []
  {
    if vs != [] {
      OnLineAbsent(vs[1..], n);
    }
  }

  lemma {:induction false} OnLineAll(vs: seq<Vuln>, n: nat)
    requires forall k :: 0 <= k < |vs| ==> vs[k].line == n
    ensures OnLine(vs, n) == vs
  {
    if vs != [] {
      OnLineAll(vs[1..], n);
    }
  }

  /** What the scan reports on line `first + i` is exactly that line's own
      check: its one finding if a rule matches, nothing otherwise. */
  lemma ScanReportsEachLine(src: Source, lines: seq<string>, first: nat, file: string, i: nat)
    requires i < |lines|
    ensures OnLine(ScanLines(src, lines, first, file), first + i) == LineVulns(src, lines[i], first + i, file)
  {
    PerLineVulnsNumbered(src, lines, first, file);
    FlattenOnLine(PerLineVulns(src, lines, first, file), first, file, i);
    PerLineVulnsAt(src, lines, first, file, i);
  }

  /** `_scan_python_file`, `_scan_shell_file` and `_scan_config_file`: the
      content split at newlines and scanned from line 1; a file that cannot
      be read gets exactly one informational finding, at line 0. */
  function ScanFile(src: Source, file: string, content: Option<string>): (r: seq<Vuln>)
    ensures content.None? ==> |r| == 1 && r[0].line == 0 && SeverityOf(r[0].threat) == Info
    ensures content.Some? ==> forall k :: 0 <= k < |r| ==> r[k].line >= 1 && SeverityOf(r[k].threat) != Info
  {
    match content
    case None => [Vuln(file, 0, Unreadable(src == ConfigSource), None)]
    case Some(text) =>
      var r := ScanLines(src, SplitOn(text, '\n'), 1, file);
      OnlyUnreadableIsInfo(r);
      r
  }

  /** Only an unreadable file gives an informational finding. */
  lemma OnlyUnreadableIsInfo(vs: seq<Vuln>)
    ensures forall k :: 0 <= k < |vs| ==> (SeverityOf(vs[k].threat) == Info <==> vs[k].threat.Unreadable?)
  {
  }

  /** A readable file gets at most one finding per line. */
  lemma OneFindingPerLine(src: Source, file: string, text: string, n: nat)
    ensures |OnLine(ScanFile(src, file, Some(text)), n)| <= 1
  {
    var lines := SplitOn(text, '\n');
    var groups := PerLineVulns(src, lines, 1, file);
    PerLineVulnsNumbered(src, lines, 1, file);
    assert ScanFile(src, file, Some(text)) == Flatten(groups);
    NumberedOnePerLine(groups, 1, file, n);
  }

  /** Numbered groups flatten to at most one finding per line. */
  lemma NumberedOnePerLine(groups: seq<seq<Vuln>>, first: nat, file: string, n: nat)
    requires Numbered(groups, first, file)
    ensures |OnLine(Flatten(groups), n)| <= 1
  {
    if first <= n < first + |groups| {
      FlattenOnLine(groups, first, file, n - first);
      assert OneOnLine(groups[n - first], n, file);
    } else {
      FlattenNumbered(groups, first, file);
      OnLineAbsent(Flatten(groups), n);
    }
  }

  /** The lines the scanner checks never hold a newline. */
  lemma ScannedLinesHaveNoNewline(text: string, k: nat)
    requires k < |SplitOn(text, '\n')|
    ensures '\n' !in Strip(SplitOn(text, '\n')[k])
  {
    var line := SplitOn(text, '\n')[k];
    StripIsInfix(line);
    var a: nat :| StrippedAt(line, Strip(line), a);
  }

  // ---------------------------------------------------------------------
  // Summary and recommendations

  datatype SeverityCounts = SeverityCounts(critical: nat, high: nat, medium: nat, low: nat, info: nat)

  /** `total_vulnerabilities`: the five severity counts added up. */
  function TotalOf(c: SeverityCounts): nat {
    c.critical + c.high + c.medium + c.low + c.info
  }

  /** The severity buckets as created; nothing is ever added to them. */
  function NoCounts(): SeverityCounts { SeverityCounts(0, 0, 0, 0, 0) }

  function AddSeverity(c: SeverityCounts, s: Severity): (r: SeverityCounts)
    ensures TotalOf(r) == TotalOf(c) + 1
  {
    match s
    case Critical => c.(critical := c.critical + 1)
    case High => c.(high := c.high + 1)
    case Medium => c.(medium := c.medium + 1)
    case Low => c.(low := c.low + 1)
    case Info => c.(info := c.info + 1)
  }

  /** The number of findings of severity `s`. */
  function CountOf(vs: seq<Vuln>, s: Severity): nat {
    if vs == [] then 0 else (if SeverityOf(vs[0].threat) == s then 1 else 0) + CountOf(vs[1..], s)
  }

  /** The severity counts of a list of findings. */
  function Tally(vs: seq<Vuln>): (c: SeverityCounts)
    ensures TotalOf(c) == |vs|
  {
    if vs == [] then NoCounts() else AddSeverity(Tally(vs[1..]), SeverityOf(vs[0].threat))
  }

  /** The count of severity `s` in `c`. */
  function CountIn(c: SeverityCounts, s: Severity): nat {
    match s
    case Critical => c.critical
    case High => c.high
    case Medium => c.medium
    case Low => c.low
    case Info => c.info
  }

  /** The count `Tally` keeps for `s` is the number of findings of severity
      `s`. */
  lemma {:induction false} TallyCount(vs: seq<Vuln>, s: Severity)
    ensures CountIn(Tally(vs), s) == CountOf(vs, s)
  {
    if vs != [] {
      TallyCount(vs[1..], s);
      AddSeverityCount(Tally(vs[1..]), SeverityOf(vs[0].threat), s);
    }
  }

  /** Adding a finding of severity `t` raises the count of `t` by one and
      leaves the others. */
  lemma AddSeverityCount(c: SeverityCounts, t: Severity, s: Severity)
    ensures CountIn(AddSeverity(c, t), s) == CountIn(c, s) + (if t == s then 1 else 0)
  {
  }

  /** Each count of `Tally` is the number of findings of that severity. */
  lemma TallyCounts(vs: seq<Vuln>)
    ensures Tally(vs).critical == CountOf(vs, Critical)
    ensures Tally(vs).high == CountOf(vs, High)
    ensures Tally(vs).medium == CountOf(vs, Medium)
    ensures Tally(vs).low == CountOf(vs, Low)
    ensures Tally(vs).info == CountOf(vs, Info)
  {
    TallyCount(vs, Critical);
    TallyCount(vs, High);
    TallyCount(vs, Medium);
    TallyCount(vs, Low);
    TallyCount(vs, Info);
  }

  /** A severity is counted exactly when some finding has it. */
  lemma {:induction false} CountOfPositive(vs: seq<Vuln>, s: Severity)
    ensures CountOf(vs, s) > 0 <==> exists k :: 0 <= k < |vs| && SeverityOf(vs[k].threat) == s
  {
    if vs != [] {
      CountOfPositive(vs[1..], s);
      if exists k :: 0 <= k < |vs[1..]| && SeverityOf(vs[1..][k].threat) == s {
        var k :| 0 <= k < |vs[1..]| && SeverityOf(vs[1..][k].threat) == s;
        assert vs[k + 1] == vs[1..][k];
      }
      if exists k :: 0 <= k < |vs| && SeverityOf(vs[k].threat) == s {
        var k :| 0 <= k < |vs| && SeverityOf(vs[k].threat) == s;
        if k > 0 {
          assert vs[1..][k - 1] == vs[k];
        }
      }
    }
  }

  datatype Advice =
    | AddressCritical(count: nat)
    | FixHigh(count: nat)
    | ReviewMedium(count: nat)
    | NoneFound
    | UseEnvironment
    | ValidateInput
    | ParameterizeQueries
    | LeastPrivilege
    | ScanDependencies

  /** The five items every report ends with. */
  function StandingAdvice(): seq<Advice> {
    [UseEnvironment, ValidateInput, ParameterizeQueries, LeastPrivilege, ScanDependencies]
  }

  /** `_generate_recommendations`: one item per non-empty critical, high and
      medium bucket, the all-clear when nothing was found, then the standing
      advice. */
  function Recommendations(c: SeverityCounts): (r: seq<Advice>)
    ensures |r| >= 5 && r[|r| - 5..] == StandingAdvice()
    ensures NoneFound in r <==> TotalOf(c) == 0
    ensures AddressCritical(c.critical) in r <==> c.critical > 0
    ensures FixHigh(c.high) in r <==> c.high > 0
    ensures ReviewMedium(c.medium) in r <==> c.medium > 0
  {
    var head := Urgent(c);
    var standing := StandingAdvice();
    assert NoneFound !in standing && AddressCritical(c.critical) !in standing;
    assert FixHigh(c.high) !in standing && ReviewMedium(c.medium) !in standing;
    assert (head + standing)[|head|..] == standing;
    head + standing
  }

  /** The items before the standing advice: one per non-empty critical,
      high and medium bucket, or the all-clear when nothing was found. */
  function Urgent(c: SeverityCounts): (r: seq<Advice>)
    ensures NoneFound in r <==> TotalOf(c) == 0
    ensures AddressCritical(c.critical) in r <==> c.critical > 0
    ensures FixHigh(c.high) in r <==> c.high > 0
    ensures ReviewMedium(c.medium) in r <==> c.medium > 0
    ensures forall a :: a in r ==> a.AddressCritical? || a.FixHigh? || a.ReviewMedium? || a.NoneFound?
  {
    (if c.critical > 0 then [AddressCritical(c.critical)] else [])
    + (if c.high > 0 then [FixHigh(c.high)] else [])
    + (if c.medium > 0 then [ReviewMedium(c.medium)] else [])
    + (if TotalOf(c) == 0 then [NoneFound] else [])
  }

  /** The all-clear never stands next to a call to fix something, and a
      clean scan gets the all-clear and the standing advice only. */
  lemma AllClearIsConsistent(c: SeverityCounts)
    ensures NoneFound in Recommendations(c) ==>
      forall a :: a in Recommendations(c) ==> !(a.AddressCritical? || a.FixHigh? || a.ReviewMedium?)
    ensures TotalOf(c) == 0 ==> Recommendations(c) == [NoneFound] + StandingAdvice()
  {
  }

  // ---------------------------------------------------------------------
  // The whole scan

  /** The results of one group of files: how many were scanned and what was
      found. The general checks report findings only. */
  datatype Section = Scanned(filesScanned: nat, vulns: seq<Vuln>) | General(vulns: seq<Vuln>)

  datatype SecurityReport = SecurityReport(
    sections: seq<(string, Section)>,
    summary: SeverityCounts,
    recommendations: seq<Advice>)

  /** `scan_python_files`, `scan_shell_scripts`, `scan_config_files`: no
      result when there is no such file, otherwise every file's findings in
      the order the files are given. */
  function ScanGroup(src: Source, files: seq<(string, Option<string>)>): (r: Option<Section>)
    ensures r.None? <==> files == []
    ensures r.Some? ==> r.value.Scanned? && r.value.filesScanned == |files|
  {
    if files == [] then None else Some(Scanned(|files|, ScanFiles(src, files)))
  }

  function ScanFiles(src: Source, files: seq<(string, Option<string>)>): seq<Vuln> {
    if files == [] then [] else ScanFile(src, files[0].0, files[0].1) + ScanFiles(src, files[1..])
  }

  function Include(name: string, s: Option<Section>): seq<(string, Section)> {
    if s.Some? then [(name, s.value)] else []
  }

  /** The sections a full scan reports, present only when non-empty. The
      general checks (world-writable and very large files) are given. */
  function Sections(python: seq<(string, Option<string>)>, shell: seq<(string, Option<string>)>,
                    config: seq<(string, Option<string>)>, general: seq<Vuln>): seq<(string, Section)>
  {
    Include("python", ScanGroup(PythonSource, python))
    + Include("shell", ScanGroup(ShellSource, shell))
    + Include("config", ScanGroup(ConfigSource, config))
    + Include("general", if general == [] then None else Some(General(general)))
  }

  /** Every finding of every section. */
  function AllVulns(sections: seq<(string, Section)>): seq<Vuln> {
    if sections == [] then [] else sections[0].1.vulns + AllVulns(sections[1..])
  }

  /** `scan_all_files` as written: the sections are reported, but the summary
      and recommendations are computed from the severity buckets, which
      nothing fills. */
  function ScanAllFiles(python: seq<(string, Option<string>)>, shell: seq<(string, Option<string>)>,
                        config: seq<(string, Option<string>)>, general: seq<Vuln>): (r: SecurityReport)
    ensures TotalOf(r.summary) == 0
    ensures r.recommendations == [NoneFound] + StandingAdvice()
  {
    AllClearIsConsistent(NoCounts());
    SecurityReport(Sections(python, shell, config, general), NoCounts(), Recommendations(NoCounts()))
  }

  /** The report over given sections with every finding counted under its
      severity, as the summary evidently intends. */
  function ReportCounted(sections: seq<(string, Section)>): (r: SecurityReport)
    ensures r.sections == sections
    ensures TotalOf(r.summary) == |AllVulns(sections)|
    ensures r.summary.critical == CountOf(AllVulns(sections), Critical)
    ensures r.summary.high == CountOf(AllVulns(sections), High)
    ensures NoneFound in r.recommendations <==> AllVulns(sections) == []
  {
    TallyCounts(AllVulns(sections));
    var c := Tally(AllVulns(sections));
    SecurityReport(sections, c, Recommendations(c))
  }

  /** `scan_all_files` with the summary counted. */
  function ScanAllFilesCounted(python: seq<(string, Option<string>)>, shell: seq<(string, Option<string>)>,
                               config: seq<(string, Option<string>)>, general: seq<Vuln>): (r: SecurityReport)
    ensures r.sections == Sections(python, shell, config, general)
    ensures TotalOf(r.summary) == |AllVulns(r.sections)|
    ensures r.summary.critical == CountOf(AllVulns(r.sections), Critical)
  {
    ReportCounted(Sections(python, shell, config, general))
  }

  /** As written, a Python file with a line calling `eval(` has that finding
      reported in its section, and yet the summary counts no critical finding
      and the recommendations say nothing was found; counted, the critical
      finding is there. */
  lemma EvalLineGoesUncounted(file: string, text: string, k: nat)
    requires k < |SplitOn(text, '\n')| && Contains(Strip(SplitOn(text, '\n')[k]), "eval(")
    ensures var python := [(file, Some(text))];
      && ScanAllFiles(python, [], [], []).summary.critical == 0
      && NoneFound in ScanAllFiles(python, [], [], []).recommendations
      && ScanAllFilesCounted(python, [], [], []).summary.critical > 0
  {
    var j := EvalLineFound(file, text, k);
    var python := [(file, Some(text))];
    OnlyPythonFile(file, Some(text));
    CriticalCounted(ScanFile(PythonSource, file, Some(text)), j);
    assert ScanAllFilesCounted(python, [], [], []).summary.critical
      == CountOf(ScanFile(PythonSource, file, Some(text)), Critical);
  }

  /** The findings of a scan of one Python file and nothing else are that
      file's. */
  lemma OnlyPythonFile(file: string, content: Option<string>)
    ensures AllVulns(Sections([(file, content)], [], [], [])) == ScanFile(PythonSource, file, content)
  {
    var vs := ScanFile(PythonSource, file, content);
    var python := [(file, content)];
    assert python[1..] == [];
    assert ScanFiles(PythonSource, python) == vs + [];
    assert vs + [] == vs;
    assert ScanGroup(PythonSource, python) == Some(Scanned(1, vs));
    var sections := Sections(python, [], [], []);
    assert sections == [("python", Scanned(1, vs))] + [] + [] + [];
    assert sections[1..] == [];
  }

  /** A line calling `eval(` puts a critical finding in its file's scan. */
  lemma EvalLineFound(file: string, text: string, k: nat) returns (j: nat)
    requires k < |SplitOn(text, '\n')| && Contains(Strip(SplitOn(text, '\n')[k]), "eval(")
    ensures j < |ScanFile(PythonSource, file, Some(text))|
    ensures SeverityOf(ScanFile(PythonSource, file, Some(text))[j].threat) == Critical
  {
    var lines := SplitOn(text, '\n');
    var vs := ScanFile(PythonSource, file, Some(text));
    var v := Vuln(file, 1 + k, EvalCall, Some(Strip(lines[k])));
    EvalLineVulns(lines[k], 1 + k, file);
    FoundOnItsLine(PythonSource, lines, file, k, v);
    OnLineFrom(vs, 1 + k, 0);
    j :| 0 <= j < |vs| && vs[j] == v;
  }

  /** The finding of a line calling `eval(`. */
  lemma EvalLineVulns(line: string, n: nat, file: string)
    requires Contains(Strip(line), "eval(")
    ensures LineVulns(PythonSource, line, n, file) == [Vuln(file, n, EvalCall, Some(Strip(line)))]
  {
    EvalIsFlagged(Strip(line));
  }

  /** A line's finding is the scan's finding on that line. */
  lemma FoundOnItsLine(src: Source, lines: seq<string>, file: string, k: nat, v: Vuln)
    requires k < |lines| && LineVulns(src, lines[k], 1 + k, file) == [v]
    ensures OnLine(ScanLines(src, lines, 1, file), 1 + k) == [v]
  {
    ScanReportsEachLine(src, lines, 1, file, k);
  }

  /** A critical finding is counted. */
  lemma CriticalCounted(vs: seq<Vuln>, j: nat)
    requires j < |vs| && SeverityOf(vs[j].threat) == Critical
    ensures CountOf(vs, Critical) > 0
  {
    CountOfPositive(vs, Critical);
  }
}

=== FILE: stats.dfy ===
/** Summary statistics over a list of measurements, as the two monitoring
    scripts compute them with `sum`, `min`, `max`, `len` and `sorted`.
    Python floats are modelled as reals. */
module Stats {

  function Sum(xs: seq<real>): real {
    if xs == [] then 0.0 else xs[0] + Sum(xs[1..])
  }

  /** `min(xs)`: an element no larger than any other. */
  function MinOf(xs: seq<real>): (m: real)
    requires xs != []
    ensures m in xs
    ensures forall k :: 0 <= k < |xs| ==> m <= xs[k]
  {
    if |xs| == 1 then xs[0]
    else
      var rest := MinOf(xs[1..]);
      assert forall k :: 1 <= k < |xs| ==> xs[k] == xs[1..][k - 1];
      if xs[0] <= rest then xs[0] else rest
  }

  /** `max(xs)`: an element no smaller than any other. */
  function MaxOf(xs: seq<real>): (m: real)
    requires xs != []
    ensures m in xs
    ensures forall k :: 0 <= k < |xs| ==> xs[k] <= m
  {
    if |xs| == 1 then xs[0]
    else
      var rest := MaxOf(xs[1..]);
      assert forall k :: 1 <= k < |xs| ==> xs[k] == xs[1..][k - 1];
      if xs[0] >= rest then xs[0] else rest
  }

  /** Values within [lo, hi] sum to within [lo, hi] times their number. */
  lemma {:induction false} SumWithin(xs: seq<real>, lo: real, hi: real)
    requires forall k :: 0 <= k < |xs| ==> lo <= xs[k] <= hi
    ensures lo * |xs| as real <= Sum(xs) <= hi * |xs| as real
  {
    if xs != [] {
      SumWithin(xs[1..], lo, hi);
    }
  }

  /** `sum(xs) / len(xs)`. */
  function Mean(xs: seq<real>): real
    requires xs != []
  {
    Sum(xs) / |xs| as real
  }

  /** Values within [lo, hi] have their mean within [lo, hi]. */
  lemma MeanBetween(xs: seq<real>, lo: real, hi: real)
    requires xs != [] && forall k :: 0 <= k < |xs| ==> lo <= xs[k] <= hi
    ensures lo <= Mean(xs) <= hi
  {
    SumWithin(xs, lo, hi);
    DivWithin(Sum(xs), |xs| as real, lo, hi);
  }

  /** The mean lies between the minimum and the maximum. */
  lemma MeanWithin(xs: seq<real>)
    requires xs != []
    ensures MinOf(xs) <= Mean(xs) <= MaxOf(xs)
  {
    MeanBetween(xs, MinOf(xs), MaxOf(xs));
  }

  /** Division by a positive count keeps bounds scaled by that count. */
  lemma DivWithin(t: real, n: real, lo: real, hi: real)
    requires n > 0.0 && lo * n <= t <= hi * n
    ensures lo <= t / n <= hi
  {
    assert t / n * n == t;
  }

  /** The mean of equal values is that value. */
  lemma MeanOfConstant(xs: seq<real>, c: real)
    requires xs != [] && forall k :: 0 <= k < |xs| ==> xs[k] == c
    ensures Mean(xs) == c
  {
    MeanBetween(xs, c, c);
  }

  // ---------------------------------------------------------------------
  // Sorting

  predicate Sorted(xs: seq<real>) {
    forall i, j :: 0 <= i < j < |xs| ==> xs[i] <= xs[j]
  }

  /** `x` inserted before the first element of `s` not smaller than it. */
  function Insert(x: real, s: seq<real>): (r: seq<real>)
    ensures multiset(r) == multiset(s) + multiset{x}
  {
    if s == [] || x <= s[0] then [x] + s
    else
      assert s == [s[0]] + s[1..];
      [s[0]] + Insert(x, s[1..])
  }

  /** Inserting into a sorted list keeps it sorted. */
  lemma {:induction false} InsertSorted(x: real, s: seq<real>)
    requires Sorted(s)
    ensures Sorted(Insert(x, s))
  {
    if s != [] && x > s[0] {
      var rest := Insert(x, s[1..]);
      InsertSorted(x, s[1..]);
      forall k | 0 <= k < |rest| ensures s[0] <= rest[k] {
        assert rest[k] in multiset(rest);
        assert rest[k] == x || rest[k] in multiset(s[1..]);
        if rest[k] != x {
          var j :| 0 <= j < |s[1..]| && s[1..][j] == rest[k];
          assert s[j + 1] == rest[k];
        }
      }
    }
  }

  /** `sorted(xs)`: an ordered permutation of `xs`. */
  function Sort(xs: seq<real>): (r: seq<real>)
    ensures Sorted(r) && multiset(r) == multiset(xs)
  {
    if xs == [] then []
    else
      assert xs == [xs[0]] + xs[1..];
      InsertSorted(xs[0], Sort(xs[1..]));
      Insert(xs[0], Sort(xs[1..]))
  }

  /** Every element of a permutation of `xs` lies between the minimum and
      the maximum of `xs`. */
  lemma PermutationWithin(xs: seq<real>, r: seq<real>, k: nat)
    requires xs != [] && multiset(r) == multiset(xs) && k < |r|
    ensures MinOf(xs) <= r[k] <= MaxOf(xs)
  {
    assert r[k] in multiset(xs);
  }

  // ---------------------------------------------------------------------
  // The two `calculate_stats`

  /** The statistics generate-pipeline-report.py reports. */
  datatype Basic = Basic(mean: real, min: real, max: real, count: nat)

  /** The `calculate_stats` of generate-pipeline-report.py: all zeros for no
      values. */
  function BasicStats(xs: seq<real>): (s: Basic)
    ensures xs == [] <==> s == Basic(0.0, 0.0, 0.0, 0)
    ensures s.count == |xs|
    ensures xs != [] ==> s.min <= s.mean <= s.max && s.min in xs && s.max in xs
  {
    if xs == [] then Basic(0.0, 0.0, 0.0, 0)
    else
      MeanWithin(xs);
      Basic(Mean(xs), MinOf(xs), MaxOf(xs), |xs|)
  }

  /** The statistics generate-development-analytics.py reports. */
  datatype WithMedian = WithMedian(mean: real, min: real, max: real, count: nat, median: real)

  /** The middle element of sorted `s` for an odd length, the average of the
      two middle ones for an even length. */
  function Median(s: seq<real>): real
    requires s != []
  {
    var n := |s|;
    if n % 2 == 1 then s[n / 2] else (s[n / 2 - 1] + s[n / 2]) / 2.0
  }

  /** The `calculate_stats` of generate-development-analytics.py: all zeros
      for no values, otherwise with the median of the sorted values. */
  function MedianStats(xs: seq<real>): (s: WithMedian)
    ensures xs == [] <==> s == WithMedian(0.0, 0.0, 0.0, 0, 0.0)
    ensures s.count == |xs|
    ensures xs != [] ==> s.min <= s.mean <= s.max && s.min <= s.median <= s.max
    ensures xs != [] ==> s.mean == Mean(xs) && s.min == MinOf(xs) && s.max == MaxOf(xs)
    ensures xs != [] ==> s.median == Median(Sort(xs))
  {
    if xs == [] then WithMedian(0.0, 0.0, 0.0, 0, 0.0)
    else
      var sorted := Sort(xs);
      var n := |sorted|;
      assert |sorted| == |xs| by {
        assert |multiset(sorted)| == |multiset(xs)|;
      }
      MeanWithin(xs);
      PermutationWithin(xs, sorted, n / 2);
      PermutationWithin(xs, sorted, if n % 2 == 1 then n / 2 else n / 2 - 1);
      WithMedian(Mean(xs), MinOf(xs), MaxOf(xs), |xs|, Median(sorted))
  }

  /** The median is the value at or around the middle of the sorted values:
      no more than half of them lie strictly below it and no more than half
      strictly above. */
  lemma MedianSplits(s: seq<real>)
    requires s != [] && Sorted(s)
    ensures forall k :: 0 <= k < (|s| - 1) / 2 ==> s[k] <= Median(s)
    ensures forall k :: |s| / 2 < k < |s| ==> Median(s) <= s[k]
  {
  }

  /** The reported median splits the values themselves: for an odd number of
      values it is one of them, and it is no smaller than the lower half of
      their sorted order and no larger than the upper half. */
  lemma MedianStatsSplits(xs: seq<real>)
    requires xs != []
    ensures var sorted, m := Sort(xs), MedianStats(xs).median;
      |sorted| == |xs|
      && (|xs| % 2 == 1 ==> m in xs)
      && (forall k :: 0 <= k < (|xs| - 1) / 2 ==> sorted[k] <= m)
      && (forall k :: |xs| / 2 < k < |xs| ==> m <= sorted[k])
  {
    var sorted := Sort(xs);
    assert |sorted| == |xs| by {
      assert |multiset(sorted)| == |multiset(xs)|;
    }
    MedianSplits(sorted);
    if |xs| % 2 == 1 {
      assert sorted[|xs| / 2] in multiset(xs);
    }
  }
}

=== FILE: text.dfy ===
/** The handful of Python `str` operations the quality tooling builds on:
    whitespace stripping, substring search, non-overlapping `count`, ASCII
    case mapping and the `\w` / `\d` character classes of its regular
    expressions. */
module Text {

  /** Characters for which Python's `str.isspace` holds; `str.strip()` removes
      them and the regular-expression class `\s` matches them. */
  predicate IsSpace(c: char) {
    if c <= ' ' then '\t' <= c <= '\r' || '\U{001C}' <= c
    else IsWideSpace(c)
  }

  /** The whitespace characters beyond ASCII. */
  predicate IsWideSpace(c: char) {
    c == '\U{0085}' || c == '\U{00A0}' || c == '\U{1680}' || ('\U{2000}' <= c <= '\U{200A}')
    || c == '\U{2028}' || c == '\U{2029}' || c == '\U{202F}' || c == '\U{205F}' || c == '\U{3000}'
  }

  predicate IsDigit(c: char) {
    '0' <= c <= '9'
  }

  predicate IsAsciiLetter(c: char) {
    ('a' <= c <= 'z') || ('A' <= c <= 'Z')
  }

  predicate IsAsciiUpper(c: char) {
    'A' <= c <= 'Z'
  }

  /** The regular-expression class `\w`, restricted to ASCII. */
  predicate IsWordChar(c: char) {
    IsAsciiLetter(c) || IsDigit(c) || c == '_'
  }

  predicate AllSpace(s: string) {
    forall i :: 0 <= i < |s| ==> IsSpace(s[i])
  }

  /** `s.lstrip()`. */
  function TrimLeft(s: string): string {
    if |s| > 0 && IsSpace(s[0]) then TrimLeft(s[1..]) else s
  }

  /** `s.rstrip()`. */
  function TrimRight(s: string): string {
    if |s| > 0 && IsSpace(s[|s| - 1]) then TrimRight(s[..|s| - 1]) else s
  }

  /** `s.strip()`. Its properties are stated as lemmas rather than
      postconditions, which keeps every proof that merely mentions a stripped
      line from reasoning about whitespace. */
  function Strip(s: string): string {
    TrimRight(TrimLeft(s))
  }

  /** `lstrip` drops a whitespace prefix and stops at the first other character. */
  lemma {:induction false} TrimLeftDropsSpace(s: string)
    ensures var r := TrimLeft(s);
      && |r| <= |s| && r == s[|s| - |r|..]
      && AllSpace(s[..|s| - |r|])
      && (r == [] || !IsSpace(r[0]))
    decreases |s|
  {
    if |s| > 0 && IsSpace(s[0]) {
      TrimLeftDropsSpace(s[1..]);
      var r := TrimLeft(s[1..]);
      assert s[1..][..|s| - 1 - |r|] == s[1..|s| - |r|];
      assert forall i :: 0 <= i < |s| - |r| ==> s[..|s| - |r|][i] == s[i];
      assert forall i :: 1 <= i < |s| - |r| ==> s[i] == s[1..|s| - |r|][i - 1];
    }
  }

  /** `rstrip` drops a whitespace suffix and stops at the last other character. */
  lemma {:induction false} TrimRightDropsSpace(s: string)
    ensures var r := TrimRight(s);
      && |r| <= |s| && r == s[..|r|]
      && AllSpace(s[|r|..])
      && (r == [] || !IsSpace(r[|r| - 1]))
    decreases |s|
  {
    if |s| > 0 && IsSpace(s[|s| - 1]) {
      var t := s[..|s| - 1];
      TrimRightDropsSpace(t);
      var r := TrimRight(t);
      assert t[..|r|] == s[..|r|];
      assert s[|r|..] == t[|r|..] + [s[|s| - 1]];
      AllSpaceConcat(t[|r|..], [s[|s| - 1]]);
    }
  }

  lemma AllSpaceConcat(x: string, y: string)
    ensures AllSpace(x + y) <==> AllSpace(x) && AllSpace(y)
  {
    if AllSpace(x + y) {
      forall i | 0 <= i < |x| ensures IsSpace(x[i]) {
        assert (x + y)[i] == x[i];
      }
      forall i | 0 <= i < |y| ensures IsSpace(y[i]) {
        assert (x + y)[|x| + i] == y[i];
      }
    }
    if AllSpace(x) && AllSpace(y) {
      forall i | 0 <= i < |x + y| ensures IsSpace((x + y)[i]) {
        if i >= |x| {
          assert (x + y)[i] == y[i - |x|];
        }
      }
    }
  }

  /** `r` sits in `s` at `a` with only whitespace around it. */
  predicate StrippedAt(s: string, r: string, a: nat) {
    a + |r| <= |s| && s[a..a + |r|] == r && AllSpace(s[..a]) && AllSpace(s[a + |r|..])
  }

  /** `s.strip()` is the infix of `s` left between a whitespace prefix and a
      whitespace suffix, and neither of its ends is whitespace. */
  lemma StripIsInfix(s: string)
    ensures var r := Strip(s);
      && (r == [] || (!IsSpace(r[0]) && !IsSpace(r[|r| - 1])))
      && exists a: nat :: StrippedAt(s, r, a)
  {
    var l := TrimLeft(s);
    TrimLeftDropsSpace(s);
    TrimRightDropsSpace(l);
    var r := TrimRight(l);
    var a := |s| - |l|;
    assert s[a..a + |r|] == r;
    assert s[a + |r|..] == l[|r|..];
    assert StrippedAt(s, r, a);
  }

  /** `s.strip()` is empty exactly when `s` is all whitespace. */
  lemma StripEmptyIff(s: string)
    ensures Strip(s) == [] <==> AllSpace(s)
  {
    var l := TrimLeft(s);
    TrimLeftDropsSpace(s);
    TrimRightDropsSpace(l);
    var r := TrimRight(l);
    var a := |s| - |l|;
    if r == [] {
      assert l[|r|..] == l;
      assert s == s[..a] + l;
      AllSpaceConcat(s[..a], l);
    } else {
      assert s[a] == l[0] == r[0];
    }
  }

  /** The end of the run of whitespace starting at `i` (what a greedy `\s*` consumes). */
  function SkipSpace(s: string, i: nat): (j: nat)
    requires i <= |s|
    ensures i <= j <= |s|
    ensures j == |s| || !IsSpace(s[j])
    decreases |s| - i
  {
    if i < |s| && IsSpace(s[i]) then SkipSpace(s, i + 1) else i
  }

  predicate StartsWith(s: string, p: string) {
    |p| <= |s| && s[..|p|] == p
  }

  predicate EndsWith(s: string, p: string) {
    |p| <= |s| && s[|s| - |p|..] == p
  }

  /** `p` occurs in `s` starting at index `i`. */
  predicate OccursAt(s: string, p: string, i: int) {
    0 <= i && i + |p| <= |s| && s[i..i + |p|] == p
  }

  /** Python's `p in s`. */
  predicate Contains(s: string, p: string) {
    StartsWith(s, p) || (|s| > 0 && Contains(s[1..], p))
  }

  /** `Contains` agrees with the existence of an occurrence index. */
  lemma {:induction false} ContainsIff(s: string, p: string)
    ensures Contains(s, p) <==> exists i :: OccursAt(s, p, i)
  {
    if StartsWith(s, p) {
      assert OccursAt(s, p, 0);
    } else if |s| > 0 {
      ContainsIff(s[1..], p);
      if Contains(s[1..], p) {
        var i :| OccursAt(s[1..], p, i);
        assert s[i + 1..i + 1 + |p|] == s[1..][i..i + |p|];
        assert OccursAt(s, p, i + 1);
      }
      if exists i :: OccursAt(s, p, i) {
        var i :| OccursAt(s, p, i);
        assert i != 0;
        assert s[1..][i - 1..i - 1 + |p|] == s[i..i + |p|];
        assert OccursAt(s[1..], p, i - 1);
      }
    }
  }

  /** An occurrence of `a + b` in `s` contains an occurrence of `b`. */
  lemma ContainsSuffixOfNeedle(s: string, a: string, b: string)
    requires Contains(s, a + b)
    ensures Contains(s, b)
  {
    ContainsIff(s, a + b);
    var i :| OccursAt(s, a + b, i);
    assert s[i + |a|..i + |a| + |b|] == (a + b)[|a|..];
    assert OccursAt(s, b, i + |a|);
    ContainsIff(s, b);
  }

  /** An occurrence of `a + b` in `s` contains an occurrence of `a`. */
  lemma ContainsPrefixOfNeedle(s: string, a: string, b: string)
    requires Contains(s, a + b)
    ensures Contains(s, a)
  {
    ContainsIff(s, a + b);
    var i :| OccursAt(s, a + b, i);
    assert s[i..i + |a|] == (a + b)[..|a|];
    assert OccursAt(s, a, i);
    ContainsIff(s, a);
  }

  /** Python's `s.count(p)`: occurrences of `p` found scanning left to right
      without overlap; the empty needle is counted `|s| + 1` times. */
  function Count(s: string, p: string): (n: nat)
    ensures p != [] ==> n * |p| <= |s|
    ensures p != [] ==> (n > 0 <==> Contains(s, p))
    decreases |s|
  {
    if p == [] then |s| + 1
    else if |s| < |p| then NoRoomNoOccurrence(s, p); 0
    else if s[..|p|] == p then 1 + Count(s[|p|..], p)
    else ContainsStep(s, p); Count(s[1..], p)
  }

  lemma {:induction false} NoRoomNoOccurrence(s: string, p: string)
    requires |s| < |p|
    ensures !Contains(s, p)
    decreases |s|
  {
    if |s| > 0 {
      NoRoomNoOccurrence(s[1..], p);
    }
  }

  lemma ContainsStep(s: string, p: string)
    requires |p| <= |s| && s[..|p|] != p
    ensures Contains(s, p) <==> Contains(s[1..], p)
  {
  }

  /** An occurrence in a suffix is an occurrence in the whole string. */
  lemma ContainsDrop(s: string, p: string, k: nat)
    requires k <= |s| && Contains(s[k..], p)
    ensures Contains(s, p)
  {
    ContainsIff(s[k..], p);
    var i :| OccursAt(s[k..], p, i);
    assert s[k..][i..i + |p|] == s[k + i..k + i + |p|];
    assert OccursAt(s, p, k + i);
    ContainsIff(s, p);
  }

  /** ASCII `str.lower()` of one character. */
  function LowerChar(c: char): char {
    if 'A' <= c <= 'Z' then (c as int + 32) as char else c
  }

  /** ASCII `str.upper()` of one character. */
  function UpperChar(c: char): char {
    if 'a' <= c <= 'z' then (c as int - 32) as char else c
  }

  function Lower(s: string): (r: string)
    ensures |r| == |s|
  {
    seq(|s|, i requires 0 <= i < |s| => LowerChar(s[i]))
  }

  function Upper(s: string): (r: string)
    ensures |r| == |s|
  {
    seq(|s|, i requires 0 <= i < |s| => UpperChar(s[i]))
  }

  /** Length of the longest prefix of `s` made of `\w` characters. */
  function WordPrefixLen(s: string): (n: nat)
    ensures n <= |s|
    ensures forall i :: 0 <= i < n ==> IsWordChar(s[i])
    ensures n == |s| || !IsWordChar(s[n])
  {
    if |s| > 0 && IsWordChar(s[0]) then 1 + WordPrefixLen(s[1..]) else 0
  }

  predicate AllDigits(w: string) {
    forall i :: 0 <= i < |w| ==> IsDigit(w[i])
  }

  /** The maximal runs of `\w` characters of `s`, left to right. */
  function Words(s: string): (r: seq<string>)
    ensures forall k :: 0 <= k < |r| ==> r[k] != [] && forall i :: 0 <= i < |r[k]| ==> IsWordChar(r[k][i])
    decreases |s|
  {
    if s == [] then []
    else if !IsWordChar(s[0]) then Words(s[1..])
    else
      var n := WordPrefixLen(s);
      [s[..n]] + Words(s[n..])
  }

  /** Python's `s.find(p)`: the index of the first occurrence of `p`, or -1. */
  function Find(s: string, p: string): (i: int)
    ensures -1 <= i <= |s|
    ensures i == -1 <==> !Contains(s, p)
    ensures i >= 0 ==> OccursAt(s, p, i) && forall j :: 0 <= j < i ==> !OccursAt(s, p, j)
    decreases |s|
  {
    if StartsWith(s, p) then 0
    else if |s| == 0 then -1
    else
      var k := Find(s[1..], p);
      if k == -1 then -1
      else
        assert s[k + 1..k + 1 + |p|] == s[1..][k..k + |p|];
        forall j | 1 <= j < k + 1 ensures !OccursAt(s, p, j) {
          if OccursAt(s, p, j) {
            assert s[1..][j - 1..j - 1 + |p|] == s[j..j + |p|];
            assert OccursAt(s[1..], p, j - 1);
          }
        }
        k + 1
  }

  /** `s.split(p)[0]`: the text before the first occurrence of `p`, or all of `s`. */
  function SplitHead(s: string, p: string): (r: string)
    ensures StartsWith(s, r)
  {
    var i := Find(s, p);
    if i < 0 then s else s[..i]
  }

  /** `sep.join(parts)` for a one-character separator. */
  function Join(parts: seq<string>, sep: char): string {
    if parts == [] then []
    else if |parts| == 1 then parts[0]
    else parts[0] + [sep] + Join(parts[1..], sep)
  }

  /** The number of occurrences of `c` in `s`. */
  function CharCount(s: string, c: char): nat {
    if s == [] then 0 else (if s[0] == c then 1 else 0) + CharCount(s[1..], c)
  }

  /** Python's `s.split(sep)` for a one-character separator: the pieces
      between separators, as many as there are separators plus one. */
  function SplitOn(s: string, sep: char): (r: seq<string>)
    ensures |r| == CharCount(s, sep) + 1
    ensures forall k :: 0 <= k < |r| ==> sep !in r[k]
    decreases |s|
  {
    if s == [] then [[]]
    else
      var rest := SplitOn(s[1..], sep);
      if s[0] == sep then [[]] + rest
      else [[s[0]] + rest[0]] + rest[1..]
  }

  /** Joining after an empty first piece starts with the separator. */
  lemma JoinAfterEmpty(parts: seq<string>, sep: char)
    requires parts != []
    ensures Join([[]] + parts, sep) == [sep] + Join(parts, sep)
  {
    assert ([[]] + parts)[1..] == parts;
  }

  /** Joining after a character is put in front of the first piece. */
  lemma JoinAfterChar(c: char, parts: seq<string>, sep: char)
    requires parts != []
    ensures Join([[c] + parts[0]] + parts[1..], sep) == [c] + Join(parts, sep)
  {
    var q := [[c] + parts[0]] + parts[1..];
    if |parts| > 1 {
      assert q[1..] == parts[1..];
      assert Join(q, sep) == [c] + parts[0] + [sep] + Join(parts[1..], sep);
    }
  }

  /** Splitting and joining again gives back the original text. */
  lemma {:induction false} JoinSplitOn(s: string, sep: char)
    ensures Join(SplitOn(s, sep), sep) == s
    decreases |s|
  {
    if s != [] {
      var rest := SplitOn(s[1..], sep);
      JoinSplitOn(s[1..], sep);
      if s[0] == sep {
        JoinAfterEmpty(rest, sep);
      } else {
        JoinAfterChar(s[0], rest, sep);
      }
      assert s == [s[0]] + s[1..];
    }
  }

  /** The `\w` characters of `s`, in order. */
  function WordChars(s: string): string {
    if s == [] then [] else (if IsWordChar(s[0]) then [s[0]] else []) + WordChars(s[1..])
  }

  function Concat(ws: seq<string>): string {
    if ws == [] then [] else ws[0] + Concat(ws[1..])
  }

  /** The words of `Words` are exactly the word characters of `s`: nothing is
      lost and nothing is added. */
  lemma {:induction false} WordsCoverWordChars(s: string)
    ensures Concat(Words(s)) == WordChars(s)
    decreases |s|
  {
    if s != [] {
      if !IsWordChar(s[0]) {
        WordsCoverWordChars(s[1..]);
      } else {
        var n := WordPrefixLen(s);
        WordsCoverWordChars(s[n..]);
        WordCharsOfRun(s, n);
      }
    }
  }

  lemma {:induction false} WordCharsOfRun(s: string, n: nat)
    requires n <= |s| && forall i :: 0 <= i < n ==> IsWordChar(s[i])
    ensures WordChars(s) == s[..n] + WordChars(s[n..])
    decreases n
  {
    if n > 0 {
      WordCharsOfRun(s[1..], n - 1);
      assert s[1..][n - 1..] == s[n..];
      assert [s[0]] + s[1..][..n - 1] == s[..n];
    }
  }

  /** `f` applied to each line and its number, the first line numbered
      `first`. */
  function MapNumbered<T>(f: (string, nat) -> T, lines: seq<string>, first: nat): (r: seq<T>)
    ensures |r| == |lines|
    ensures forall i :: 0 <= i < |lines| ==> r[i] == f(lines[i], first + i)
  {
    seq(|lines|, i requires 0 <= i < |lines| => f(lines[i], first + i))
  }
}
